=== FILE: README.md ===
# Brainwave extension core, modelled in Dafny

Brainwave is a browser extension that saves web content into a Blinko note
server. It can save an AI summary of a page, an extraction of the page's
text, a text selection, an image, or a hand-written "quick note" with
attached images. This project models the extension's logic as pure
functions over immutable records and proves properties of that model:

- `js.dfy` spells out the JavaScript semantics the code relies on.
  `undefined` is `None`. `Truthy`, `Flag` and `TruthyNumber` give the
  truthiness of strings, booleans and numbers, and `Or` is `x || d`.
- `strings.dfy` models `trim`, whitespace, `includes`/`indexOf`,
  `String.prototype.replace` with a string pattern (including its `$`
  replacement patterns), and trailing-character stripping.
- `settings.dfy` (module `Preferences`) covers the settings record, its
  defaults, the default-filling load, the form normalisation on save, and
  the AI-configuration fetch.
- `api.dfy` covers:
  - the model-URL normalisation;
  - the prompt filling and the summary request;
  - the note body `sendToBlinko` composes (backlink and tag rules) and its
    request and outcome;
  - the image upload.
- `jinareader.dfy` models the reader-service request and how its answer
  becomes page content.
- `summarystate.dfy` models the background's in-memory summary state and
  the stored draft.
- `messages.dfy` and `background.dfy` model the runtime messages and the
  background listener's dispatch: the immediate reply, whether the channel
  stays open, and the work each message starts. They also cover the pushes
  that follow and the notification-click flag.
- `contextmenu.dfy` models the right-click handler's six menu items.
- `quicknote.dfy` models the quick-note tab:
  - stored text;
  - the attachment list and the object-URL handles for its previews, as a
    set of live handles;
  - removing and clearing;
  - sending.
- `summary.dfy` (module `Review`) and `popup.dfy` model the review flow:
  restoring, showing, saving and cancelling a draft. They also cover the
  choice of opening tab, the extract button, the popup's listener and its
  close handler. `view.dfy` holds the screen state these drive: the status
  line, the preview and the text box.
- `contentextractor.dfy` models the page-text normalisation of the content
  script and `getImageInfo`.

Anything outside the extension is an input to the function that uses it:

- network answers;
- fetch, upload and page replies;
- whether `new URL` accepted a string;
- the active tab;
- the current time.

Every operation is total. A thrown error becomes an `Err`, a failed status
or a "failed" notification, with the same message text the code produces.

The code has two notable behaviours, both proved in the model.

**Prompt filling.** The summary prompt is built with
`template.replace('{content}', content)`. JavaScript therefore interprets
`$` sequences in the page text as replacement patterns. See the Findings
section. The rest of the model fills the prompt literally.

**Backlink removal.** The content script deletes backlinks with a pattern
that uses the full-width colon `：`. The backlink the extension itself
writes ("Original link: [title](url)") uses an ASCII colon. Its own
backlinks therefore survive extraction (`ContentExtractor.OwnBacklinkSurvives`),
and only full-width-colon links are deleted
(`ContentExtractor.RemoveLinksDeletesLink`). The intent behind the pattern
cannot be settled from the code, so the model keeps the pattern as written.

Where the documentation and the code differ, the model follows the code:

- Only quick notes check for an existing backlink before appending one;
  summaries and excerpts get a new one each time they are saved.
- Selected text is sent as an excerpt, so it takes the extract tag;
  `selectionTag` is never read.
- The review screen's save succeeds on the background's immediate
  `{success: true}` acknowledgement, not on the save's real outcome.
- The preview opens only when the draft's summary is non-empty.
- `loadQuickNote` writes the repaired list, object-URL handles included,
  back to storage.
- The floating-ball push is skipped for a sender whose tab id is 0.

## Model

| member | source | states |
|---|---|---|
| Preferences.KeepTruthy | js/settings.js:53-55 | a falsy (missing or empty) stored string is replaced by the default; a set one is kept |
| Preferences.KeepDefined | js/settings.js:56-64 | only a missing value is replaced; an explicit `false` or "" survives |
| Preferences.Load | js/settings.js:43-110 | no stored record, or any failure while loading, gives the defaults. Otherwise model name, prompt and Jina key are defaulted when falsy, temperature when falsy (0 and NaN included), toggles and the clip tag only when missing, and endpoints, keys and the other tags are kept as stored |
| Preferences.ZeroTemperatureLoadsDefault | js/settings.js:54 | a stored temperature of 0 is falsy and loads as 0.5 |
| Preferences.LoadIdempotent | js/settings.js:43-66 | loading what load produced changes nothing: all defaults are already filled |
| Preferences.Save | js/settings.js:114-136 | endpoints and keys are trimmed; tags are stored untrimmed; a blank model name, empty prompt or falsy parsed temperature falls back to its default; the toggles are stored as checked |
| Preferences.Pushes | js/settings.js:141-152 | exactly one floating-ball push per open tab, in order, each carrying the saved flag |
| Preferences.LoadAfterSave | js/settings.js:114-136 | a record written by save loads back unchanged |
| Preferences.FetchAiConfig | js/settings.js:198-240 | a blank url or key sends nothing. The request goes to `/config/list` under the trimmed, slash-stripped url. Only an "OpenAI" provider changes the three model fields; a thrown request, a non-OK status and an unsupported provider each leave them and report their message |
| Preferences.FetchAiConfigStable | js/settings.js:198-240 | fetching the configuration again with the same answer changes nothing more |
| Api.FullApiUrl | js/api.js:2-19 | an unparsable base is an error with its message. A base containing the chat path is kept; one containing "/v1" keeps the text before its first "/v1"; others lose trailing slashes. The last two get "/v1" and the endpoint |
| Api.FullApiUrlKeepsChatPath | js/api.js:6-8 | any url ending in `/v1/chat/completions` is returned unchanged |
| Api.FullApiUrlIdempotent | js/api.js:2-19 | normalising the chat url a second time returns it unchanged |
| Api.BuildPrompt | js/api.js:24 | a template without the placeholder is returned unchanged |
| Api.BuildPromptDollarPattern | js/api.js:24 | as written, page text `$&` leaves the template unfilled, which the literal fill does not |
| Api.LiteralPrompt | js/api.js:24 | the page text appears verbatim in place of the first placeholder, and the text around it is the template's |
| Api.BuildPromptLiteral | js/api.js:24 | for page text without `$`, the as-written prompt equals the literal one |
| Api.GetSummaryFromModel | js/api.js:22-60 | a missing template throws first. A request is sent exactly when the model url parses, with the page text put literally at the placeholder, the normalised url, the bearer key, the model name when set (an undefined name is left out of the body, as `JSON.stringify` does) and the temperature. The summary is the trimmed content of the first choice. A thrown request, a non-OK status, a reply without a first message, and a message whose content is `null` or missing (the TypeError of `.trim`) each give their own error text |
| Api.SummaryPromptAsSource | js/api.js:22-36 | for page text without `$` the prompt sent is the one `replace` builds; the request is the same whatever the model endpoint answers |
| Api.ComposeBody | js/api.js:121-148 | the content is always a prefix. Summaries and excerpts get the backlink when there is a url and their toggle is on, then their tag. Images get a "> Source:" line, with "\n\n" only after non-empty text, then their tag. A quick note whose content already contains its backlink is the content alone; otherwise, with a url and the toggle on, it is the content plus exactly that backlink, and without them the content alone |
| Api.QuickNoteComposeIdempotent | js/api.js:128-130 | composing a quick-note body twice equals composing it once: the duplicate check prevents a second backlink |
| Api.SummaryComposeNotIdempotent | js/api.js:124-125 | a summary has no such check: composing again appends a second backlink |
| Api.ImageBodyExample | js/api.js:133-135 | an image saved with no text and no tag is just its source line |
| Api.SendToBlinko | js/api.js:106-189 | without settings, server url or key nothing is sent and the result is the configuration error. Otherwise the composed body goes to `/note/upsert` with the key; an array, a single attachment and null become the list, a one-element list and no field. Success holds exactly when the status is OK |
| Api.AttachmentList | js/api.js:156-163 | null gives no `attachments` field, a single attachment a one-element array, and an array is posted as it is |
| Api.SendRequestBeforeReply | js/api.js:150-173 | a single attachment is posted exactly as the one-element array holding it, and the request does not depend on what the server answers |
| Api.SendPostsComposedBody | js/api.js:116-189 | with a configured server, the request is the composed body and the normalised attachment list sent to `/note/upsert` with the key, and the send succeeds exactly when the server answers OK |
| Api.StripV1Suffix | js/api.js:70 | a final "/v1" and any slashes after it are removed; a url not ending so is unchanged |
| Api.UploadFile | js/api.js:63-104 | without url and key nothing is sent. The upload goes to `/file/upload` under the url minus a final "/v1". Success needs an OK status, a body status of 200 and a file path, and yields the file's name, path, size and type. A thrown request keeps its message; a non-OK status gives "Image upload failed: " and the status; an OK reply without status 200 or a path gives "Image upload response format error" |
| Api.UploadIgnoresV1Suffix | js/api.js:69-72 | a server url with or without its "/v1" suffix uploads to the same `/file/upload` address, whatever the upload answers |
| JinaReader.Headers | js/jinaReader.js:4-15 | always the JSON accept header; image stripping exactly when images are not to be saved; the bearer key exactly when its use is on and a key is set; no other header |
| JinaReader.RequestUrl | js/jinaReader.js:17 | the page url follows the reader prefix unchanged |
| JinaReader.RequestUrlInjective | js/jinaReader.js:17 | distinct page urls give distinct request urls |
| JinaReader.GetWebContent | js/jinaReader.js:2-49 | success exactly for an OK status with body code 200 and data. The content is the title heading plus the text. A thrown fetch, a bad status and a malformed body each give their error |
| JinaReader.ContentAfterHeading | js/jinaReader.js:33-34 | cutting the heading off the content recovers the page text |
| SummaryState.InitialValue | js/summaryState.js:1-6 | the state has exactly the four keys, with status "none" and the rest null |
| SummaryState.Update | js/summaryState.js:12-15 | the merge has the union of keys; patched keys take the patch's value and others keep theirs |
| SummaryState.UpdateEmpty | js/summaryState.js:12-15 | an empty patch changes nothing |
| SummaryState.UpdateTwice | js/summaryState.js:12-15 | two successive merges equal one merge of the merged patches |
| SummaryState.Clear | js/summaryState.js:17-26 | the state returns to its initial value and the stored draft is removed, nothing else |
| SummaryState.ClearIdempotent | js/summaryState.js:17-26 | clearing twice equals clearing once |
| SummaryState.SaveToStorage | js/summaryState.js:28-37 | the draft stores summary, url, title and the time, with no extraction flag; nothing else in storage changes |
| SummaryState.LoadFromStorage | js/summaryState.js:39-42 | returns the stored draft exactly when there is one |
| SummaryState.SaveThenLoad | js/summaryState.js:28-42 | loading after saving returns what was saved |
| SummaryState.ClearThenLoad | js/summaryState.js:17-42 | loading after clearing finds no draft |
| SummaryState.GetReturnsLastWrite | js/summaryState.js:8-26 | after any run of updates and clears, a key is present exactly when some write since the last clear set it, and holds the last such value |
| Messages.RequestCapture | js/summary.js:38-44 | the page's answer is used exactly when it came back with success; a thrown send, an `undefined` answer and a failed answer each give their error text |
| Messages.CaptureFlagOnly | js/summary.js:38-44 | the extraction flag changes nothing but itself: the same page answer gives the same error, or the same content |
| Background.Dispatch | js/background.js:9-115 | exactly the six background actions get a reply, and only `processAndSendContent` keeps the channel open. Each action gets its fixed reply and starts its work; `getSummaryState` starts nothing and answers with the state |
| Background.SaveAckIgnoresOutcome | js/background.js:17-34 | `saveSummary` is answered with success whatever the note, so the answer says nothing about the save |
| Background.StateReplyIsLastWrite | js/background.js:90-94 | `getSummaryState` reports the last write to each key |
| Background.AfterSave | js/background.js:19-30 | the save's own answer is pushed as `saveSummaryResponse` |
| Background.AfterFloatingBall | js/background.js:41-72 | a push goes out exactly when the sender has a non-zero tab id. It forwards the answer, or reports a rejection as a failure with its message |
| Background.AfterClear | js/background.js:96-112 | the state is reset, the draft removed, and success pushed |
| Background.NotificationClick | js/background.js:121-137 | with an active tab the quick note is flagged for that tab; otherwise nothing is written; no other key changes |
| ContextMenu.Failed | js/contextMenu.js:99-107 | a failure shows its notification and changes nothing else |
| ContextMenu.SendSelection | js/contextMenu.js:67-108 | without settings it fails. Otherwise the trimmed selection is sent as an excerpt with the tab's url and title. The success icon and notification come exactly when the send succeeded; a failed send notifies "Send Failed" with its error, or the fallback text when there is none |
| ContextMenu.SelectionClickFollowsSend | js/contextMenu.js:67-108 | a selection click posts exactly when the note server is configured, the post carries the composed excerpt and no attachment, and the success icon shows exactly when the server answers OK; a missing configuration notifies its error |
| ContextMenu.AppendSelection | js/contextMenu.js:113-120 | the trimmed selection follows the existing note after "\n\n", or stands alone when the note is empty |
| ContextMenu.AppendSelectionExtends | js/contextMenu.js:113-120 | one append keeps the existing note as a prefix |
| ContextMenu.SaveSelectionToQuickNote | js/contextMenu.js:110-141 | only the stored quick note changes, to the appended text, and the confirmation is shown |
| ContextMenu.AppendAllKeepsPrefix | js/contextMenu.js:113-123 | successive appends only add text at the end |
| ContextMenu.ImageEntry | js/contextMenu.js:166-169 | the new entry has the upload's metadata and the image's source url, and no local handle |
| ContextMenu.SaveImageToQuickNote | js/contextMenu.js:143-190 | missing settings, a failed fetch and a failed upload each notify with their error and change nothing; the upload attempted is recorded. A successful upload appends exactly one entry to the stored list and confirms it |
| ContextMenu.ImageAppendedAtEnd | js/contextMenu.js:162-172 | after a successful upload the list is the old list plus the new entry |
| ContextMenu.SaveImageToServer | js/contextMenu.js:192-234 | missing settings, a failed fetch and a failed upload each notify with their error and send nothing. After a successful upload the image note is sent with the uploaded file as its attachment; the success icon comes exactly when the send succeeded, and a failed send notifies with its error or the fallback text |
| ContextMenu.ImageClickPostsUpload | js/contextMenu.js:192-234 | after a successful upload, the image click posts an image note whose only attachment is the uploaded file, to the upload address derived from the server url, and shows the success icon exactly when the server answers OK |
| ContextMenu.ProcessPage | js/contextMenu.js:237-267 | the page's content is handed on for direct saving exactly when the page answered with success, flagged as extraction for the extract item. A failed capture, and a failed hand-off, each notify with the item's title and their error; a successful hand-off shows nothing |
| ContextMenu.HandleClick | js/contextMenu.js:66-269 | an unknown item does nothing. Only the two quick-note items change the store. Only the send items post a note, and only the page items hand on content |
| ContextMenu.NoSettingsNoEffect | js/contextMenu.js:72-74 | without settings, the send and image items change nothing and send nothing |
| QuickNote.SaveQuickNote | js/quickNote.js:4-9 | non-blank text is stored as typed; blank text stores nothing |
| QuickNote.BlankNeverOverwrites | js/quickNote.js:6 | a blank input never replaces the stored note |
| QuickNote.RepairEntry | js/quickNote.js:24-33 | an entry without a handle but with an original url gets the fetched handle; any other entry, or one whose fetch failed, is unchanged |
| QuickNote.Created | js/quickNote.js:23-34 | the handles created are exactly those fetched for entries that needed one |
| QuickNote.RepairPreviews | js/quickNote.js:23-34 | the list keeps its length and order, and each entry is repaired as above from its own fetch: it keeps its metadata and original url, gets the fetched handle when it needed one, and is unchanged otherwise. The live handles grow by exactly the created ones |
| QuickNote.LoadQuickNote | js/quickNote.js:12-45 | a stored note fills the text box. A non-empty list is written back entry by entry as repaired from its fetch, and nothing else in storage changes; an empty list changes nothing |
| QuickNote.RootedPath | js/quickNote.js:81 | the path gets exactly one leading slash |
| QuickNote.PreviewBase | js/quickNote.js:80 | the preview base is a prefix of the server url that never ends in a slash. When the url without its trailing slashes does not end in "/v1", it is exactly that url without its trailing slashes |
| QuickNote.PreviewBaseDropsV1 | js/quickNote.js:80 | for any base and any run of slashes, the preview base of base + "/v1" + slashes is the base without its trailing slashes: the "/v1" tail is removed |
| QuickNote.PreviewSrc | js/quickNote.js:62-83 | no server url means no preview. Otherwise the local handle when there is one, else base plus rooted path, else no source |
| QuickNote.PreviewSrcJoin | js/quickNote.js:80-82 | base and path are joined by exactly one slash and the path is kept whole |
| QuickNote.ClearImageCache | js/quickNote.js:111-119 | exactly the list's handles are revoked |
| QuickNote.ClearAttachments | js/quickNote.js:121-134 | the list is removed from storage and only its handles are revoked |
| QuickNote.ClearAttachmentsIdempotent | js/quickNote.js:121-134 | clearing the attachments a second time stores nothing new and revokes no further handle |
| QuickNote.RemoveAttachment | js/quickNote.js:137-159 | the entry at the index is removed with the others kept in order, and its handle alone revoked. An index past the end removes nothing, but the list is still written |
| QuickNote.RemoveAttachmentInverse | js/quickNote.js:143-148 | reinserting the removed entry at its index restores the list |
| QuickNote.ClearQuickNote | js/quickNote.js:162-177 | the text box is emptied, both storage keys removed, and the list's handles revoked |
| QuickNote.SendQuickNote | js/quickNote.js:180-254 | blank text sends nothing and missing settings fail. Otherwise the trimmed text goes out as a quick note with the tab's url and title ("" without a tab) and the stored list. Only a successful answer clears the text, the storage keys and the handles |
| QuickNote.FailedSendKeepsNote | js/quickNote.js:248-250 | a failed send keeps the text, the store and the handles |
| QuickNote.SentNoteIsCleared | js/quickNote.js:238-247 | a successful send leaves the store, the text box and the live handles exactly as clearing the quick note does |
| View.ShowPreview | js/ui.js:57-68 | an empty summary leaves the preview as it was. Otherwise the preview opens on the summary, and title and url are replaced only when non-empty |
| Review.CheckSummaryState | js/summary.js:4-13 | a stored draft is put into the preview; without one the screen is unchanged |
| Review.PreviewOnOpen | js/summary.js:6-9 | on a fresh popup the preview opens exactly when a draft with a non-empty summary is stored, showing that summary |
| Review.ShowSummaryResult | js/summary.js:15-27 | a success reports itself by kind and shows the result; a failure reports its error and leaves the preview |
| Review.SuccessShowsPreview | js/summary.js:16-23 | a successful report with a summary leaves the preview open on that summary |
| Review.SaveRequest | js/summary.js:80-91 | the edited text is sent untrimmed, typed as an extract exactly when the draft is one, with the draft's url and title |
| Review.SaveEdited | js/summary.js:73-104 | blank text is refused before sending. The preview is cleared exactly when the reply reports success; otherwise the reply's error is shown. The quick-note text box is never touched |
| Review.SaveAlwaysClearsPreview | js/summary.js:93-95 | because the background acknowledges before saving, a non-blank review is always cleared |
| Review.Cancel | js/summary.js:60-71 | once the temporary data is cleared, the draft is removed and the preview closed; if that throws, only the status changes |
| Review.CancelDropsDraft | js/summary.js:60-71 | after a cancel, reopening the popup shows no preview |
| Review.SummarizeClick | js/summary.js:30-58 | without a tab or content the failure is shown and nothing is sent. Otherwise the content goes to the background as a summary request, never as an extraction |
| Popup.DefaultTab | js/popup.js:58-71 | a flag for the active tab opens the quick note and consumes the flag. A flag for another tab opens the common tab and stays. Without a flag the quick note opens exactly when it has non-blank text or attachments |
| Popup.FlagForOtherTabOpensCommon | js/popup.js:59-66 | a pending flag for another tab outranks a quick note with content |
| Popup.FlagConsumedOnce | js/popup.js:62-65 | after the flag is consumed, reopening falls back to the note's content |
| Popup.NotificationClickOpensQuickNote | js/background.js:121-137 | clicking the quick-note notification and then opening the popup in the same tab shows the quick note and consumes both flag keys |
| Popup.ClearedNoteOpensCommon | js/popup.js:58-71 | once the quick note is cleared, and without a pending notification flag, the popup opens on the common tab |
| Popup.Unload | js/popup.js:187-201 | a hidden preview removes the draft and an open one keeps it; `popupClosed` is sent either way |
| Popup.OpenReviewSurvivesClose | js/popup.js:189-193 | a draft still under review is shown again when the popup is reopened |
| Popup.ExtractClick | js/popup.js:93-123 | without a tab or content the error stands. Otherwise the page content goes to the background flagged as an extraction |
| Popup.ExtractAndSummarizeAgree | js/popup.js:93-123 | the extract and summarize buttons succeed on the same page answers and send the same capture, differing only in its extraction flag |
| Popup.PopupReceive | js/popup.js:156-184 | exactly the four popup actions get `{received: true}`; the channel is never kept open; each action sets its status text. A finished summary's screen is exactly what `handleSummaryResponse` shows (`Review.ShowSummaryResult`), and no other action touches the preview |
| Popup.ListenersDisjoint | js/popup.js:156-184 | the popup and the background never both answer one action |
| ContentExtractor.Collapse | js/content/contentExtractor.js:6-7 | collapsing never lengthens the text, the result starts with a run character exactly when the input does, and the characters outside the class come out unchanged and in their order |
| ContentExtractor.CollapseSplit | js/content/contentExtractor.js:6-7 | a character outside the class is kept in place, and the text on each side of it is collapsed independently |
| ContentExtractor.CollapseRun | js/content/contentExtractor.js:6-7 | a non-empty run of class characters becomes exactly one replacement character |
| ContentExtractor.CollapseShape | js/content/contentExtractor.js:6-7 | after collapsing, every run character is the replacement and no two are adjacent |
| ContentExtractor.CollapseIdentity | js/content/contentExtractor.js:6-7 | text with no run to collapse is unchanged |
| ContentExtractor.CollapseKeepsAbsent | js/content/contentExtractor.js:6-7 | collapsing adds no character except the replacement |
| ContentExtractor.CollapseBreaks | js/content/contentExtractor.js:6 | after `[\n\r]+` becomes "\n", the text is no longer, every CR or LF is a newline, no two are adjacent, and every other character survives in its order |
| ContentExtractor.CollapseSpaces | js/content/contentExtractor.js:7 | after `\s+` becomes " ", the text is no longer, every whitespace character is a space, no two are adjacent, and every non-whitespace character survives in its order |
| ContentExtractor.CloseParen | js/content/contentExtractor.js:8 | the lazy `.*?\)` ends at a ")" at or after its start |
| ContentExtractor.LinkEnd | js/content/contentExtractor.js:8 | the match of `.*?\]\(.*?\)` ends after its start and within the text |
| ContentExtractor.MatchAt | js/content/contentExtractor.js:8 | a match starts only at the marker and ends after it, within the text |
| ContentExtractor.CloseParenSkips | js/content/contentExtractor.js:8 | the scan for ")" passes over characters that are neither ")" nor a line break |
| ContentExtractor.LinkEndSkips | js/content/contentExtractor.js:8 | the scan for "](" passes over characters that are neither "]" nor a line break |
| ContentExtractor.MatchAtShift | js/content/contentExtractor.js:8 | whether a match starts at a position, and where it ends, depends only on the text from there on |
| ContentExtractor.StripShift | js/content/contentExtractor.js:8 | deleting matches from a position ignores all text before it |
| ContentExtractor.StripCopies | js/content/contentExtractor.js:8 | where no match starts, the text is copied unchanged up to the next match |
| ContentExtractor.StripPlainSpaces | js/content/contentExtractor.js:8 | deleting matches keeps whitespace plain |
| ContentExtractor.StripWithoutMarker | js/content/contentExtractor.js:8 | without a marker from a position on, nothing from there is deleted |
| ContentExtractor.LinkMatched | js/content/contentExtractor.js:8 | a full-width-colon backlink with a label without "]" and a target without ")", neither with a line break, is matched from its marker to its ")", whatever follows |
| ContentExtractor.RemoveMatchAt | js/content/contentExtractor.js:8 | when the first match starts at one position and ends at another, the text before it is kept and deletion continues on the text after it alone |
| ContentExtractor.RemoveMatchAround | js/content/contentExtractor.js:8 | text matched whole, with no match starting before it, is deleted from between what precedes and what follows; what follows is processed on its own |
| ContentExtractor.RemoveLinksInText | js/content/contentExtractor.js:8 | such a backlink inside other text is deleted and everything before it kept, when no match starts earlier; the text after it is processed on its own |
| ContentExtractor.Strip | js/content/contentExtractor.js:8 | deleting matches from a position never gives more text than remains from there |
| ContentExtractor.RemoveLinks | js/content/contentExtractor.js:8 | deleting backlinks never lengthens the text, keeps its whitespace plain, and leaves text without a marker unchanged |
| ContentExtractor.RemoveLinksDeletesLink | js/content/contentExtractor.js:8 | a full-width-colon backlink on one line, with no "]" in its label and no ")" in its target, is deleted entirely |
| ContentExtractor.RemoveLinksWithoutFullWidthColon | js/content/contentExtractor.js:8 | text without the full-width colon is unchanged |
| ContentExtractor.OwnBacklinkSurvives | js/content/contentExtractor.js:8 | the ASCII-colon backlink `sendToBlinko` writes is not removed |
| ContentExtractor.ExtractPageContent | js/content/contentExtractor.js:5-9 | the result has no leading or trailing whitespace |
| ContentExtractor.TrimKeepsSpacing | js/content/contentExtractor.js:9 | trimming keeps plain and single spacing |
| ContentExtractor.ExtractHasPlainSpaces | js/content/contentExtractor.js:5-9 | the result holds no line break; every whitespace character left is a plain space |
| ContentExtractor.ExtractSingleSpaced | js/content/contentExtractor.js:5-9 | when the page text has no full-width colon, no two spaces are adjacent in the result |
| ContentExtractor.ExtractIdentity | js/content/contentExtractor.js:5-9 | trimmed, single-spaced text without a backlink comes back unchanged |
| ContentExtractor.GetImageInfo | js/content/contentExtractor.js:32-38 | the source is kept; a missing alt or title becomes "" |
| ContentExtractor.ImageInfoRoundTrip | js/content/contentExtractor.js:32-38 | a description with its alt and title given comes back unchanged |
| Strings.Trim | js/contextMenu.js:77 | `trim()` never lengthens the text and leaves no whitespace at either end |
| Strings.TrimEmptyIffBlank | js/quickNote.js:6 | text trims to nothing exactly when it is all whitespace |
| Strings.TrimIdempotent | js/quickNote.js:229 | trimming a trimmed text changes nothing |
| Strings.Substitution | js/api.js:24 | in a replacement, `$&` is the match, `$$` a dollar sign, `` $` `` the text before and `$'` the text after |
| Strings.SubstitutionLiteral | js/api.js:24 | a replacement without `$` is inserted literally |
| Strings.ReplaceFirst | js/api.js:24 | text without the pattern is unchanged; otherwise only the first occurrence is replaced, by its substitution, with the text around it kept |

## Left out

- `resetSettings`, the settings form's field filling, i18n message lookup, icons, timers (`hideStatus`) and all DOM rendering: they are presentation only. The status text and preview of the popup, quick-note, review and context-menu handlers are modelled, and so are the statuses of `fetchAiConfig`.
- `js/messageHandler.js` (`handleContentRequest`, `handleSaveSummary`, `handleFloatingBallRequest`), `js/storage.js` and `js/content/contentMessageHandler.js` are not part of this model. The work the background starts is recorded as a `Work` value. The outcome of `clearTempSummaryData` is an input to `Review.Cancel`.
- `initializeContextMenu`, `getPageMetadata`, `getSelectedText` and `updateAttachmentList`'s DOM building are left out: they only register menu entries or read the page.
- Preferences.Load and Preferences.Save: the settings page's own status lines are not modelled. These are "Failed to load settings: " plus the error message (js/settings.js:108), "Settings saved" (js/settings.js:155) and "Failed to save settings: " plus the error message (js/settings.js:159). `Load` models a failed read only as falling back to the defaults, and `Save` models only the record written and the pushes.
- Storage read and write failures are left out; the `try`/`catch` paths that only log them are not modelled.
- Asynchronous interleaving is left out. Each handler is one atomic step, and the background's later pushes are separate functions.
- `parseFloat` and `new URL` are inputs: a `Number` in the form, and a `UrlCheck` for whether the url parsed.
- The temporary listener `sendQuickNote` installs for `saveSummaryResponse` is left out. The answer it resolves with is an input to `QuickNote.SendQuickNote`.
- Popup.Unload: the preview counts as hidden exactly when it is not visible. The source tests `style.display === 'none'`, which also depends on the page's markup.
- Popup.PopupReceive: a push whose `response` is missing, which makes the source throw, is not modelled.
- Api.GetSummaryFromModel: a first message whose content is neither a string, `null` nor missing (a number, say) is not modelled. The source's `.trim` would throw "… is not a function" there.
- Api.GetSummaryFromModel: the prompt is filled literally (`Api.LiteralPrompt`). The source's `replace` also expands `$` patterns, which differs only for page text containing `$`; see Findings and `Api.SummaryPromptAsSource`.
- Api.SendToBlinko: `response.json()` failing on a non-JSON body is folded into the thrown-request case.
- ContentExtractor.Collapse: its contract does not say that each run becomes exactly one character in place. That is proved by `ContentExtractor.CollapseSplit` and `ContentExtractor.CollapseRun`, which together fix the result for every input.
- ContentExtractor.CollapseBreaks: its contract does not say that each run of CR and LF becomes one newline in place. It is `Collapse` with the class `[\n\r]`, so `CollapseSplit` and `CollapseRun` state that.
- ContentExtractor.CollapseSpaces: its contract does not say that each whitespace run becomes one space in place. It is `Collapse` with the class `\s`, so `CollapseSplit` and `CollapseRun` state that.
- ContentExtractor.ExtractSingleSpaced: holds only for page text without a full-width colon, so that no backlink is deleted. Deleting a link between two spaces leaves them adjacent, as in the source.

## Findings

| source | as written | input that shows it | evidently intended | confidence | as-written member | corrected member |
|---|---|---|---|---|---|---|
| js/api.js:24 | `promptTemplate.replace('{content}', content)` expands `$&`, `` $` ``, `$'` and `$$` in the page text | page text `$&`: the placeholder itself is spliced back and the template is sent unfilled | the page text inserted verbatim at the placeholder | not executed | Api.BuildPromptDollarPattern | Api.LiteralPrompt |

=== FILE: api.dfy ===
/**
 * The request shaping in js/api.js: the chat-completions url, the prompt,
 * the note body `sendToBlinko` composes (backlink and tag per note type),
 * its attachment normalisation and its never-throwing result, and the
 * image-upload request. The HTTP exchanges themselves are inputs.
 */
module Api {
  import opened Js
  import opened Strings
  import opened Preferences
  import opened Storage

  // ---------------------------------------------------------------------------
  // getFullApiUrl

  const ChatCompletions := "/chat/completions"
  const FullChatPath := "/v1" + ChatCompletions

  /** What `new URL(baseUrl)` did: parsed, or threw with a message. */
  datatype UrlCheck = UrlValid | UrlInvalid(message: string)

  /**
   * `getFullApiUrl`: a base already naming the chat-completions path is kept;
   * a base with "/v1" in it keeps what precedes its first "/v1"; any other
   * base loses its trailing slashes. The latter two get "/v1" plus the
   * endpoint. An unparsable base throws.
   */
  function FullApiUrl(baseUrl: string, endpoint: string, check: UrlCheck): (r: Result<string>)
    ensures check.UrlInvalid? ==> r == Err("Invalid URL format: " + check.message)
    ensures check.UrlValid? ==> r.Ok?
    ensures check.UrlValid? && Contains(baseUrl, FullChatPath) ==> r.value == baseUrl
    ensures check.UrlValid? && !Contains(baseUrl, FullChatPath) && Contains(baseUrl, "/v1") ==>
      exists i: nat :: FirstAt(baseUrl, "/v1", i) && r.value == baseUrl[..i] + "/v1" + endpoint
    ensures check.UrlValid? && !Contains(baseUrl, "/v1") ==>
      r.value == StripSlashes(baseUrl) + "/v1" + endpoint
  {
    match check
    case UrlInvalid(m) => Err("Invalid URL format: " + m)
    case UrlValid =>
      if Contains(baseUrl, FullChatPath) then
        ContainsPrefix(baseUrl, "/v1", ChatCompletions);
        Ok(baseUrl)
      else if Contains(baseUrl, "/v1") then
        var i := IndexOf(baseUrl, "/v1").value;
        CutAtFirstV1(baseUrl, endpoint);
        Ok(baseUrl[..i] + "/v1" + endpoint)
      else Ok(StripSlashes(baseUrl) + "/v1" + endpoint)
  }

  /** The url cut at the first "/v1" found by `indexOf` is the cut at the first occurrence. */
  lemma CutAtFirstV1(baseUrl: string, endpoint: string)
    requires Contains(baseUrl, "/v1")
    ensures var i := IndexOf(baseUrl, "/v1").value;
      && i + 3 <= |baseUrl|
      && exists j: nat :: FirstAt(baseUrl, "/v1", j) && baseUrl[..i] + "/v1" + endpoint == baseUrl[..j] + "/v1" + endpoint
  {
    var i := IndexOf(baseUrl, "/v1").value;
    IndexOfFirst(baseUrl, "/v1", i);
  }

  /** Any url ending in the chat-completions path is kept as it is. */
  lemma FullApiUrlKeepsChatPath(head: string)
    ensures FullApiUrl(head + FullChatPath, ChatCompletions, UrlValid) == Ok(head + FullChatPath)
  {
    assert head + FullChatPath == head + FullChatPath + "";
    ContainsInfix(head, FullChatPath, "");
  }

  /** The chat-completions url is a fixed point: feeding the result back returns it unchanged. */
  lemma FullApiUrlIdempotent(baseUrl: string)
    ensures var once := FullApiUrl(baseUrl, ChatCompletions, UrlValid).value;
      FullApiUrl(once, ChatCompletions, UrlValid) == Ok(once)
  {
    if !Contains(baseUrl, FullChatPath) {
      var head: string;
      if Contains(baseUrl, "/v1") {
        head := baseUrl[..IndexOf(baseUrl, "/v1").value];
      } else {
        head := StripSlashes(baseUrl);
      }
      assert FullApiUrl(baseUrl, ChatCompletions, UrlValid).value == head + "/v1" + ChatCompletions == head + FullChatPath;
      FullApiUrlKeepsChatPath(head);
    }
  }

  // ---------------------------------------------------------------------------
  // getSummaryFromModel

  /**
   * The prompt `getSummaryFromModel` sends: `template.replace('{content}',
   * content)`, so only the first placeholder is filled, and `$` sequences in
   * the page text are read as replacement patterns.
   */
  function BuildPrompt(template: string, content: string): (r: string)
    ensures !Contains(template, ContentPlaceholder) ==> r == template
  {
    ReplaceFirst(template, ContentPlaceholder, content)
  }

  /**
   * Page text that is just `$&` gets the placeholder itself spliced back in:
   * the template comes back unfilled, where the page text was meant to appear.
   */
  lemma BuildPromptDollarPattern(template: string)
    requires Contains(template, ContentPlaceholder)
    ensures BuildPrompt(template, "$&") == template
    ensures LiteralPrompt(template, "$&") != template
  {
    var i := IndexOf(template, ContentPlaceholder).value;
    var before, after := template[..i], template[i + |ContentPlaceholder|..];
    assert template == before + ContentPlaceholder + after;
    IndexOfFirst(template, ContentPlaceholder, i);
    assert BuildPrompt(template, "$&") == template by {
      assert Substitution("$&", ContentPlaceholder, before, after) == ContentPlaceholder;
    }
    assert |LiteralPrompt(template, "$&")| == |template| - 7 by {
      assert LiteralPrompt(template, "$&") == before + "$&" + after;
    }
  }

  /**
   * The prompt as intended: the page text inserted verbatim at the first
   * placeholder, whatever characters it holds.
   */
  function LiteralPrompt(template: string, content: string): (r: string)
    ensures !Contains(template, ContentPlaceholder) ==> r == template
    ensures forall i: nat :: FirstAt(template, ContentPlaceholder, i) ==>
      r == template[..i] + content + template[i + |ContentPlaceholder|..]
  {
    match IndexOf(template, ContentPlaceholder)
    case None => template
    case Some(i) =>
      assert forall j: nat :: FirstAt(template, ContentPlaceholder, j) ==> j == i by {
        forall j: nat | FirstAt(template, ContentPlaceholder, j)
          ensures j == i
        {
          IndexOfFirst(template, ContentPlaceholder, j);
        }
      }
      template[..i] + content + template[i + |ContentPlaceholder|..]
  }

  /** For page text without `$` the source's prompt is the intended one. */
  lemma BuildPromptLiteral(template: string, content: string)
    requires '$' !in content
    ensures BuildPrompt(template, content) == LiteralPrompt(template, content)
  {
    match IndexOf(template, ContentPlaceholder)
    case None =>
    case Some(i) =>
      var after := template[i + |ContentPlaceholder|..];
      SubstitutionLiteral(content, ContentPlaceholder, template[..i], after);
  }

  /** The chat request `getSummaryFromModel` posts. */
  datatype ModelRequest = ModelRequest(url: string, authorization: string, model: Option<string>, prompt: string, temperature: Option<Number>)

  /**
   * What the answer holds at `choices[0].message`: nothing (no `choices`, no
   * first choice or no message), a message whose `content` is `null` or
   * missing, or a message with its text.
   */
  datatype FirstChoice = NoMessage | NullContent | MissingContent | Content(text: string)

  /** The chat endpoint's answer: thrown, or a status with the error text or first choice it carried. */
  datatype ModelReply =
    | ModelThrew(message: string)
    | ModelAnswered(ok: bool, status: nat, statusText: string, errorMessage: Option<string>, firstChoice: FirstChoice)

  /** The messages V8 gives the TypeError of calling `.trim` on a `null` or an `undefined` content. */
  const NullContentRead := "Cannot read properties of null (reading 'trim')"
  const UndefinedContentRead := "Cannot read properties of undefined (reading 'trim')"

  datatype SummaryOutcome = SummaryOutcome(request: Option<ModelRequest>, result: Result<string>)

  /** The message V8 gives the TypeError of calling `.replace` on an `undefined` template. */
  const UndefinedTemplateRead := "Cannot read properties of undefined (reading 'replace')"

  /**
   * `getSummaryFromModel`, with the prompt filled literally (`LiteralPrompt`;
   * `BuildPromptLiteral` shows it is the source's prompt whenever the page
   * text has no `$`): a missing template throws before anything else; the
   * model url must parse (`check` is what `new URL` did with it, a throw
   * when it is missing); the content of the reply's first message, trimmed,
   * is the summary; a non-OK status, a reply without a first message, and a
   * `null` or missing content are errors.
   */
  function GetSummaryFromModel(content: string, s: Settings, check: UrlCheck, reply: ModelReply): (r: SummaryOutcome)
    ensures s.promptTemplate.None? ==> r == SummaryOutcome(None, Err(UndefinedTemplateRead))
    ensures r.request.Some? <==> s.promptTemplate.Some? && check.UrlValid?
    ensures s.promptTemplate.Some? && check.UrlInvalid? ==> r.result == Err("Invalid URL format: " + check.message)
    ensures r.request.Some? ==>
      && r.request.value.prompt == LiteralPrompt(s.promptTemplate.value, content)
      && r.request.value.url == FullApiUrl(Show(s.modelUrl), ChatCompletions, UrlValid).value
      && r.request.value.authorization == "Bearer " + Show(s.apiKey)
      && r.request.value.model == s.modelName
      && r.request.value.temperature == s.temperature
    ensures r.result.Ok? <==> r.request.Some? && reply.ModelAnswered? && reply.ok && reply.firstChoice.Content?
    ensures r.result.Ok? ==> r.result.value == Trim(reply.firstChoice.text)
    ensures r.request.Some? && reply.ModelThrew? ==> r.result == Err(reply.message)
    ensures r.request.Some? && reply.ModelAnswered? && !reply.ok ==>
      r.result == Err("API request failed: " + Decimal(reply.status) + " " + Or(reply.errorMessage, reply.statusText))
    ensures r.request.Some? && reply.ModelAnswered? && reply.ok && reply.firstChoice.NoMessage? ==>
      r.result == Err("API response error")
    ensures r.request.Some? && reply.ModelAnswered? && reply.ok && reply.firstChoice.NullContent? ==>
      r.result == Err(NullContentRead)
    ensures r.request.Some? && reply.ModelAnswered? && reply.ok && reply.firstChoice.MissingContent? ==>
      r.result == Err(UndefinedContentRead)
  {
    match s.promptTemplate
    case None => SummaryOutcome(None, Err(UndefinedTemplateRead))
    case Some(template) =>
      var prompt := LiteralPrompt(template, content);
      match FullApiUrl(Show(s.modelUrl), ChatCompletions, check)
      case Err(e) => SummaryOutcome(None, Err(e))
      case Ok(url) =>
        var request := Some(ModelRequest(url, "Bearer " + Show(s.apiKey), s.modelName, prompt, s.temperature));
        match reply
        case ModelThrew(m) => SummaryOutcome(request, Err(m))
        case ModelAnswered(ok, status, statusText, errorMessage, firstChoice) =>
          if !ok then
            SummaryOutcome(request, Err("API request failed: " + Decimal(status) + " " + Or(errorMessage, statusText)))
          else
            match firstChoice
            case NoMessage => SummaryOutcome(request, Err("API response error"))
            case NullContent => SummaryOutcome(request, Err(NullContentRead))
            case MissingContent => SummaryOutcome(request, Err(UndefinedContentRead))
            case Content(text) => SummaryOutcome(request, Ok(Trim(text)))
  }

  /**
   * The prompt sent is the one the source's `replace` builds whenever the
   * page text has no `$`, and the request and its prompt do not depend on
   * what the endpoint later answers.
   */
  lemma SummaryPromptAsSource(content: string, s: Settings, check: UrlCheck, reply: ModelReply, other: ModelReply)
    requires '$' !in content
    ensures var r := GetSummaryFromModel(content, s, check, reply);
      r.request.Some? ==> r.request.value.prompt == BuildPrompt(s.promptTemplate.value, content)
    ensures GetSummaryFromModel(content, s, check, reply).request == GetSummaryFromModel(content, s, check, other).request
  {
    if s.promptTemplate.Some? {
      BuildPromptLiteral(s.promptTemplate.value, content);
    }
  }

  // ---------------------------------------------------------------------------
  // sendToBlinko: the note body

  /** The `type` argument of `sendToBlinko`. */
  datatype NoteKind = Summary | Extract | Image | QuickNote | OtherKind(name: string)

  /** `title || url` */
  function Label(title: string, url: string): string {
    if title != "" then title else url
  }

  /** The backlink appended to summaries, excerpts and quick notes. */
  function OriginalLink(title: string, url: string): string {
    "Original link: [" + Label(title, url) + "](" + url + ")"
  }

  /** The backlink appended to images. */
  function SourceLine(title: string, url: string): string {
    "> Source: [" + Label(title, url) + "](" + url + ")"
  }

  /** "\n\n" and the tag, when the tag is set. */
  function TagSuffix(tag: Option<string>): string {
    if Truthy(tag) then "\n\n" + tag.value else ""
  }

  /**
   * Whether a backlink is appended: there is a url and the note type's toggle
   * is on; a quick note additionally must not already carry that exact link.
   */
  predicate WantsLink(content: string, url: string, title: string, kind: NoteKind, s: Settings) {
    url != "" &&
    match kind
    case Summary => Flag(s.includeSummaryUrl)
    case Extract => Flag(s.includeSelectionUrl)
    case Image => Flag(s.includeImageUrl)
    case QuickNote => Flag(s.includeQuickNoteUrl) && !Contains(content, OriginalLink(title, url))
    case OtherKind(_) => false
  }

  function WithLink(content: string, url: string, title: string, kind: NoteKind, s: Settings): string {
    if !WantsLink(content, url, title, kind, s) then content
    else if kind.Image? then content + (if content != "" then "\n\n" else "") + SourceLine(title, url)
    else content + "\n\n" + OriginalLink(title, url)
  }

  /** The tag step; selected text is tagged with `extractTag`, `selectionTag` is never read. */
  function WithTag(body: string, kind: NoteKind, s: Settings): string {
    match kind
    case Summary => body + TagSuffix(s.summaryTag)
    case Extract => body + TagSuffix(s.extractTag)
    case Image =>
      if !Truthy(s.imageTag) then body
      else if body != "" then body + "\n\n" + s.imageTag.value
      else s.imageTag.value
    case _ => body
  }

  /**
   * The note body `sendToBlinko` posts. The content is always kept as a
   * prefix; what follows depends on the note type as stated below.
   */
  function ComposeBody(content: string, url: string, title: string, kind: NoteKind, s: Settings): (r: string)
    ensures content <= r
    // summaries and excerpts: backlink whenever enabled, then their own tag
    ensures kind.Summary? && url != "" && Flag(s.includeSummaryUrl) ==>
      r == content + "\n\n" + OriginalLink(title, url) + TagSuffix(s.summaryTag)
    ensures kind.Summary? && !(url != "" && Flag(s.includeSummaryUrl)) ==> r == content + TagSuffix(s.summaryTag)
    ensures kind.Extract? && url != "" && Flag(s.includeSelectionUrl) ==>
      r == content + "\n\n" + OriginalLink(title, url) + TagSuffix(s.extractTag)
    ensures kind.Extract? && !(url != "" && Flag(s.includeSelectionUrl)) ==> r == content + TagSuffix(s.extractTag)
    // images: the source line needs a separator only after existing text
    ensures kind.Image? && url != "" && Flag(s.includeImageUrl) && content != "" ==>
      r == content + "\n\n" + SourceLine(title, url) + TagSuffix(s.imageTag)
    ensures kind.Image? && url != "" && Flag(s.includeImageUrl) && content == "" ==>
      r == SourceLine(title, url) + TagSuffix(s.imageTag)
    ensures kind.Image? && !(url != "" && Flag(s.includeImageUrl)) && content != "" ==> r == content + TagSuffix(s.imageTag)
    ensures kind.Image? && !(url != "" && Flag(s.includeImageUrl)) && content == "" ==> r == Or(s.imageTag, "")
    // quick notes: at most the one backlink, never a tag
    ensures kind.QuickNote? ==> r == content || r == content + "\n\n" + OriginalLink(title, url)
    ensures kind.QuickNote? && Contains(content, OriginalLink(title, url)) ==> r == content
    ensures kind.QuickNote? && url != "" && Flag(s.includeQuickNoteUrl) && !Contains(content, OriginalLink(title, url)) ==>
      r == content + "\n\n" + OriginalLink(title, url)
    ensures kind.QuickNote? && url != "" && Flag(s.includeQuickNoteUrl) ==> Contains(r, OriginalLink(title, url))
    ensures kind.QuickNote? && (url == "" || !Flag(s.includeQuickNoteUrl)) ==> r == content
    ensures kind.OtherKind? ==> r == content
  {
    ComposeText(content, url, title, kind, s);
    ComposeImage(content, url, title, kind, s);
    ComposeQuickNote(content, url, title, kind, s);
    WithTag(WithLink(content, url, title, kind, s), kind, s)
  }

  /** The link and tag steps for summaries and excerpts. */
  lemma ComposeText(content: string, url: string, title: string, kind: NoteKind, s: Settings)
    ensures var r := WithTag(WithLink(content, url, title, kind, s), kind, s);
      && (kind.Summary? && url != "" && Flag(s.includeSummaryUrl) ==>
            r == content + "\n\n" + OriginalLink(title, url) + TagSuffix(s.summaryTag))
      && (kind.Summary? && !(url != "" && Flag(s.includeSummaryUrl)) ==> r == content + TagSuffix(s.summaryTag))
      && (kind.Extract? && url != "" && Flag(s.includeSelectionUrl) ==>
            r == content + "\n\n" + OriginalLink(title, url) + TagSuffix(s.extractTag))
      && (kind.Extract? && !(url != "" && Flag(s.includeSelectionUrl)) ==> r == content + TagSuffix(s.extractTag))
      && (kind.Summary? || kind.Extract? ==> content <= r)
  {
  }

  /** The link and tag steps for images. */
  lemma ComposeImage(content: string, url: string, title: string, kind: NoteKind, s: Settings)
    ensures var r := WithTag(WithLink(content, url, title, kind, s), kind, s);
      && (kind.Image? && url != "" && Flag(s.includeImageUrl) && content != "" ==>
            r == content + "\n\n" + SourceLine(title, url) + TagSuffix(s.imageTag))
      && (kind.Image? && url != "" && Flag(s.includeImageUrl) && content == "" ==>
            r == SourceLine(title, url) + TagSuffix(s.imageTag))
      && (kind.Image? && !(url != "" && Flag(s.includeImageUrl)) && content != "" ==> r == content + TagSuffix(s.imageTag))
      && (kind.Image? && !(url != "" && Flag(s.includeImageUrl)) && content == "" ==> r == Or(s.imageTag, ""))
      && (kind.Image? ==> content <= r)
  {
    if kind.Image? {
      var body := WithLink(content, url, title, kind, s);
      ImageTag(body, s);
      if url != "" && Flag(s.includeImageUrl) {
        var sep := if content != "" then "\n\n" else "";
        assert body == content + sep + SourceLine(title, url);
        assert body != "";
        var r := body + TagSuffix(s.imageTag);
        assert r == content + (sep + SourceLine(title, url) + TagSuffix(s.imageTag));
        if content == "" {
          assert body == SourceLine(title, url);
        }
      } else {
        assert body == content;
        if content != "" {
          assert content <= content + TagSuffix(s.imageTag);
        }
      }
    }
  }

  /** The tag step for images: "\n\n" and the tag after a non-empty body, the tag alone after an empty one. */
  lemma ImageTag(body: string, s: Settings)
    ensures body != "" ==> WithTag(body, Image, s) == body + TagSuffix(s.imageTag)
    ensures body == "" ==> WithTag(body, Image, s) == Or(s.imageTag, "")
  {
  }

  /** The link step for quick notes, with its duplicate check, and the other kinds, which are posted as they are. */
  lemma ComposeQuickNote(content: string, url: string, title: string, kind: NoteKind, s: Settings)
    ensures var r := WithTag(WithLink(content, url, title, kind, s), kind, s);
      && (kind.QuickNote? ==> r == content || r == content + "\n\n" + OriginalLink(title, url))
      && (kind.QuickNote? && Contains(content, OriginalLink(title, url)) ==> r == content)
      && (kind.QuickNote? && url != "" && Flag(s.includeQuickNoteUrl) && !Contains(content, OriginalLink(title, url)) ==>
            r == content + "\n\n" + OriginalLink(title, url))
      && (kind.QuickNote? && url != "" && Flag(s.includeQuickNoteUrl) ==> Contains(r, OriginalLink(title, url)))
      && (kind.QuickNote? && (url == "" || !Flag(s.includeQuickNoteUrl)) ==> r == content)
      && (kind.OtherKind? ==> r == content)
      && (kind.QuickNote? || kind.OtherKind? ==> content <= r)
  {
    var appended := content + "\n\n" + OriginalLink(title, url);
    ContainsInfix(content + "\n\n", OriginalLink(title, url), "");
    assert appended + "" == appended;
  }

  /** Composing a quick note twice gives the same body as composing it once. */
  lemma {:induction false} QuickNoteComposeIdempotent(content: string, url: string, title: string, s: Settings)
    ensures var once := ComposeBody(content, url, title, QuickNote, s);
      ComposeBody(once, url, title, QuickNote, s) == once
  {
    var once := ComposeBody(content, url, title, QuickNote, s);
    if url != "" && Flag(s.includeQuickNoteUrl) {
      assert Contains(once, OriginalLink(title, url));
      assert !WantsLink(once, url, title, QuickNote, s);
    }
  }

  /** A summary has no such guard: composing its body again appends a second backlink. */
  lemma SummaryComposeNotIdempotent(content: string, url: string, title: string, s: Settings)
    requires url != "" && Flag(s.includeSummaryUrl)
    ensures var once := ComposeBody(content, url, title, Summary, s);
      |ComposeBody(once, url, title, Summary, s)| > |once|
  {
  }

  /** An image saved with no text and no image tag is just its source line. */
  lemma ImageBodyExample(s: Settings)
    requires Flag(s.includeImageUrl) && !Truthy(s.imageTag)
    ensures ComposeBody("", "https://img", "Pic", Image, s) == "> Source: [Pic](https://img)"
  {
  }

  // ---------------------------------------------------------------------------
  // sendToBlinko: the request and its result

  /** The `imageAttachment` argument: null, one attachment, or an array. */
  datatype AttachmentArg = NoAttachment | One(item: Attachment) | Many(items: seq<Attachment>)

  /** The `/note/upsert` request; `attachments` is absent from the body when `None`. */
  datatype NoteRequest = NoteRequest(url: string, authorization: string, content: string, attachments: Option<seq<Attachment>>)

  /** The note endpoint's answer: thrown (network, or a body that is not JSON), or a status. */
  datatype NoteReply =
    | NoteThrew(message: string)
    | NoteAnswered(ok: bool, status: nat, statusText: string, dataMessage: Option<string>, data: string)

  /** `{success: true, data}` or `{success: false, error}`. */
  datatype SendResult = Sent(data: string) | SendFailed(error: string)

  datatype SendOutcome = SendOutcome(request: Option<NoteRequest>, result: SendResult)

  const ConfigMissing := "Please configure the Brainwave.ai API URL and authentication key first"

  /** Settings exist and name both the note server and its key. */
  predicate Configured(settings: Option<Settings>) {
    settings.Some? && Truthy(settings.value.targetUrl) && Truthy(settings.value.authKey)
  }

  /** The `attachments` field: absent for null, a one-element array for a single attachment, an array as it is. */
  function AttachmentList(a: AttachmentArg): (r: Option<seq<Attachment>>)
    ensures r.None? <==> a.NoAttachment?
    ensures a.One? ==> r == Some([a.item])
    ensures a.Many? ==> r == Some(a.items)
  {
    match a
    case NoAttachment => None
    case One(x) => Some([x])
    case Many(xs) => Some(xs)
  }

  /**
   * `sendToBlinko`: never throws. Without configured settings nothing is
   * sent; otherwise the composed body goes to `/note/upsert` under the
   * server url, and only an OK status counts as success.
   */
  function SendToBlinko(settings: Option<Settings>, content: string, url: string, title: string,
                        attachment: AttachmentArg, kind: NoteKind, reply: NoteReply): (r: SendOutcome)
    ensures r.request.None? <==> !Configured(settings)
    ensures r.request.None? ==> r.result == SendFailed(ConfigMissing)
    ensures r.request.Some? ==>
      && r.request.value.url == StripSlashes(settings.value.targetUrl.value) + "/note/upsert"
      && r.request.value.authorization == settings.value.authKey.value
      && r.request.value.content == ComposeBody(content, url, title, kind, settings.value)
    ensures r.request.Some? && attachment.Many? ==> r.request.value.attachments == Some(attachment.items)
    ensures r.request.Some? && attachment.One? ==> r.request.value.attachments == Some([attachment.item])
    ensures r.request.Some? && attachment.NoAttachment? ==> r.request.value.attachments.None?
    ensures r.result.Sent? <==> r.request.Some? && reply.NoteAnswered? && reply.ok
    ensures r.result.Sent? ==> r.result.data == reply.data
    ensures r.request.Some? && reply.NoteThrew? ==> r.result == SendFailed(reply.message)
    ensures r.request.Some? && reply.NoteAnswered? && !reply.ok ==>
      r.result == SendFailed("HTTP Error: " + Decimal(reply.status) + " " + Or(reply.dataMessage, reply.statusText))
  {
    if !Configured(settings) then SendOutcome(None, SendFailed(ConfigMissing))
    else
      var s := settings.value;
      var request := NoteRequest(StripSlashes(s.targetUrl.value) + "/note/upsert", s.authKey.value,
        ComposeBody(content, url, title, kind, s), AttachmentList(attachment));
      match reply
      case NoteThrew(m) => SendOutcome(Some(request), SendFailed(m))
      case NoteAnswered(ok, status, statusText, dataMessage, data) =>
        if ok then SendOutcome(Some(request), Sent(data))
        else SendOutcome(Some(request), SendFailed("HTTP Error: " + Decimal(status) + " " + Or(dataMessage, statusText)))
  }

  /**
   * The request is fixed before the note endpoint answers: it depends on the
   * settings and arguments only, and a single attachment is posted exactly
   * as a one-element array would be.
   */
  lemma SendRequestBeforeReply(settings: Option<Settings>, content: string, url: string, title: string,
                               x: Attachment, kind: NoteKind, reply: NoteReply, other: NoteReply)
    ensures SendToBlinko(settings, content, url, title, One(x), kind, reply) ==
            SendToBlinko(settings, content, url, title, Many([x]), kind, reply)
    ensures SendToBlinko(settings, content, url, title, One(x), kind, reply).request ==
            SendToBlinko(settings, content, url, title, One(x), kind, other).request
  {
  }

  /**
   * What is posted is the composed body with the normalised attachment list,
   * and the call succeeds exactly when the server is configured and answers OK.
   */
  lemma SendPostsComposedBody(s: Settings, content: string, url: string, title: string,
                              attachment: AttachmentArg, kind: NoteKind, reply: NoteReply)
    requires Configured(Some(s))
    ensures var r := SendToBlinko(Some(s), content, url, title, attachment, kind, reply);
      && r.request == Some(NoteRequest(StripSlashes(s.targetUrl.value) + "/note/upsert", s.authKey.value,
                                       ComposeBody(content, url, title, kind, s), AttachmentList(attachment)))
      && (r.result.Sent? <==> reply.NoteAnswered? && reply.ok)
  {
  }

  // ---------------------------------------------------------------------------
  // uploadFile

  /** The `/v1` suffix removal of `uploadFile`: drops a final "/v1" together with any slashes after it. */
  function StripV1Suffix(s: string): (r: string)
    ensures EndsWith(StripSlashes(s), "/v1") ==> r + "/v1" <= s && forall i :: |r| + 3 <= i < |s| ==> s[i] == '/'
    ensures !EndsWith(StripSlashes(s), "/v1") ==> r == s
  {
    var t := StripSlashes(s);
    if EndsWith(t, "/v1") then
      var r := t[..|t| - |"/v1"|];
      assert r + "/v1" == t;
      r
    else s
  }

  /** The upload endpoint's answer: thrown, or a status with the JSON body's fields. */
  datatype UploadReply =
    | UploadThrew(message: string)
    | UploadAnswered(ok: bool, status: nat, bodyStatus: Option<int>, fileName: string, filePath: Option<string>,
                     size: int, mimeType: string)

  datatype UploadOutcome = UploadOutcome(request: Option<string>, result: Result<FileMeta>)

  /**
   * `uploadFile`: without the server url and key nothing is sent; otherwise
   * the file goes to `/file/upload` under the server url minus a final "/v1",
   * and the reply must be OK with body status 200 and a file path.
   */
  function UploadFile(s: Settings, reply: UploadReply): (r: UploadOutcome)
    ensures r.request.None? <==> !Configured(Some(s))
    ensures r.request.None? ==> r.result == Err(ConfigMissing)
    ensures r.request.Some? ==> r.request.value == StripV1Suffix(s.targetUrl.value) + "/file/upload"
    ensures r.result.Ok? <==>
      r.request.Some? && reply.UploadAnswered? && reply.ok && reply.bodyStatus == Some(200) && Truthy(reply.filePath)
    ensures r.result.Ok? ==> r.result.value == FileMeta(reply.fileName, reply.filePath.value, reply.size, reply.mimeType)
    ensures r.request.Some? && reply.UploadAnswered? && !reply.ok ==> r.result == Err("Image upload failed: " + Decimal(reply.status))
    ensures r.request.Some? && reply.UploadThrew? ==> r.result == Err(reply.message)
    ensures r.request.Some? && reply.UploadAnswered? && reply.ok && !(reply.bodyStatus == Some(200) && Truthy(reply.filePath)) ==>
      r.result == Err("Image upload response format error")
  {
    if !Configured(Some(s)) then UploadOutcome(None, Err(ConfigMissing))
    else
      var request := Some(StripV1Suffix(s.targetUrl.value) + "/file/upload");
      match reply
      case UploadThrew(m) => UploadOutcome(request, Err(m))
      case UploadAnswered(ok, status, bodyStatus, fileName, filePath, size, mimeType) =>
        if !ok then UploadOutcome(request, Err("Image upload failed: " + Decimal(status)))
        else if bodyStatus != Some(200) || !Truthy(filePath) then UploadOutcome(request, Err("Image upload response format error"))
        else UploadOutcome(request, Ok(FileMeta(fileName, filePath.value, size, mimeType)))
  }

  /**
   * A server url given with or without its "/v1" suffix uploads to the same
   * place, whatever the upload endpoint answers.
   */
  lemma UploadIgnoresV1Suffix(s: Settings, base: string, reply: UploadReply)
    requires base != "" && base[|base| - 1] != '/' && !EndsWith(base, "/v1") && Truthy(s.authKey)
    ensures UploadFile(s.(targetUrl := Some(base + "/v1")), reply).request == UploadFile(s.(targetUrl := Some(base)), reply).request
    ensures UploadFile(s.(targetUrl := Some(base)), reply).request == Some(base + "/file/upload")
  {
    var v := base + "/v1";
    assert StripSlashes(v) == v;
    assert EndsWith(v, "/v1");
    assert v[..|v| - 3] == base;
    assert StripSlashes(base) == base;
  }
}

=== FILE: background.dfy ===
/**
 * The background page's message listener (js/background.js): each action
 * gets an immediate reply (or none), a verdict on keeping the channel open,
 * and the work it starts; the work's results come back as later pushes.
 * Also the notification-click handler that flags the quick note for the
 * next popup.
 */
module Background {
  import opened Js
  import opened Storage
  import opened View
  import opened SummaryState
  import opened Messages

  /** The work a message starts, whose outcome the listener does not wait for. */
  datatype Work =
    | Idle
    | HandleContent(capture: Capture)
    | SaveNote(note: NoteDraft)
    | ProcessFloatingBall(capture: Capture, senderTab: Option<int>)
    | Notify(notification: Notification)
    | ResetState

  /** The listener's immediate effect: the reply, whether it returned `true`, and the work started. */
  datatype Dispatched = Dispatched(reply: Option<Reply>, keepOpen: bool, work: Work)

  /** The six actions the background answers. */
  predicate Answers(m: Message) {
    m.GetContent? || m.SaveSummary? || m.ProcessAndSendContent? || m.ShowNotification? ||
    m.GetSummaryState? || m.ClearSummary?
  }

  /**
   * The `onMessage` listener, given the sender's tab id and the in-memory
   * summary state.
   */
  function Dispatch(m: Message, senderTab: Option<int>, state: State): (r: Dispatched)
    ensures r.reply.Some? <==> Answers(m)
    ensures r.keepOpen <==> m.ProcessAndSendContent?
    ensures r.work.Idle? <==> !(Answers(m) && !m.GetSummaryState?)
    ensures m.GetContent? ==> r.reply == Some(Received) && r.work == HandleContent(m.capture)
    ensures m.SaveSummary? ==> r.reply == Some(Acknowledged(true)) && r.work == SaveNote(m.note)
    ensures m.ProcessAndSendContent? ==>
      r.reply == Some(Processing) && r.work == ProcessFloatingBall(m.capture, senderTab)
    ensures m.ShowNotification? ==>
      r.reply == Some(Received) && r.work == Notify(Notification(Or(m.title, "Notification"), Or(m.message, "")))
    ensures m.GetSummaryState? ==> r.reply == Some(StateReply(state))
    ensures m.ClearSummary? ==> r.reply == Some(Processing) && r.work == ResetState
  {
    match m
    case GetContent(c) => Dispatched(Some(Received), false, HandleContent(c))
    case SaveSummary(n) => Dispatched(Some(Acknowledged(true)), false, SaveNote(n))
    case ProcessAndSendContent(c) => Dispatched(Some(Processing), true, ProcessFloatingBall(c, senderTab))
    case ShowNotification(t, msg) =>
      Dispatched(Some(Received), false, Notify(Notification(Or(t, "Notification"), Or(msg, ""))))
    case GetSummaryState => Dispatched(Some(StateReply(state)), false, Idle)
    case ClearSummary => Dispatched(Some(Processing), false, ResetState)
    case _ => Dispatched(None, false, Idle)
  }

  /**
   * `saveSummary` is acknowledged with success before the save has run: the
   * reply is the same whatever note, sender or state it comes with.
   */
  lemma SaveAckIgnoresOutcome(n1: NoteDraft, n2: NoteDraft, t1: Option<int>, t2: Option<int>, s1: State, s2: State)
    ensures Dispatch(SaveSummary(n1), t1, s1).reply == Dispatch(SaveSummary(n2), t2, s2).reply
    ensures ReplySuccess(Dispatch(SaveSummary(n1), t1, s1).reply.value)
  {
  }

  /** `getSummaryState` after a run of updates and clears reports the last write to each key. */
  lemma StateReplyIsLastWrite(s: State, ops: seq<Op>, t: Option<int>, k: string)
    ensures var reply := Dispatch(GetSummaryState, t, Run(s, ops)).reply.value;
      (k in reply.state <==> LastValue(s, ops, k).Some?) &&
      (k in reply.state ==> LastValue(s, ops, k) == Some(reply.state[k]))
  {
    GetReturnsLastWrite(s, ops, k);
  }

  /** The push that follows a save: the save's own answer, as `saveSummaryResponse`. */
  function AfterSave(response: Ack): (m: Message)
    ensures m.SaveSummaryResponse? && m.response == response
  {
    SaveSummaryResponse(response)
  }

  /** How the floating-ball handler settled: with its answer, or rejected with an error message. */
  datatype BallOutcome = Resolved(response: Ack) | Rejected(message: string)

  /** `updateFloatingBallState` sent to the page's tab. */
  datatype BallUpdate = BallUpdate(tabId: int, success: bool, error: Option<string>)

  /** `sender.tab && sender.tab.id`: a tab id of 0 counts as none. */
  predicate HasTabId(t: Option<int>) {
    t.Some? && t.value != 0
  }

  /**
   * The push that follows a floating-ball request: only to a sender with a
   * tab id; it forwards the answer, or reports a rejection as a failure
   * with its message, falling back to "Request processing failed".
   */
  function AfterFloatingBall(senderTab: Option<int>, outcome: BallOutcome): (r: Option<BallUpdate>)
    ensures r.Some? <==> HasTabId(senderTab)
    ensures r.Some? ==> r.value.tabId == senderTab.value
    ensures r.Some? && outcome.Resolved? ==>
      r.value.success == outcome.response.success && r.value.error == outcome.response.error
    ensures r.Some? && outcome.Rejected? ==>
      !r.value.success && r.value.error == Some(Or(Some(outcome.message), "Request processing failed"))
  {
    if !HasTabId(senderTab) then None
    else
      match outcome
      case Resolved(a) => Some(BallUpdate(senderTab.value, a.success, a.error))
      case Rejected(e) => Some(BallUpdate(senderTab.value, false, Some(Or(Some(e), "Request processing failed"))))
  }

  /**
   * The work `clearSummary` starts: the state and the stored draft are
   * reset, then `clearSummaryResponse` reports success.
   */
  function AfterClear(store: Store): (r: (State, Store, Message))
    ensures r.0 == Initial
    ensures r.1.currentSummary.None? && r.1.(currentSummary := store.currentSummary) == store
    ensures r.2 == ClearSummaryResponse(Some(true))
  {
    var (s, st) := Clear(store);
    (s, st, ClearSummaryResponse(Some(true)))
  }

  /**
   * A notification click: with an active tab, the quick note is flagged for
   * that tab; without one nothing is written.
   */
  function NotificationClick(store: Store, activeTab: Option<int>): (r: Store)
    ensures activeTab.None? ==> r == store
    ensures activeTab.Some? ==> r.notificationClicked == Some(true) && r.notificationTabId == activeTab
    ensures r.(notificationClicked := store.notificationClicked, notificationTabId := store.notificationTabId) == store
  {
    match activeTab
    case None => store
    case Some(id) => store.(notificationClicked := Some(true), notificationTabId := Some(id))
  }
}

=== FILE: contentextractor.dfy ===
/**
 * The page-text normalisation of js/content/contentExtractor.js: line-break
 * runs become one newline, whitespace runs one space, every backlink
 * written with a full-width colon (`Original link：[…](…)`) is deleted, and
 * the result is trimmed. Also the image description `getImageInfo` builds.
 */
module ContentExtractor {
  import opened Js
  import opened Strings
  import Api

  // ---------------------------------------------------------------------------
  // Collapsing runs: `.replace(/[\n\r]+/g, '\n')` and `.replace(/\s+/g, ' ')`

  /** The character class `[\n\r]`. */
  predicate IsBreak(c: char) {
    c == '\n' || c == '\r'
  }

  /**
   * Every maximal run of characters satisfying `p` replaced by the single
   * character `c`, itself one of them; all other characters are kept.
   */
  function Collapse(s: string, p: char -> bool, c: char): (r: string)
    requires p(c)
    ensures |r| <= |s|
    ensures (r != [] && p(r[0])) <==> (s != [] && p(s[0]))
    ensures Others(r, p) == Others(s, p)
    decreases |s|
  {
    if s == [] then []
    else if p(s[0]) then
      OthersDropLeading(s[1..], p);
      OthersCons(c, Collapse(DropLeading(s[1..], p), p, c), p);
      [c] + Collapse(DropLeading(s[1..], p), p, c)
    else
      OthersCons(s[0], Collapse(s[1..], p, c), p);
      [s[0]] + Collapse(s[1..], p, c)
  }

  /** The characters of `s` outside the class `p`, in their order. */
  function Others(s: string, p: char -> bool): string
    decreases |s|
  {
    if s == [] then [] else (if p(s[0]) then [] else [s[0]]) + Others(s[1..], p)
  }

  lemma OthersCons(x: char, t: string, p: char -> bool)
    ensures Others([x] + t, p) == (if p(x) then [] else [x]) + Others(t, p)
  {
    assert ([x] + t)[1..] == t;
  }

  /** Dropping a leading run of the class loses none of the other characters. */
  lemma {:induction false} OthersDropLeading(s: string, p: char -> bool)
    ensures Others(DropLeading(s, p), p) == Others(s, p)
    decreases |s|
  {
    if s != [] && p(s[0]) {
      OthersDropLeading(s[1..], p);
    }
  }

  /** Dropping the leading run of `a + [x] + b` stops at `x` when `x` is outside the class. */
  lemma {:induction false} DropLeadingSplit(a: string, x: char, b: string, p: char -> bool)
    requires !p(x)
    ensures DropLeading(a + [x] + b, p) == DropLeading(a, p) + [x] + b
    decreases |a|
  {
    if a == [] {
      assert a + [x] + b == [x] + b;
    } else if p(a[0]) {
      assert (a + [x] + b)[1..] == a[1..] + [x] + b;
      DropLeadingSplit(a[1..], x, b, p);
    }
  }

  /**
   * Collapsing works piecewise: a character outside the class is kept, and
   * the text on either side of it is collapsed on its own.
   */
  lemma {:induction false} CollapseSplit(a: string, x: char, b: string, p: char -> bool, c: char)
    requires p(c) && !p(x)
    ensures Collapse(a + [x] + b, p, c) == Collapse(a, p, c) + [x] + Collapse(b, p, c)
    decreases |a|
  {
    if a == [] {
      CollapseFrom(x, b, p, c);
    } else {
      var rest := if p(a[0]) then DropLeading(a[1..], p) else a[1..];
      var head := if p(a[0]) then c else a[0];
      CollapseUnfold(a, x, b, p, c);
      CollapseSplit(rest, x, b, p, c);
      ConsAround(head, Collapse(rest, p, c), x, Collapse(b, p, c));
    }
  }

  /** The split at the very start: a kept character, then the rest collapsed. */
  lemma CollapseFrom(x: char, b: string, p: char -> bool, c: char)
    requires p(c) && !p(x)
    ensures Collapse([] + [x] + b, p, c) == Collapse([], p, c) + [x] + Collapse(b, p, c)
  {
    var s := [] + [x] + b;
    assert s[0] == x && s[1..] == b;
  }

  /** One step of collapsing `a + [x] + b` is the same step as on `a` alone. */
  lemma CollapseUnfold(a: string, x: char, b: string, p: char -> bool, c: char)
    requires p(c) && !p(x) && a != []
    ensures var rest := if p(a[0]) then DropLeading(a[1..], p) else a[1..];
            var head := if p(a[0]) then c else a[0];
            && Collapse(a + [x] + b, p, c) == [head] + Collapse(rest + [x] + b, p, c)
            && Collapse(a, p, c) == [head] + Collapse(rest, p, c)
  {
    var s := a + [x] + b;
    assert s[0] == a[0] && s[1..] == a[1..] + [x] + b;
    if p(a[0]) {
      DropLeadingSplit(a[1..], x, b, p);
    }
  }

  lemma ConsAround(head: char, u: string, x: char, t: string)
    ensures [head] + (u + [x] + t) == [head] + u + [x] + t
  {
  }

  /** A non-empty run of the class collapses to exactly one `c`. */
  lemma CollapseRun(run: string, p: char -> bool, c: char)
    requires p(c) && run != []
    requires forall i :: 0 <= i < |run| ==> p(run[i])
    ensures Collapse(run, p, c) == [c]
  {
    DropLeadingAll(run[1..], p);
  }

  /** A string wholly of the class is dropped entirely. */
  lemma {:induction false} DropLeadingAll(s: string, p: char -> bool)
    requires forall i :: 0 <= i < |s| ==> p(s[i])
    ensures DropLeading(s, p) == []
    decreases |s|
  {
    if s != [] {
      DropLeadingAll(s[1..], p);
    }
  }

  /** Every `p` character of `r` is `c`, and no two `p` characters are adjacent. */
  predicate SingleRuns(r: string, p: char -> bool, c: char) {
    && (forall i :: 0 <= i < |r| ==> p(r[i]) ==> r[i] == c)
    && (forall i :: 0 <= i < |r| - 1 ==> !(p(r[i]) && p(r[i + 1])))
  }

  /** After collapsing, every `p` character is `c`, and no two of them are adjacent. */
  lemma {:induction false} CollapseShape(s: string, p: char -> bool, c: char)
    requires p(c)
    ensures SingleRuns(Collapse(s, p, c), p, c)
    decreases |s|
  {
    if s != [] {
      var t := if p(s[0]) then DropLeading(s[1..], p) else s[1..];
      CollapseShape(t, p, c);
      var head := if p(s[0]) then c else s[0];
      assert Collapse(s, p, c) == [head] + Collapse(t, p, c);
      ConsSingleRuns(head, Collapse(t, p, c), p, c);
    }
  }

  /** A character put in front of single runs keeps them single when it is `c` or does not start a run. */
  lemma ConsSingleRuns(head: char, rest: string, p: char -> bool, c: char)
    requires SingleRuns(rest, p, c)
    requires p(head) ==> head == c && (rest == [] || !p(rest[0]))
    ensures SingleRuns([head] + rest, p, c)
  {
    var r := [head] + rest;
    forall i | 0 < i < |r|
      ensures r[i] == rest[i - 1]
    {
    }
  }

  /** Text whose `p` characters are all `c` and never adjacent has no run to collapse. */
  lemma {:induction false} CollapseIdentity(s: string, p: char -> bool, c: char)
    requires p(c)
    requires SingleRuns(s, p, c)
    ensures Collapse(s, p, c) == s
    decreases |s|
  {
    if s != [] {
      var t := s[1..];
      SingleRunsTail(s, p, c);
      CollapseIdentity(t, p, c);
      HeadTail(s);
    }
  }

  lemma HeadTail(s: string)
    requires s != []
    ensures [s[0]] + s[1..] == s
  {
  }

  /** The tail of single-run text has single runs, and a leading `c` is not followed by another run character. */
  lemma SingleRunsTail(s: string, p: char -> bool, c: char)
    requires s != [] && SingleRuns(s, p, c)
    ensures SingleRuns(s[1..], p, c)
    ensures p(s[0]) ==> s[0] == c && DropLeading(s[1..], p) == s[1..]
  {
    var t := s[1..];
    forall i | 0 <= i < |t|
      ensures t[i] == s[i + 1]
    {
    }
    assert |s| > 1 ==> t[0] == s[1];
  }

  /** Collapsing introduces no character other than `c`: one absent from `s` and outside the class stays absent. */
  lemma {:induction false} CollapseKeepsAbsent(s: string, p: char -> bool, c: char, x: char)
    requires p(c) && !p(x) && x !in s
    ensures x !in Collapse(s, p, c)
    decreases |s|
  {
    if s != [] {
      var t := if p(s[0]) then DropLeading(s[1..], p) else s[1..];
      assert t == s[|s| - |t|..];
      assert x !in t by {
        forall i | 0 <= i < |t|
          ensures t[i] != x
        {
          assert t[i] == s[|s| - |t| + i];
        }
      }
      CollapseKeepsAbsent(t, p, c, x);
    }
  }

  /** `.replace(/[\n\r]+/g, '\n')`: every run of CR and LF characters becomes one newline. */
  function CollapseBreaks(s: string): (r: string)
    ensures |r| <= |s|
    ensures SingleRuns(r, IsBreak, '\n')
    ensures Others(r, IsBreak) == Others(s, IsBreak)
  {
    CollapseShape(s, IsBreak, '\n');
    Collapse(s, IsBreak, '\n')
  }

  /** `.replace(/\s+/g, ' ')`: every whitespace run becomes one space. */
  function CollapseSpaces(s: string): (r: string)
    ensures |r| <= |s|
    ensures SingleRuns(r, IsSpace, ' ')
    ensures Others(r, IsSpace) == Others(s, IsSpace)
  {
    CollapseShape(s, IsSpace, ' ');
    Collapse(s, IsSpace, ' ')
  }

  /** Every whitespace character of `s` is a plain space. */
  predicate PlainSpaces(s: string) {
    forall i :: 0 <= i < |s| && IsSpace(s[i]) ==> s[i] == ' '
  }

  /** No two spaces stand next to each other in `s`. */
  predicate NoDoubleSpace(s: string) {
    forall i :: 0 <= i < |s| - 1 ==> !(s[i] == ' ' && s[i + 1] == ' ')
  }

  // ---------------------------------------------------------------------------
  // Removing backlinks: `.replace(/Original link：\[.*?\]\(.*?\)/g, '')`

  /** The literal start of a match; the colon is U+FF1A, not an ASCII colon. */
  const Marker := "Original link\U{FF1A}["

  /** The end of the lazy `.*?\)` from `j`: the first ")" on the same line. */
  function CloseParen(s: string, j: nat): (r: Option<nat>)
    requires j <= |s|
    ensures r.Some? ==> j <= r.value < |s| && s[r.value] == ')'
    decreases |s| - j
  {
    if j == |s| then None
    else if s[j] == ')' then Some(j)
    else if IsLineBreak(s[j]) then None
    else CloseParen(s, j + 1)
  }

  /**
   * The end (exclusive) of `.*?\]\(.*?\)` matched from `k`: the first "]("
   * on the line that is followed by a ")" on the same line; the lazy
   * quantifiers backtrack past a "](" without a closing ")".
   */
  function LinkEnd(s: string, k: nat): (r: Option<nat>)
    requires k <= |s|
    ensures r.Some? ==> k < r.value <= |s|
    decreases |s| - k
  {
    if k == |s| then None
    else if HasAt(s, "](", k) && CloseParen(s, k + 2).Some? then Some(CloseParen(s, k + 2).value + 1)
    else if IsLineBreak(s[k]) then None
    else LinkEnd(s, k + 1)
  }

  /** A match starts at `i`: the marker, then a bracketed part and a parenthesised part on its line. */
  function MatchAt(s: string, i: nat): (r: Option<nat>)
    requires i <= |s|
    ensures r.Some? ==> i < r.value <= |s| && HasAt(s, Marker, i)
  {
    if HasAt(s, Marker, i) then LinkEnd(s, i + |Marker|) else None
  }

  /** The text from `i` on with every leftmost, non-overlapping match deleted. */
  function Strip(s: string, i: nat): (r: string)
    requires i <= |s|
    ensures |r| <= |s| - i
    decreases |s| - i
  {
    if i == |s| then []
    else match MatchAt(s, i)
      case Some(e) => Strip(s, e)
      case None => [s[i]] + Strip(s, i + 1)
  }

  /** Deleting matches keeps the remaining whitespace plain. */
  lemma {:induction false} StripPlainSpaces(s: string, i: nat)
    requires i <= |s| && PlainSpaces(s[i..])
    ensures PlainSpaces(Strip(s, i))
    decreases |s| - i
  {
    if i < |s| {
      match MatchAt(s, i)
      case Some(e) =>
        assert forall k :: 0 <= k < |s[e..]| ==> s[e..][k] == s[i..][k + (e - i)];
        StripPlainSpaces(s, e);
      case None =>
        assert s[i..] == [s[i]] + s[i + 1..];
        StripPlainSpaces(s, i + 1);
    }
  }

  /** Without a marker from `i` on, nothing is deleted. */
  lemma {:induction false} StripWithoutMarker(s: string, i: nat)
    requires i <= |s|
    requires forall j: nat :: i <= j <= |s| ==> !HasAt(s, Marker, j)
    ensures Strip(s, i) == s[i..]
    decreases |s| - i
  {
    if i < |s| {
      assert MatchAt(s, i).None?;
      StripWithoutMarker(s, i + 1);
      assert s[i..] == [s[i]] + s[i + 1..];
    }
  }

  /** No match can start anywhere in `s`. */
  predicate NoMarker(s: string) {
    forall j: nat :: j <= |s| ==> !HasAt(s, Marker, j)
  }

  /** Deleting backlinks only shortens the text, keeps its spaces plain, and changes nothing without a marker. */
  function RemoveLinks(s: string): (r: string)
    ensures |r| <= |s|
    ensures PlainSpaces(s) ==> PlainSpaces(r)
    ensures NoMarker(s) ==> r == s
  {
    assert s[0..] == s;
    assert PlainSpaces(s) ==> PlainSpaces(Strip(s, 0)) by {
      if PlainSpaces(s) {
        StripPlainSpaces(s, 0);
      }
    }
    assert NoMarker(s) ==> Strip(s, 0) == s by {
      if NoMarker(s) {
        StripWithoutMarker(s, 0);
      }
    }
    Strip(s, 0)
  }

  /** Scanning for ")" passes over characters that are neither ")" nor line breaks. */
  lemma {:induction false} CloseParenSkips(s: string, j: nat, e: nat)
    requires j <= e <= |s|
    requires forall k :: j <= k < e ==> s[k] != ')' && !IsLineBreak(s[k])
    ensures CloseParen(s, j) == CloseParen(s, e)
    decreases e - j
  {
    if j < e {
      CloseParenSkips(s, j + 1, e);
    }
  }

  /** Scanning for "](" passes over characters that are neither "]" nor line breaks. */
  lemma {:induction false} LinkEndSkips(s: string, k: nat, e: nat)
    requires k <= e <= |s|
    requires forall j :: k <= j < e ==> s[j] != ']' && !IsLineBreak(s[j])
    ensures LinkEnd(s, k) == LinkEnd(s, e)
    decreases e - k
  {
    if k < e {
      assert k + 2 <= |s| ==> s[k..k + 2][0] == s[k];
      LinkEndSkips(s, k + 1, e);
    }
  }

  /**
   * A backlink with the full-width colon, whose label has no "]" and whose
   * target has no ")" and neither a line break, is deleted entirely.
   */
  lemma RemoveLinksDeletesLink(name: string, target: string)
    requires forall k :: 0 <= k < |name| ==> name[k] != ']' && !IsLineBreak(name[k])
    requires forall k :: 0 <= k < |target| ==> target[k] != ')' && !IsLineBreak(target[k])
    ensures RemoveLinks(Marker + name + "](" + target + ")") == ""
  {
    var link := Marker + name + "](" + target + ")";
    LinkMatched(name, target, "");
    assert link + "" == link;
    StripSkipsMatch(link, 0, |link|);
  }

  /** Text without the full-width colon keeps all its backlinks. */
  lemma RemoveLinksWithoutFullWidthColon(s: string)
    requires '\U{FF1A}' !in s
    ensures RemoveLinks(s) == s
  {
    assert Marker[13] == '\U{FF1A}';
    forall j: nat | j <= |s|
      ensures !HasAt(s, Marker, j)
    {
      assert j + |Marker| <= |s| ==> s[j..j + |Marker|][13] == s[j + 13];
    }
    assert s[0..] == s;
  }

  /** A position found in `b`, seen from the start of `a + b`. */
  function Offset(o: Option<nat>, n: nat): Option<nat> {
    match o
    case None => None
    case Some(x) => Some(x + n)
  }

  /** The text from `n` on is `b`. */
  predicate SuffixAt(s: string, n: nat, b: string) {
    n <= |s| && s[n..] == b
  }

  /** Position `n + i` of the text is position `i` of its suffix from `n`. */
  lemma SuffixIndex(s: string, n: nat, b: string, i: nat)
    requires SuffixAt(s, n, b) && i < |b|
    ensures n + i < |s| && s[n + i] == b[i]
  {
    assert b[i] == s[n..][i];
  }

  lemma SuffixOfAppend(a: string, b: string)
    ensures SuffixAt(a + b, |a|, b)
  {
  }

  /** An occurrence test looks only forward: in a text whose suffix from `n` is `b`, it agrees with `b`. */
  lemma HasAtSuffix(s: string, n: nat, b: string, t: string, j: nat)
    requires SuffixAt(s, n, b) && j <= |b|
    ensures HasAt(s, t, n + j) <==> HasAt(b, t, j)
  {
    if j + |t| <= |b| {
      var x, y := s[n + j..n + j + |t|], b[j..j + |t|];
      forall i | 0 <= i < |t|
        ensures x[i] == y[i]
      {
        SuffixIndex(s, n, b, j + i);
      }
      assert x == y;
    }
  }

  lemma {:induction false} CloseParenSuffix(s: string, n: nat, b: string, j: nat)
    requires SuffixAt(s, n, b) && j <= |b|
    ensures CloseParen(s, n + j) == Offset(CloseParen(b, j), n)
    decreases |b| - j
  {
    if j < |b| {
      SuffixIndex(s, n, b, j);
      CloseParenSuffix(s, n, b, j + 1);
    }
  }

  lemma {:induction false} LinkEndSuffix(s: string, n: nat, b: string, k: nat)
    requires SuffixAt(s, n, b) && k <= |b|
    ensures LinkEnd(s, n + k) == Offset(LinkEnd(b, k), n)
    decreases |b| - k
  {
    if k < |b| {
      SuffixIndex(s, n, b, k);
      HasAtSuffix(s, n, b, "](", k);
      if k + 2 <= |b| {
        CloseParenSuffix(s, n, b, k + 2);
      }
      LinkEndSuffix(s, n, b, k + 1);
      LinkEndAgree(s, b, n, k);
    }
  }

  /** One step of the scan for "](": it agrees when the tests it makes agree and the rest of the scan does. */
  lemma LinkEndAgree(s: string, b: string, n: nat, k: nat)
    requires k < |b| && n + k < |s|
    requires HasAt(s, "](", n + k) <==> HasAt(b, "](", k)
    requires k + 2 <= |b| && n + k + 2 <= |s| ==> CloseParen(s, n + k + 2) == Offset(CloseParen(b, k + 2), n)
    requires IsLineBreak(s[n + k]) == IsLineBreak(b[k])
    requires LinkEnd(s, n + k + 1) == Offset(LinkEnd(b, k + 1), n)
    ensures LinkEnd(s, n + k) == Offset(LinkEnd(b, k), n)
  {
  }

  /** Where a match starts in a suffix, and where it ends, seen from the whole text. */
  lemma MatchSuffix(s: string, n: nat, b: string, j: nat)
    requires SuffixAt(s, n, b) && j <= |b|
    ensures MatchAt(s, n + j) == Offset(MatchAt(b, j), n)
  {
    HasAtSuffix(s, n, b, Marker, j);
    if HasAt(b, Marker, j) {
      LinkEndSuffix(s, n, b, j + |Marker|);
    }
  }

  /** Whether a match starts at a position, and where it ends, depends only on the text from there on. */
  lemma MatchAtShift(a: string, b: string, j: nat)
    requires j <= |b|
    ensures MatchAt(a + b, |a| + j) == Offset(MatchAt(b, j), |a|)
  {
    SuffixOfAppend(a, b);
    MatchSuffix(a + b, |a|, b, j);
  }

  /** Deleting matches from a position on ignores the text before it. */
  lemma StripShift(a: string, b: string, j: nat)
    requires j <= |b|
    ensures Strip(a + b, |a| + j) == Strip(b, j)
  {
    assert SuffixAt(a + b, |a|, b) by {
      SuffixOfAppend(a, b);
    }
    StripSuffix(a + b, |a|, b, j);
  }

  /** The same, for a text `s` whose suffix from `n` is `b`. */
  lemma {:induction false} StripSuffix(s: string, n: nat, b: string, j: nat)
    requires SuffixAt(s, n, b) && j <= |b|
    ensures Strip(s, n + j) == Strip(b, j)
    decreases |b| - j
  {
    if j == |b| {
      StripEnd(s, n + j);
      StripEnd(b, j);
    } else {
      match MatchAt(b, j)
      case Some(e) =>
        MatchSuffixSome(s, n, b, j, e);
        StripSkipsMatch(s, n + j, n + e);
        StripSkipsMatch(b, j, e);
        StripSuffix(s, n, b, e);
        assert Strip(s, n + j) == Strip(s, n + e) == Strip(b, e) == Strip(b, j);
      case None =>
        StripSuffixKeep(s, n, b, j);
        StripSuffix(s, n, b, j + 1);
        assert Strip(s, n + j) == [b[j]] + Strip(s, n + j + 1) == [b[j]] + Strip(b, j + 1) == Strip(b, j);
    }
  }

  lemma StripEnd(s: string, i: nat)
    requires i == |s|
    ensures Strip(s, i) == []
  {
  }

  /** A match at `j` in the suffix `b` is the same match, shifted by `n`, in `s`. */
  lemma MatchSuffixSome(s: string, n: nat, b: string, j: nat, e: nat)
    requires SuffixAt(s, n, b) && j < |b| && MatchAt(b, j) == Some(e)
    ensures j < e <= |b| && n + j < |s| && MatchAt(s, n + j) == Some(n + e)
  {
    MatchSuffix(s, n, b, j);
    OffsetSome(MatchAt(b, j), n, e);
  }

  lemma OffsetSome(o: Option<nat>, n: nat, e: nat)
    requires o == Some(e)
    ensures Offset(o, n) == Some(n + e)
  {
  }

  /** Without a match at `j` in the suffix `b`, `s` and `b` both copy the same character. */
  lemma StripSuffixKeep(s: string, n: nat, b: string, j: nat)
    requires SuffixAt(s, n, b) && j < |b| && MatchAt(b, j).None?
    ensures Strip(s, n + j) == [b[j]] + Strip(s, n + j + 1) && Strip(b, j) == [b[j]] + Strip(b, j + 1)
  {
    MatchSuffix(s, n, b, j);
    SuffixIndex(s, n, b, j);
    StripStep(s, n + j);
    StripStep(b, j);
  }

  /** No match starts at any position from `i` up to, but not including, `n`. */
  predicate NoMatchBetween(s: string, i: nat, n: nat)
    requires i <= n <= |s|
    decreases n - i
  {
    i == n || (MatchAt(s, i).None? && NoMatchBetween(s, i + 1, n))
  }

  /** The same, position by position. */
  lemma {:induction false} NoMatchBetweenAll(s: string, i: nat, n: nat)
    requires i <= n <= |s|
    ensures NoMatchBetween(s, i, n) <==> forall k :: i <= k < n ==> MatchAt(s, k).None?
    decreases n - i
  {
    if i < n {
      NoMatchBetweenAll(s, i + 1, n);
    }
  }

  /** Where no match starts, the character is kept. */
  lemma StripStep(s: string, i: nat)
    requires i < |s| && MatchAt(s, i).None?
    ensures Strip(s, i) == [s[i]] + Strip(s, i + 1)
  {
  }

  /** Where a match starts, it is deleted and deletion resumes after it. */
  lemma StripSkipsMatch(s: string, i: nat, e: nat)
    requires i < |s| && MatchAt(s, i) == Some(e)
    ensures Strip(s, i) == Strip(s, e)
  {
  }

  /** Where no match starts, the text is copied up to the next position considered. */
  lemma {:induction false} StripCopies(s: string, i: nat, n: nat)
    requires i <= n <= |s|
    requires NoMatchBetween(s, i, n)
    ensures Strip(s, i) == s[i..n] + Strip(s, n)
    decreases n - i
  {
    if i < n {
      StripStep(s, i);
      StripCopies(s, i + 1, n);
      ConsSlice(s, i, n, Strip(s, n));
    }
  }

  /** Splitting off the first character of a slice that is followed by more text. */
  lemma ConsSlice(s: string, i: nat, n: nat, tail: string)
    requires i < n <= |s|
    ensures [s[i]] + (s[i + 1..n] + tail) == s[i..n] + tail
  {
    assert s[i..n] == [s[i]] + s[i + 1..n];
  }

  /** A backlink with a plain label and target is matched from its marker to its closing parenthesis, whatever follows. */
  lemma LinkMatched(name: string, target: string, rest: string)
    requires forall k :: 0 <= k < |name| ==> name[k] != ']' && !IsLineBreak(name[k])
    requires forall k :: 0 <= k < |target| ==> target[k] != ')' && !IsLineBreak(target[k])
    ensures var link := Marker + name + "](" + target + ")";
      MatchAt(link + rest, 0) == Some(|link|)
  {
    var link := Marker + name + "](" + target + ")";
    var s := link + rest;
    var a := |Marker|;
    var b := a + |name|;
    assert HasAt(s, Marker, 0) by {
      assert s[..a] == Marker;
    }
    assert forall k :: a <= k < b ==> s[k] == name[k - a];
    assert s[b] == ']' && s[b + 1] == '(';
    assert forall k :: b + 2 <= k < |link| - 1 ==> s[k] == target[k - b - 2];
    assert s[|link| - 1] == ')';
    LinkShape(s, b, |link| - 1);
  }

  /**
   * The shape of a match from the start: the marker, a label without "]"
   * or line break, "](", a target without ")" or line break, and ")".
   */
  lemma LinkShape(s: string, b: nat, e: nat)
    requires |Marker| <= b && b + 2 <= e < |s|
    requires HasAt(s, Marker, 0)
    requires forall k :: |Marker| <= k < b ==> s[k] != ']' && !IsLineBreak(s[k])
    requires s[b] == ']' && s[b + 1] == '('
    requires forall k :: b + 2 <= k < e ==> s[k] != ')' && !IsLineBreak(s[k])
    requires s[e] == ')'
    ensures MatchAt(s, 0) == Some(e + 1)
  {
    LinkEndSkips(s, |Marker|, b);
    assert HasAt(s, "](", b) by {
      assert s[b..b + 2] == "](";
    }
    CloseParenSkips(s, b + 2, e);
    assert CloseParen(s, e) == Some(e);
  }

  /**
   * Text that matches as a whole from its start is deleted from inside other
   * text when no earlier match starts; what follows is processed on its own.
   */
  lemma RemoveMatchAround(before: string, link: string, after: string)
    requires NoMatchBetween(before + link + after, 0, |before|)
    requires link != [] && MatchAt(link + after, 0) == Some(|link|)
    ensures RemoveLinks(before + link + after) == before + RemoveLinks(after)
  {
    StripAround(before, link, after);
  }

  /** The same, stated on the deletion from the start. */
  lemma StripAround(before: string, link: string, after: string)
    requires NoMatchBetween(before + link + after, 0, |before|)
    requires link != [] && MatchAt(link + after, 0) == Some(|link|)
    ensures Strip(before + link + after, 0) == before + Strip(after, 0)
  {
    var s := before + link + after;
    AroundPieces(before, link, after);
    assert Strip(s, 0) == s[..|before|] + Strip(s[|before| + |link|..], 0) by {
      RemoveMatchAt(s, |before|, |before| + |link|);
    }
  }

  /** How the pieces sit in `before + link + after`, and that the link is matched there. */
  lemma AroundPieces(before: string, link: string, after: string)
    requires link != [] && MatchAt(link + after, 0) == Some(|link|)
    ensures |before| < |before| + |link| <= |before + link + after|
    ensures (before + link + after)[..|before|] == before
    ensures (before + link + after)[|before| + |link|..] == after
    ensures MatchAt(before + link + after, |before|) == Some(|before| + |link|)
  {
    LinkMatchedInside(before, link, after);
  }

  /**
   * Where the first match starts at `n` and ends at `e`, the text before it
   * is kept and deletion resumes on the text after it, alone.
   */
  lemma RemoveMatchAt(s: string, n: nat, e: nat)
    requires n < e <= |s| && NoMatchBetween(s, 0, n) && MatchAt(s, n) == Some(e)
    ensures Strip(s, 0) == s[..n] + Strip(s[e..], 0)
  {
    assert Strip(s, 0) == s[..n] + Strip(s, n) by {
      StripCopies(s, 0, n);
      assert s[0..n] == s[..n];
    }
    assert Strip(s, n) == Strip(s, e) by {
      StripSkipsMatch(s, n, e);
    }
    assert Strip(s, e) == Strip(s[e..], 0) by {
      DropSuffix(s, e);
      StripSuffix(s, e, s[e..], 0);
    }
  }

  lemma DropSuffix(s: string, e: nat)
    requires e <= |s|
    ensures SuffixAt(s, e, s[e..])
  {
  }

  /** A match of the whole link, seen inside surrounding text. */
  lemma LinkMatchedInside(before: string, link: string, after: string)
    requires MatchAt(link + after, 0) == Some(|link|)
    ensures MatchAt(before + link + after, |before|) == Some(|before| + |link|)
  {
    assert before + link + after == before + (link + after);
    MatchAtShift(before, link + after, 0);
  }

  /**
   * Inside other text, a backlink is deleted and everything before it kept,
   * when no earlier match starts before it; the text after it is processed
   * on its own.
   */
  lemma RemoveLinksInText(before: string, name: string, target: string, after: string)
    requires forall k :: 0 <= k < |name| ==> name[k] != ']' && !IsLineBreak(name[k])
    requires forall k :: 0 <= k < |target| ==> target[k] != ')' && !IsLineBreak(target[k])
    requires NoMatchBetween(before + (Marker + name + "](" + target + ")") + after, 0, |before|)
    ensures RemoveLinks(before + (Marker + name + "](" + target + ")") + after) == before + RemoveLinks(after)
  {
    LinkMatched(name, target, after);
    RemoveMatchAround(before, Marker + name + "](" + target + ")", after);
  }

  /**
   * So the backlinks the extension itself writes, which use an ASCII colon,
   * survive extraction whenever their label and url have no full-width colon.
   */
  lemma OwnBacklinkSurvives(title: string, url: string)
    requires '\U{FF1A}' !in title && '\U{FF1A}' !in url
    ensures RemoveLinks(Api.OriginalLink(title, url)) == Api.OriginalLink(title, url)
  {
    var link := Api.OriginalLink(title, url);
    assert '\U{FF1A}' !in Api.Label(title, url);
    assert '\U{FF1A}' !in link;
    RemoveLinksWithoutFullWidthColon(link);
  }

  // ---------------------------------------------------------------------------
  // extractPageContent

  /** `extractPageContent` applied to the page's visible text. */
  function ExtractPageContent(innerText: string): (r: string)
    ensures r == [] || (!IsSpace(r[0]) && !IsSpace(r[|r| - 1]))
  {
    Trim(RemoveLinks(CollapseSpaces(CollapseBreaks(innerText))))
  }

  /** A slice of text whose spaces are plain, and never doubled, keeps both properties. */
  lemma SliceKeepsSpacing(s: string, a: nat, b: nat)
    requires a <= b <= |s|
    ensures PlainSpaces(s) ==> PlainSpaces(s[a..b])
    ensures NoDoubleSpace(s) ==> NoDoubleSpace(s[a..b])
  {
    assert forall k :: 0 <= k < b - a ==> s[a..b][k] == s[a + k];
  }

  /** Trimming keeps plain and single spacing: it only cuts the ends off. */
  lemma TrimKeepsSpacing(s: string)
    ensures PlainSpaces(s) ==> PlainSpaces(Trim(s))
    ensures NoDoubleSpace(s) ==> NoDoubleSpace(Trim(s))
  {
    var k := TrimShape(s);
    SliceKeepsSpacing(s, k, k + |Trim(s)|);
  }

  /** The extracted text has no line breaks: every whitespace character left is a plain space. */
  lemma ExtractHasPlainSpaces(innerText: string)
    ensures PlainSpaces(ExtractPageContent(innerText))
    ensures forall i :: 0 <= i < |ExtractPageContent(innerText)| ==>
      ExtractPageContent(innerText)[i] != '\n' && ExtractPageContent(innerText)[i] != '\r'
  {
    var collapsed := CollapseSpaces(CollapseBreaks(innerText));
    assert PlainSpaces(collapsed) by {
      assert SingleRuns(collapsed, IsSpace, ' ');
    }
    var stripped := RemoveLinks(collapsed);
    TrimKeepsSpacing(stripped);
  }

  /**
   * When the page text has no full-width colon, so no backlink can be
   * deleted, every whitespace run of the page has become exactly one space.
   */
  lemma ExtractSingleSpaced(innerText: string)
    requires '\U{FF1A}' !in innerText
    ensures NoDoubleSpace(ExtractPageContent(innerText))
  {
    var collapsed := CollapseSpaces(CollapseBreaks(innerText));
    CollapsedWithoutColon(innerText);
    RemoveLinksWithoutFullWidthColon(collapsed);
    TrimKeepsSpacing(collapsed);
  }

  /** Both collapses leave no doubled space, and bring in no full-width colon. */
  lemma CollapsedWithoutColon(innerText: string)
    requires '\U{FF1A}' !in innerText
    ensures var collapsed := CollapseSpaces(CollapseBreaks(innerText));
      NoDoubleSpace(collapsed) && '\U{FF1A}' !in collapsed
  {
    var broken := CollapseBreaks(innerText);
    var collapsed := CollapseSpaces(broken);
    assert SingleRuns(collapsed, IsSpace, ' ');
    CollapseKeepsAbsent(innerText, IsBreak, '\n', '\U{FF1A}');
    CollapseKeepsAbsent(broken, IsSpace, ' ', '\U{FF1A}');
  }

  /** Single-spaced text has single runs of both kinds: no line break at all, and no doubled space. */
  lemma SingleSpacedRuns(s: string)
    requires PlainSpaces(s) && NoDoubleSpace(s)
    ensures SingleRuns(s, IsBreak, '\n') && SingleRuns(s, IsSpace, ' ')
  {
    forall i | 0 <= i < |s|
      ensures !IsBreak(s[i])
    {
      assert IsBreak(s[i]) ==> IsSpace(s[i]);
    }
  }

  /** Text that is already trimmed and single-spaced, without a backlink to delete, comes back unchanged. */
  lemma ExtractIdentity(s: string)
    requires PlainSpaces(s) && NoDoubleSpace(s) && NoMarker(s)
    requires s == [] || (!IsSpace(s[0]) && !IsSpace(s[|s| - 1]))
    ensures ExtractPageContent(s) == s
  {
    SingleSpacedRuns(s);
    CollapseIdentity(s, IsBreak, '\n');
    CollapseIdentity(s, IsSpace, ' ');
    assert RemoveLinks(CollapseSpaces(CollapseBreaks(s))) == s;
    TrimmedUnchanged(s);
  }

  /** Text without whitespace at either end is its own trim. */
  lemma TrimmedUnchanged(s: string)
    requires s == [] || (!IsSpace(s[0]) && !IsSpace(s[|s| - 1]))
    ensures Trim(s) == s
  {
    if s != [] {
      assert DropLeading(s, IsSpace) == s;
      assert s + [] == s;
      DropTrailingExact(s, [], IsSpace);
    }
  }

  // ---------------------------------------------------------------------------
  // getImageInfo

  datatype ImageInfo = ImageInfo(src: string, alt: string, title: string)

  /** `getImageInfo`: missing or empty alt and title text become "". */
  function GetImageInfo(src: string, alt: Option<string>, title: Option<string>): (r: ImageInfo)
    ensures r.src == src
    ensures r.alt == (if alt.Some? then alt.value else "")
    ensures r.title == (if title.Some? then title.value else "")
  {
    ImageInfo(src, Or(alt, ""), Or(title, ""))
  }

  /** An image description read back through `getImageInfo` comes out unchanged. */
  lemma ImageInfoRoundTrip(info: ImageInfo)
    ensures GetImageInfo(info.src, Some(info.alt), Some(info.title)) == info
  {
  }
}

=== FILE: contextmenu.dfy ===
/**
 * The right-click menu's click handler (js/contextMenu.js): send selected
 * text, append it to the quick note, attach an image to the quick note,
 * save an image as a note, or summarize or extract the page. The fetches,
 * uploads and sends it performs are inputs; the handler never throws, every
 * failure ends in a "failed" notification.
 */
module ContextMenu {
  import opened Js
  import opened Strings
  import opened Preferences
  import opened Storage
  import opened View
  import opened Api
  import opened Messages

  datatype MenuItem =
    | SendSelectedText
    | SaveToQuickNote
    | SaveImageToQuickNote
    | SaveImageToBlinko
    | SummarizePageContent
    | ExtractPageContent
    | OtherItem(id: string)

  /** The click: which item, the selected text and the image's source url. */
  datatype ClickInfo = ClickInfo(item: MenuItem, selectionText: string, srcUrl: string)

  /** The tab clicked in; a missing url or title is "". */
  datatype PageTab = PageTab(url: string, title: string)

  /**
   * What the outside world answers: fetching the image, uploading it,
   * posting the note, asking the page for its content, and the content
   * handler's own run.
   */
  datatype Inputs = Inputs(imageFetch: Outcome, upload: UploadReply, note: NoteReply, page: Delivery<PageReply>,
                           handled: Outcome)

  /** The page content handed to the content handler, marked for saving without review. */
  datatype ContentRequest = ContentRequest(capture: Capture, directSave: bool)

  /**
   * Everything a click changes or emits: the store, the notification shown,
   * whether the toolbar icon flashes success, the note request posted, the
   * upload url posted to, and the content handed on.
   */
  datatype Clicked = Clicked(store: Store, notification: Option<Notification>, successIcon: bool,
                             sent: Option<NoteRequest>, uploaded: Option<string>, content: Option<ContentRequest>)

  function Failed(store: Store, title: string, message: string): (r: Clicked)
    ensures r.store == store && r.notification == Some(Notification(title, message))
    ensures !r.successIcon && r.sent.None? && r.uploaded.None? && r.content.None?
  {
    Clicked(store, Some(Notification(title, message)), false, None, None, None)
  }

  // ---------------------------------------------------------------------------
  // sendSelectedText

  /**
   * Selected text is sent trimmed as an excerpt (so it takes `extractTag`),
   * with the tab's url and title and no attachment.
   */
  function SendSelection(store: Store, info: ClickInfo, tab: PageTab, inputs: Inputs): (r: Clicked)
    ensures store.settings.None? ==> r == Failed(store, "Send Failed", "Settings not found")
    ensures r.store == store && r.uploaded.None? && r.content.None?
    ensures store.settings.Some? ==>
      r.sent == SendToBlinko(store.settings, Trim(info.selectionText), tab.url, tab.title, NoAttachment, Extract, inputs.note).request
    ensures r.successIcon <==>
      store.settings.Some? && SendToBlinko(store.settings, Trim(info.selectionText), tab.url, tab.title, NoAttachment, Extract, inputs.note).result.Sent?
    ensures r.successIcon ==>
      r.notification == Some(Notification("Sent Successfully", "Selected text has been successfully sent to Brainwave.ai"))
    ensures store.settings.Some? && !r.successIcon ==>
      var out := SendToBlinko(store.settings, Trim(info.selectionText), tab.url, tab.title, NoAttachment, Extract, inputs.note);
      r.notification == Some(Notification("Send Failed", Or(Some(out.result.error), "Failed to send selected text")))
  {
    if store.settings.None? then Failed(store, "Send Failed", "Settings not found")
    else
      var out := SendToBlinko(store.settings, Trim(info.selectionText), tab.url, tab.title, NoAttachment, Extract, inputs.note);
      match out.result
      case Sent(_) =>
        Clicked(store, Some(Notification("Sent Successfully", "Selected text has been successfully sent to Brainwave.ai")),
          true, out.request, None, None)
      case SendFailed(e) =>
        Clicked(store, Some(Notification("Send Failed", Or(Some(e), "Failed to send selected text"))),
          false, out.request, None, None)
  }

  // ---------------------------------------------------------------------------
  // saveToQuickNote

  /** The quick note after a selection is appended: "\n\n" separates it from existing text. */
  function AppendSelection(current: Option<string>, selection: string): (r: string)
    ensures !Truthy(current) ==> r == Trim(selection)
    ensures Truthy(current) ==> r == current.value + "\n\n" + Trim(selection)
  {
    var existing := Or(current, "");
    (if existing != "" then existing + "\n\n" else "") + Trim(selection)
  }

  /** Appending the selected text to the stored quick note; nothing is sent. */
  function SaveSelectionToQuickNote(store: Store, info: ClickInfo): (r: Clicked)
    ensures r.store == store.(quickNote := Some(AppendSelection(store.quickNote, info.selectionText)))
    ensures r.notification == Some(Notification("Added to Quick Note", "Selected text has been added to Quick Notes"))
    ensures !r.successIcon && r.sent.None? && r.uploaded.None? && r.content.None?
  {
    Clicked(store.(quickNote := Some(AppendSelection(store.quickNote, info.selectionText))),
      Some(Notification("Added to Quick Note", "Selected text has been added to Quick Notes")),
      false, None, None, None)
  }

  /** The note after a run of selections is appended, one click at a time. */
  function AppendAll(note: string, selections: seq<string>): string
    decreases |selections|
  {
    if selections == [] then note
    else AppendAll(AppendSelection(Some(note), selections[0]), selections[1..])
  }

  /** One append keeps the note as a prefix. */
  lemma AppendSelectionExtends(note: string, selection: string)
    ensures note <= AppendSelection(Some(note), selection)
  {
    var r := AppendSelection(Some(note), selection);
    if note != "" {
      assert r == note + "\n\n" + Trim(selection);
      assert r[..|note|] == note;
    }
  }

  /** Appending only ever adds text at the end: the note before is a prefix of the note after. */
  lemma {:induction false} AppendAllKeepsPrefix(note: string, selections: seq<string>)
    ensures note <= AppendAll(note, selections)
    decreases |selections|
  {
    if selections != [] {
      var next := AppendSelection(Some(note), selections[0]);
      AppendSelectionExtends(note, selections[0]);
      AppendAllKeepsPrefix(next, selections[1..]);
      assert AppendAll(note, selections) == AppendAll(next, selections[1..]);
    }
  }

  // ---------------------------------------------------------------------------
  // saveImageToQuickNote and saveImageToBlinko

  /** The entry an uploaded image adds to the quick note: its upload metadata and where it came from. */
  function ImageEntry(meta: FileMeta, srcUrl: string): (r: Attachment)
    ensures r.meta == meta && r.originalUrl == Some(srcUrl) && r.localUrl.None?
  {
    Attachment(meta, Some(srcUrl), None)
  }

  /**
   * The image is fetched and uploaded, then appended as one new entry at the
   * end of the stored attachment list.
   */
  function SaveImageToQuickNote(store: Store, info: ClickInfo, inputs: Inputs): (r: Clicked)
    ensures store.settings.None? ==> r == Failed(store, "Save Failed", "Settings not found")
    ensures inputs.imageFetch.Fail? && store.settings.Some? ==> r == Failed(store, "Save Failed", inputs.imageFetch.error)
    ensures r.sent.None? && r.content.None? && !r.successIcon
    ensures r.store != store ==>
      && store.settings.Some? && inputs.imageFetch.Pass?
      && UploadFile(store.settings.value, inputs.upload).result.Ok?
      && r.store == store.(quickNoteAttachments := Some(StoredAttachments(store) +
           [ImageEntry(UploadFile(store.settings.value, inputs.upload).result.value, info.srcUrl)]))
    ensures store.settings.Some? && inputs.imageFetch.Pass? && UploadFile(store.settings.value, inputs.upload).result.Ok? ==>
      |StoredAttachments(r.store)| == |StoredAttachments(store)| + 1 &&
      r.notification == Some(Notification("Added to Quick Note", "Image has been added to Quick Notes"))
    ensures store.settings.Some? && inputs.imageFetch.Pass? && UploadFile(store.settings.value, inputs.upload).result.Err? ==>
      r == Clicked(store, Some(Notification("Save Failed", UploadFile(store.settings.value, inputs.upload).result.error)),
                   false, None, UploadFile(store.settings.value, inputs.upload).request, None)
    ensures store.settings.Some? && inputs.imageFetch.Pass? ==> r.uploaded == UploadFile(store.settings.value, inputs.upload).request
  {
    if store.settings.None? then Failed(store, "Save Failed", "Settings not found")
    else if inputs.imageFetch.Fail? then Failed(store, "Save Failed", inputs.imageFetch.error)
    else
      var up := UploadFile(store.settings.value, inputs.upload);
      match up.result
      case Err(e) => Clicked(store, Some(Notification("Save Failed", e)), false, None, up.request, None)
      case Ok(meta) =>
        var atts := StoredAttachments(store) + [ImageEntry(meta, info.srcUrl)];
        Clicked(store.(quickNoteAttachments := Some(atts)),
          Some(Notification("Added to Quick Note", "Image has been added to Quick Notes")),
          false, None, up.request, None)
  }

  /** Adding an image keeps every existing entry where it was and puts the new one last. */
  lemma ImageAppendedAtEnd(store: Store, info: ClickInfo, inputs: Inputs)
    requires store.settings.Some? && inputs.imageFetch.Pass? && UploadFile(store.settings.value, inputs.upload).result.Ok?
    ensures var before := StoredAttachments(store);
      var after := StoredAttachments(SaveImageToQuickNote(store, info, inputs).store);
      && after[..|before|] == before
      && after[|before|].originalUrl == Some(info.srcUrl)
      && after[|before|].meta == UploadFile(store.settings.value, inputs.upload).result.value
  {
    var before := StoredAttachments(store);
    var after := StoredAttachments(SaveImageToQuickNote(store, info, inputs).store);
    assert after == before + [ImageEntry(UploadFile(store.settings.value, inputs.upload).result.value, info.srcUrl)];
    assert after[..|before|] == before;
  }

  /**
   * The image is fetched, uploaded and posted as an image note with empty
   * text and the uploaded file as its one attachment.
   */
  function SaveImageToServer(store: Store, info: ClickInfo, tab: PageTab, inputs: Inputs): (r: Clicked)
    ensures store.settings.None? ==> r == Failed(store, "Save Failed", "Settings not found")
    ensures inputs.imageFetch.Fail? && store.settings.Some? ==> r == Failed(store, "Save Failed", inputs.imageFetch.error)
    ensures r.store == store && r.content.None?
    ensures r.sent.Some? ==>
      && store.settings.Some? && inputs.imageFetch.Pass?
      && UploadFile(store.settings.value, inputs.upload).result.Ok?
      && r.sent == SendToBlinko(store.settings, "", tab.url, tab.title,
           One(Attachment(UploadFile(store.settings.value, inputs.upload).result.value, None, None)), Image, inputs.note).request
    ensures r.successIcon ==>
      r.sent.Some? && r.notification == Some(Notification("Save Successful", "Image has been successfully saved to Brainwave.ai"))
    ensures store.settings.Some? && inputs.imageFetch.Pass? ==> r.uploaded == UploadFile(store.settings.value, inputs.upload).request
    ensures store.settings.Some? && inputs.imageFetch.Pass? && UploadFile(store.settings.value, inputs.upload).result.Err? ==>
      r.sent.None? && !r.successIcon &&
      r.notification == Some(Notification("Save Failed", UploadFile(store.settings.value, inputs.upload).result.error))
    ensures store.settings.Some? && inputs.imageFetch.Pass? && UploadFile(store.settings.value, inputs.upload).result.Ok? ==>
      var out := SendToBlinko(store.settings, "", tab.url, tab.title,
        One(Attachment(UploadFile(store.settings.value, inputs.upload).result.value, None, None)), Image, inputs.note);
      && r.sent == out.request
      && (r.successIcon <==> out.result.Sent?)
      && (out.result.SendFailed? ==> r.notification == Some(Notification("Save Failed", Or(Some(out.result.error), "Save failed"))))
  {
    if store.settings.None? then Failed(store, "Save Failed", "Settings not found")
    else if inputs.imageFetch.Fail? then Failed(store, "Save Failed", inputs.imageFetch.error)
    else
      var up := UploadFile(store.settings.value, inputs.upload);
      match up.result
      case Err(e) => Clicked(store, Some(Notification("Save Failed", e)), false, None, up.request, None)
      case Ok(meta) =>
        var out := SendToBlinko(store.settings, "", tab.url, tab.title, One(Attachment(meta, None, None)), Image, inputs.note);
        match out.result
        case Sent(_) =>
          Clicked(store, Some(Notification("Save Successful", "Image has been successfully saved to Brainwave.ai")),
            true, out.request, up.request, None)
        case SendFailed(e) =>
          Clicked(store, Some(Notification("Save Failed", Or(Some(e), "Save failed"))), false, out.request, up.request, None)
  }

  // ---------------------------------------------------------------------------
  // summarizePageContent and extractPageContent

  /**
   * The page is asked for its content, which goes to the content handler to
   * be saved directly; it is an extraction exactly for the extract item.
   * Failures are reported under the item's own title.
   */
  function ProcessPage(store: Store, info: ClickInfo, inputs: Inputs): (r: Clicked)
    requires info.item.SummarizePageContent? || info.item.ExtractPageContent?
    ensures r.store == store && r.sent.None? && r.uploaded.None? && !r.successIcon
    ensures r.content.Some? <==> RequestCapture(inputs.page, info.item.ExtractPageContent?).Ok?
    ensures r.content.Some? ==>
      r.content.value.directSave && r.content.value.capture.isExtractOnly == info.item.ExtractPageContent?
    ensures RequestCapture(inputs.page, info.item.ExtractPageContent?).Err? ==>
      r.notification == Some(Notification(if info.item.SummarizePageContent? then "Summarize Failed" else "Extract Failed",
                                          RequestCapture(inputs.page, info.item.ExtractPageContent?).error))
    ensures r.content.Some? && inputs.handled.Pass? ==> r.notification.None?
    ensures r.content.Some? && inputs.handled.Fail? ==>
      r.notification == Some(Notification(if info.item.SummarizePageContent? then "Summarize Failed" else "Extract Failed",
                                          inputs.handled.error))
  {
    var title := if info.item.SummarizePageContent? then "Summarize Failed" else "Extract Failed";
    match RequestCapture(inputs.page, info.item.ExtractPageContent?)
    case Err(e) => Failed(store, title, e)
    case Ok(capture) =>
      var request := Some(ContentRequest(capture, true));
      match inputs.handled
      case Pass => Clicked(store, None, false, None, None, request)
      case Fail(e) => Clicked(store, Some(Notification(title, e)), false, None, None, request)
  }

  /** `handleContextMenuClick`: one branch per menu item; any other item does nothing. */
  function HandleClick(store: Store, info: ClickInfo, tab: PageTab, inputs: Inputs): (r: Clicked)
    ensures info.item.OtherItem? ==> r == Clicked(store, None, false, None, None, None)
    ensures !info.item.SaveToQuickNote? && !info.item.SaveImageToQuickNote? ==> r.store == store
    ensures r.sent.Some? ==> info.item.SendSelectedText? || info.item.SaveImageToBlinko?
    ensures r.content.Some? ==> info.item.SummarizePageContent? || info.item.ExtractPageContent?
  {
    match info.item
    case SendSelectedText => SendSelection(store, info, tab, inputs)
    case SaveToQuickNote => SaveSelectionToQuickNote(store, info)
    case SaveImageToQuickNote => SaveImageToQuickNote(store, info, inputs)
    case SaveImageToBlinko => SaveImageToServer(store, info, tab, inputs)
    case SummarizePageContent => ProcessPage(store, info, inputs)
    case ExtractPageContent => ProcessPage(store, info, inputs)
    case OtherItem(_) => Clicked(store, None, false, None, None, None)
  }

  /** Without stored settings the send and image items post, upload and store nothing. */
  lemma NoSettingsNoEffect(store: Store, info: ClickInfo, tab: PageTab, inputs: Inputs)
    requires store.settings.None?
    requires info.item.SendSelectedText? || info.item.SaveImageToQuickNote? || info.item.SaveImageToBlinko?
    ensures var r := HandleClick(store, info, tab, inputs);
      r.store == store && r.sent.None? && r.uploaded.None? && r.notification.Some? &&
      r.notification.value.message == "Settings not found"
  {
  }

  /**
   * A selection click posts exactly when the note server is configured, and
   * flashes the success icon exactly when the server then answers OK;
   * otherwise the notification carries the reason.
   */
  lemma SelectionClickFollowsSend(store: Store, info: ClickInfo, tab: PageTab, inputs: Inputs)
    requires info.item.SendSelectedText? && store.settings.Some?
    ensures var r := HandleClick(store, info, tab, inputs);
      && (r.sent.Some? <==> Configured(store.settings))
      && (r.successIcon <==> Configured(store.settings) && inputs.note.NoteAnswered? && inputs.note.ok)
      && (!Configured(store.settings) ==> r.notification == Some(Notification("Send Failed", ConfigMissing)))
      && (r.sent.Some? ==> r.sent.value.content == ComposeBody(Trim(info.selectionText), tab.url, tab.title, Extract, store.settings.value)
                           && r.sent.value.attachments.None?)
  {
  }

  /**
   * An image click whose upload succeeds posts an image note whose only
   * attachment is the uploaded file, and flashes the success icon exactly
   * when the note server answers OK.
   */
  lemma ImageClickPostsUpload(store: Store, info: ClickInfo, tab: PageTab, inputs: Inputs)
    requires info.item.SaveImageToBlinko? && store.settings.Some? && inputs.imageFetch.Pass?
    requires UploadFile(store.settings.value, inputs.upload).result.Ok?
    ensures var r := HandleClick(store, info, tab, inputs);
      var meta := UploadFile(store.settings.value, inputs.upload).result.value;
      && r.sent.Some?
      && r.sent.value.attachments == Some([Attachment(meta, None, None)])
      && r.sent.value.content == ComposeBody("", tab.url, tab.title, Image, store.settings.value)
      && r.uploaded == Some(StripV1Suffix(store.settings.value.targetUrl.value) + "/file/upload")
      && (r.successIcon <==> inputs.note.NoteAnswered? && inputs.note.ok)
  {
  }
}

=== FILE: jinareader.dfy ===
/**
 * The reader-service request of js/jinaReader.js: the headers chosen from
 * the settings, the request url, and how the JSON answer becomes page
 * content. The service's answer is an input; the function never throws.
 */
module JinaReader {
  import opened Js
  import opened Strings
  import opened Preferences

  const ReaderPrefix := "https://r.jina.ai/"

  /**
   * The request headers: always JSON; image stripping unless images are to
   * be kept; the bearer key only when its use is switched on and a key is set.
   */
  function Headers(s: Settings): (r: map<string, string>)
    ensures "Accept" in r && r["Accept"] == "application/json"
    ensures "X-Retain-Images" in r <==> !Flag(s.saveWebImages)
    ensures "X-Retain-Images" in r ==> r["X-Retain-Images"] == "none"
    ensures "Authorization" in r <==> Flag(s.useJinaApiKey) && Truthy(s.jinaApiKey)
    ensures "Authorization" in r ==> r["Authorization"] == "Bearer " + s.jinaApiKey.value
    ensures r.Keys <= {"Accept", "X-Retain-Images", "Authorization"}
  {
    var base := map["Accept" := "application/json"];
    var images := if !Flag(s.saveWebImages) then base["X-Retain-Images" := "none"] else base;
    if Flag(s.useJinaApiKey) && Truthy(s.jinaApiKey) then images["Authorization" := "Bearer " + s.jinaApiKey.value]
    else images
  }

  /** The request url: the page url, unchanged, after the service's prefix. */
  function RequestUrl(url: string): (r: string)
    ensures ReaderPrefix <= r && r[|ReaderPrefix|..] == url
  {
    ReaderPrefix + url
  }

  /** The page url is recovered from the request url by dropping the prefix. */
  lemma RequestUrlInjective(a: string, b: string)
    requires RequestUrl(a) == RequestUrl(b)
    ensures a == b
  {
    assert a == RequestUrl(a)[|ReaderPrefix|..];
  }

  /** The `data` object of the answer: title, text and url, each possibly missing. */
  datatype Page = Page(title: Option<string>, content: Option<string>, url: Option<string>)

  /** The service's answer: thrown (network, or a body that is not JSON), or a status with the body's code and data. */
  datatype ReaderReply = ReaderThrew(message: string) | ReaderAnswered(ok: bool, status: nat, code: Option<int>, data: Option<Page>)

  /** `{success: true, content, title, url}` or `{success: false, error}`. */
  datatype WebContent = Fetched(content: string, title: Option<string>, url: Option<string>) | NotFetched(error: string)

  /** The markdown the reader's page becomes: its title as a heading, a blank line, then its text. */
  function Heading(title: Option<string>): string {
    "# " + Show(title) + "\n\n"
  }

  /**
   * `getWebContent`: a non-OK status, a body code other than 200 or a
   * missing data object fail with their message; otherwise the content is
   * the heading plus the text, and title and url come from the answer.
   */
  function GetWebContent(reply: ReaderReply): (r: WebContent)
    ensures r.Fetched? <==> reply.ReaderAnswered? && reply.ok && reply.code == Some(200) && reply.data.Some?
    ensures r.Fetched? ==>
      && r.content == Heading(reply.data.value.title) + Show(reply.data.value.content)
      && r.title == reply.data.value.title && r.url == reply.data.value.url
    ensures reply.ReaderThrew? ==> r == NotFetched(reply.message)
    ensures reply.ReaderAnswered? && !reply.ok ==> r == NotFetched("API request failed: " + Decimal(reply.status))
    ensures reply.ReaderAnswered? && reply.ok && !(reply.code == Some(200) && reply.data.Some?) ==>
      r == NotFetched("API response format error")
  {
    match reply
    case ReaderThrew(m) => NotFetched(m)
    case ReaderAnswered(ok, status, code, data) =>
      if !ok then NotFetched("API request failed: " + Decimal(status))
      else if code != Some(200) || data.None? then NotFetched("API response format error")
      else Fetched(Heading(data.value.title) + Show(data.value.content), data.value.title, data.value.url)
  }

  /** The page text is what follows the heading: cutting the heading off recovers it. */
  lemma ContentAfterHeading(reply: ReaderReply)
    requires GetWebContent(reply).Fetched?
    ensures var c := GetWebContent(reply).content;
      var h := Heading(GetWebContent(reply).title);
      h <= c && c[|h|..] == Show(reply.data.value.content)
  {
    var c := GetWebContent(reply).content;
    var h := Heading(reply.data.value.title);
    assert c == h + Show(reply.data.value.content);
  }
}

=== FILE: js.dfy ===
/**
 * Shapes of the JavaScript values the extension reads out of storage, forms
 * and messages: a property that may be `undefined`, an operation that either
 * returns a value or throws with a message, and a number that may be NaN.
 * JavaScript's truthiness tests on those values are spelled out once here.
 */
module Js {

  /** A property that is either `undefined` or holds a value. */
  datatype Option<+T> = None | Some(value: T) {

    /** `x !== undefined ? x : d` */
    function GetOr(d: T): T {
      match this
      case Some(v) => v
      case None => d
    }
  }

  /** The outcome of a step that may throw: its value, or the thrown error's message. */
  datatype Result<+T> = Ok(value: T) | Err(error: string)

  /** A step that returns nothing of interest, or throws. */
  datatype Outcome = Pass | Fail(error: string)

  /** A JavaScript number as far as the extension inspects it: `parseFloat` may yield NaN. */
  datatype Number = NaN | Num(value: real)

  /** A string property is truthy when it is defined and non-empty. */
  predicate Truthy(s: Option<string>) {
    s.Some? && s.value != ""
  }

  /** A boolean property is truthy only when it holds `true`. */
  predicate Flag(b: Option<bool>) {
    b == Some(true)
  }

  /** A number is truthy unless it is undefined, NaN or zero. */
  predicate TruthyNumber(n: Option<Number>) {
    n.Some? && n.value.Num? && n.value.value != 0.0
  }

  /** `s || d` on a string property. */
  function Or(s: Option<string>, d: string): (r: string)
    ensures Truthy(s) ==> r == s.value
    ensures !Truthy(s) ==> r == d
  {
    if Truthy(s) then s.value else d
  }

  /** `${x}` of a possibly undefined string. */
  function Show(s: Option<string>): string {
    match s
    case Some(v) => v
    case None => "undefined"
  }

  /** Decimal rendering of a non-negative integer, as template literals print it. */
  function Decimal(n: nat): (r: string)
    ensures |r| >= 1
    ensures forall i :: 0 <= i < |r| ==> '0' <= r[i] <= '9'
    decreases n
  {
    if n < 10 then [Digit(n)] else Decimal(n / 10) + [Digit(n % 10)]
  }

  function Digit(d: nat): (c: char)
    requires d < 10
    ensures '0' <= c <= '9'
  {
    ['0', '1', '2', '3', '4', '5', '6', '7', '8', '9'][d]
  }
}

=== FILE: messages.dfy ===
/**
 * The runtime messages the popup, the background page and the content
 * script exchange, as one closed union keyed by their `action`, and the
 * payloads of the replies they send back.
 */
module Messages {
  import opened Js
  import opened Storage
  import opened SummaryState
  import opened Api

  /** A page's text and identity, sent with `getContent`. */
  datatype Capture = Capture(content: Option<string>, url: Option<string>, title: Option<string>, isExtractOnly: bool)

  /** A note to save (`saveSummary`): the review screen's and the quick note's request. */
  datatype NoteDraft = NoteDraft(content: string, kind: NoteKind, url: Option<string>, title: Option<string>,
                                 attachments: Option<seq<Attachment>>)

  /** A handler's `{success, error}` answer. */
  datatype Ack = Ack(success: bool, error: Option<string>)

  /** What a finished summary or extraction reports to the popup. */
  datatype SummaryReport = SummaryReport(success: bool, isExtractOnly: Option<bool>, summary: Option<string>,
                                         title: Option<string>, url: Option<string>, error: Option<string>)

  /**
   * The actions, with the fields their handlers read. `FloatingBallResponse`
   * carries the `isExtractOnly` the popup reads from inside its response.
   */
  datatype Message =
    | GetContent(capture: Capture)
    | SaveSummary(note: NoteDraft)
    | ProcessAndSendContent(capture: Capture)
    | ShowNotification(title: Option<string>, message: Option<string>)
    | GetSummaryState
    | ClearSummary
    | HandleSummaryResponse(report: SummaryReport)
    | SaveSummaryResponse(response: Ack)
    | FloatingBallResponse(response: Ack, isExtractOnly: Option<bool>)
    | ClearSummaryResponse(success: Option<bool>)
    | PopupClosed
    | Other(action: string)

  /** The objects passed to `sendResponse`. */
  datatype Reply = Received | Acknowledged(success: bool) | Processing | StateReply(state: State)

  /** `reply.success` as the popup reads it: only an acknowledgement carries the property. */
  predicate ReplySuccess(r: Reply) {
    r.Acknowledged? && r.success
  }

  /** The content script's answer to `getContent`. */
  datatype PageReply = PageReply(success: bool, content: Option<string>, url: Option<string>, title: Option<string>,
                                 error: Option<string>)

  /** How a message sent and awaited came back: the send threw, or it resolved to a reply or to `undefined`. */
  datatype Delivery<+T> = Undelivered(message: string) | Delivered(reply: Option<T>)

  /** The message V8 gives the TypeError of reading `.error` from an `undefined` reply. */
  const UndefinedErrorRead := "Cannot read properties of undefined (reading 'error')"

  /**
   * The shared step of the summarize, extract and page-menu actions: ask the
   * page for its content; a thrown send, an `undefined` reply or an
   * unsuccessful one aborts with the error to show, and a successful one
   * becomes the capture to hand to the background.
   */
  function RequestCapture(page: Delivery<PageReply>, isExtractOnly: bool): (r: Result<Capture>)
    ensures r.Ok? <==> page.Delivered? && page.reply.Some? && page.reply.value.success
    ensures r.Ok? ==> r.value == Capture(page.reply.value.content, page.reply.value.url,
                                         page.reply.value.title, isExtractOnly)
    ensures page.Undelivered? ==> r == Err(page.message)
    ensures page.Delivered? && page.reply.None? ==> r == Err(UndefinedErrorRead)
    ensures page.Delivered? && page.reply.Some? && !page.reply.value.success ==>
      r == Err(Or(page.reply.value.error, "Failed to get content"))
  {
    match page
    case Undelivered(m) => Err(m)
    case Delivered(None) => Err(UndefinedErrorRead)
    case Delivered(Some(p)) =>
      if !p.success then Err(Or(p.error, "Failed to get content"))
      else Ok(Capture(p.content, p.url, p.title, isExtractOnly))
  }

  /** Whether the capture is an extraction changes nothing but its flag: the same page gives the same error or the same content. */
  lemma CaptureFlagOnly(page: Delivery<PageReply>)
    ensures RequestCapture(page, true).Ok? <==> RequestCapture(page, false).Ok?
    ensures RequestCapture(page, true).Err? ==> RequestCapture(page, true) == RequestCapture(page, false)
    ensures RequestCapture(page, true).Ok? ==>
      RequestCapture(page, true).value == RequestCapture(page, false).value.(isExtractOnly := true)
  {
  }
}

=== FILE: popup.dfy ===
/**
 * The popup page (js/popup.js): which tab it opens on, what it cleans up
 * when it closes, the extract button, and its listener for the
 * background's pushes.
 */
module Popup {
  import opened Js
  import opened Strings
  import opened Storage
  import opened View
  import opened Messages
  import opened Review
  import Background
  import QuickNote

  /** The stored quick note has something in it: non-blank text or at least one attachment. */
  predicate HasQuickNote(store: Store) {
    (store.quickNote.Some? && !Blank(store.quickNote.value)) ||
    (store.quickNoteAttachments.Some? && |store.quickNoteAttachments.value| > 0)
  }

  /**
   * The opening tab. A notification click flags the quick note for one
   * tab: in that tab the quick note opens and the flag is consumed, in any
   * other the common tab opens and the flag stays. Without the flag the
   * quick note opens exactly when it has something in it.
   */
  function DefaultTab(store: Store, activeTab: Option<int>): (r: (Tab, Store))
    ensures Flag(store.notificationClicked) && activeTab.Some? && store.notificationTabId == activeTab ==>
      r == (QuickNoteTab, store.(notificationClicked := None, notificationTabId := None))
    ensures Flag(store.notificationClicked) && !(activeTab.Some? && store.notificationTabId == activeTab) ==>
      r == (CommonTab, store)
    ensures !Flag(store.notificationClicked) ==> r.1 == store
    ensures !Flag(store.notificationClicked) ==> (r.0 == QuickNoteTab <==> HasQuickNote(store))
  {
    if Flag(store.notificationClicked) then
      if activeTab.Some? && store.notificationTabId == activeTab then
        (QuickNoteTab, store.(notificationClicked := None, notificationTabId := None))
      else (CommonTab, store)
    else
      var text := store.quickNote.Some? && Trim(store.quickNote.value) != "";
      var atts := store.quickNoteAttachments.Some? && |store.quickNoteAttachments.value| > 0;
      TrimEmptyIffBlank(store.quickNote.GetOr(""));
      if text || atts then (QuickNoteTab, store) else (CommonTab, store)
  }

  /** A pending notification flag for another tab outranks a quick note that has content. */
  lemma FlagForOtherTabOpensCommon(store: Store, activeTab: Option<int>)
    requires Flag(store.notificationClicked) && HasQuickNote(store)
    requires activeTab.None? || store.notificationTabId != activeTab
    ensures DefaultTab(store, activeTab) == (CommonTab, store)
  {
  }

  /** The flag is consumed at most once: reopening in the same tab falls back to the note's content. */
  lemma FlagConsumedOnce(store: Store, activeTab: Option<int>)
    requires Flag(store.notificationClicked) && activeTab.Some? && store.notificationTabId == activeTab
    ensures var after := DefaultTab(store, activeTab).1;
      !Flag(after.notificationClicked) &&
      (DefaultTab(after, activeTab).0 == QuickNoteTab <==> HasQuickNote(store))
  {
  }

  /**
   * Closing the popup: a hidden preview means the review ended, so the
   * draft is removed; an open one keeps it. `popupClosed` is sent either way.
   */
  function Unload(store: Store, preview: Preview): (r: (Store, Message))
    ensures !preview.visible ==> r.0 == store.(currentSummary := None)
    ensures preview.visible ==> r.0 == store
    ensures r.1 == PopupClosed
  {
    (if preview.visible then store else store.(currentSummary := None), PopupClosed)
  }

  /** A draft still under review survives closing the popup and is shown again on reopening. */
  lemma OpenReviewSurvivesClose(store: Store, screen: Screen, reopened: Screen)
    requires screen.preview.visible && reopened.preview == Closed
    requires store.currentSummary.Some? && store.currentSummary.value.summary != ""
    ensures CheckSummaryState(Unload(store, screen.preview).0, reopened).preview.visible
  {
  }

  /**
   * The extract button: the page's content goes to the background marked
   * as an extraction; without a tab or content, the error is what remains.
   */
  function ExtractClick(hasTab: bool, page: Delivery<PageReply>, noTabMessage: string): (r: Result<Message>)
    ensures !hasTab ==> r == Err(noTabMessage)
    ensures hasTab ==> (r.Ok? <==> RequestCapture(page, true).Ok?)
    ensures r.Ok? ==> r.value == GetContent(RequestCapture(page, true).value) && r.value.capture.isExtractOnly
  {
    if !hasTab then Err(noTabMessage)
    else
      match RequestCapture(page, true)
      case Err(e) => Err(e)
      case Ok(c) => Ok(GetContent(c))
  }

  /** The actions the popup's listener answers. */
  predicate PopupAnswers(m: Message) {
    m.HandleSummaryResponse? || m.SaveSummaryResponse? || m.FloatingBallResponse? || m.ClearSummaryResponse?
  }

  /** The listener's effect: the reply, whether it keeps the channel open, and the screen after. */
  datatype Heard = Heard(reply: Option<Reply>, keepOpen: bool, screen: Screen)

  /**
   * The popup's `onMessage` listener: its four actions get `{received:
   * true}` and update the status line (and, for a finished summary, the
   * preview); the channel is never kept open.
   */
  function PopupReceive(m: Message, screen: Screen): (r: Heard)
    ensures r.reply.Some? <==> PopupAnswers(m)
    ensures r.reply.Some? ==> r.reply.value == Received
    ensures !r.keepOpen
    ensures !PopupAnswers(m) ==> r.screen == screen
    ensures r.screen.input == screen.input
    ensures !m.HandleSummaryResponse? ==> r.screen.preview == screen.preview
    ensures m.HandleSummaryResponse? ==> r.screen == ShowSummaryResult(screen, m.report)
    ensures m.SaveSummaryResponse? && m.response.success ==> r.screen.status == Some(Status("Save successful", Success))
    ensures m.SaveSummaryResponse? && !m.response.success ==>
      r.screen.status == Some(Status("Save failed: " + Show(m.response.error), Error))
    ensures m.FloatingBallResponse? && m.response.success ==>
      r.screen.status == Some(Status(Subject(m.isExtractOnly) + " successful", Success))
    ensures m.FloatingBallResponse? && !m.response.success ==>
      r.screen.status == Some(Status(Subject(m.isExtractOnly) + " failed: " + Show(m.response.error), Error))
    ensures m.ClearSummaryResponse? ==>
      r.screen.status == (if Flag(m.success) then Some(Status("Clear successful", Success)) else screen.status)
  {
    match m
    case HandleSummaryResponse(report) => Heard(Some(Received), false, ShowSummaryResult(screen, report))
    case SaveSummaryResponse(a) =>
      var status := if a.success then Status("Save successful", Success) else Status("Save failed: " + Show(a.error), Error);
      Heard(Some(Received), false, screen.(status := Some(status)))
    case FloatingBallResponse(a, x) =>
      var status := if a.success then Status(Subject(x) + " successful", Success)
                    else Status(Subject(x) + " failed: " + Show(a.error), Error);
      Heard(Some(Received), false, screen.(status := Some(status)))
    case ClearSummaryResponse(ok) =>
      Heard(Some(Received), false, if Flag(ok) then screen.(status := Some(Status("Clear successful", Success))) else screen)
    case _ => Heard(None, false, screen)
  }

  /** The popup and the background answer disjoint sets of actions. */
  lemma ListenersDisjoint(m: Message)
    ensures !(PopupAnswers(m) && Background.Answers(m))
  {
  }

  /**
   * Clicking the quick-note notification and then opening the popup in the
   * same tab shows the quick note, and consumes the flag for both keys.
   */
  lemma NotificationClickOpensQuickNote(store: Store, tab: int)
    ensures var flagged := Background.NotificationClick(store, Some(tab));
      var shown := DefaultTab(flagged, Some(tab));
      shown.0 == QuickNoteTab && !Flag(shown.1.notificationClicked) && shown.1.notificationTabId.None?
  {
  }

  /** After the quick note is cleared, and without a pending notification, the popup opens on the common tab. */
  lemma ClearedNoteOpensCommon(store: Store, screen: Screen, live: set<Handle>, activeTab: Option<int>)
    requires !Flag(store.notificationClicked)
    ensures DefaultTab(QuickNote.ClearQuickNote(store, screen, live).0, activeTab).0 == CommonTab
  {
  }

  /** The extract and summarize buttons ask the page the same way: they send the same capture but for its flag. */
  lemma ExtractAndSummarizeAgree(screen: Screen, page: Delivery<PageReply>, noTabMessage: string)
    ensures ExtractClick(true, page, noTabMessage).Ok? <==> SummarizeClick(screen, true, page).1.Some?
    ensures ExtractClick(true, page, noTabMessage).Ok? ==>
      ExtractClick(true, page, noTabMessage).value.capture ==
      SummarizeClick(screen, true, page).1.value.capture.(isExtractOnly := true)
  {
  }
}

=== FILE: quicknote.dfy ===
/**
 * The popup's quick-note tab (js/quickNote.js): the text buffer that is
 * stored as it is typed, the attachment list with its local preview
 * handles, and sending the note. Object URLs are modelled as the set of
 * live handles: creating one adds it, revoking one removes it.
 */
module QuickNote {
  import opened Js
  import opened Strings
  import opened Preferences
  import opened Storage
  import opened View
  import opened Api
  import opened Messages

  /** `saveQuickNote`: typed text is stored unless it is blank. */
  function SaveQuickNote(store: Store, input: string): (r: Store)
    ensures Blank(input) ==> r == store
    ensures !Blank(input) ==> r == store.(quickNote := Some(input))
  {
    TrimEmptyIffBlank(input);
    if Trim(input) == "" then store else store.(quickNote := Some(input))
  }

  /** A blank input never replaces the stored note, whatever was stored. */
  lemma BlankNeverOverwrites(store: Store, input: string)
    requires Blank(input)
    ensures SaveQuickNote(store, input).quickNote == store.quickNote
  {
  }

  // ---------------------------------------------------------------------------
  // loadQuickNote: the preview-repair pass

  /** What fetching an attachment's original url and making an object URL of it gave. */
  datatype Fetch = FetchedAs(handle: Handle) | FetchFailed

  /** An entry needs a preview when it has no local handle but has an original url. */
  predicate NeedsPreview(a: Attachment) {
    !Truthy(a.localUrl) && Truthy(a.originalUrl)
  }

  /** One entry after the repair pass. */
  function RepairEntry(a: Attachment, f: Fetch): (r: Attachment)
    ensures r.meta == a.meta && r.originalUrl == a.originalUrl
    ensures !NeedsPreview(a) || f.FetchFailed? ==> r == a
    ensures NeedsPreview(a) && f.FetchedAs? ==> r.localUrl == Some(f.handle)
  {
    if NeedsPreview(a) && f.FetchedAs? then a.(localUrl := Some(f.handle)) else a
  }

  /** The handles the repair pass creates. */
  function Created(atts: seq<Attachment>, fetches: seq<Fetch>): (r: set<Handle>)
    requires |fetches| == |atts|
    ensures forall h :: h in r <==>
      exists i :: 0 <= i < |atts| && NeedsPreview(atts[i]) && fetches[i] == FetchedAs(h)
  {
    set i | 0 <= i < |atts| && NeedsPreview(atts[i]) && fetches[i].FetchedAs? :: fetches[i].handle
  }

  /** One more entry adds at most its own fetched handle to the created ones. */
  lemma CreatedSnoc(atts: seq<Attachment>, fetches: seq<Fetch>, i: nat)
    requires |fetches| == |atts| && i < |atts|
    ensures Created(atts[..i + 1], fetches[..i + 1]) ==
      Created(atts[..i], fetches[..i]) + (if NeedsPreview(atts[i]) && fetches[i].FetchedAs? then {fetches[i].handle} else {})
  {
    var a, f := atts[..i + 1], fetches[..i + 1];
    var a0, f0 := atts[..i], fetches[..i];
    var extra: set<Handle> := if NeedsPreview(atts[i]) && fetches[i].FetchedAs? then {fetches[i].handle} else {};
    forall h
      ensures h in Created(a, f) <==> h in Created(a0, f0) + extra
    {
      if h in Created(a, f) {
        var k :| 0 <= k < |a| && NeedsPreview(a[k]) && f[k] == FetchedAs(h);
        if k < i {
          assert a0[k] == a[k] && f0[k] == f[k];
        }
      }
      if h in Created(a0, f0) {
        var k :| 0 <= k < |a0| && NeedsPreview(a0[k]) && f0[k] == FetchedAs(h);
        assert a[k] == a0[k] && f[k] == f0[k];
      }
      if h in extra {
        assert a[i] == atts[i] && f[i] == fetches[i];
      }
    }
  }

  /** The handles the first `i` entries of the repair pass create, entry by entry. */
  function CreatedUpTo(atts: seq<Attachment>, fetches: seq<Fetch>, i: nat): set<Handle>
    requires |fetches| == |atts| && i <= |atts|
  {
    if i == 0 then {}
    else
      var entry: set<Handle> := if NeedsPreview(atts[i - 1]) && fetches[i - 1].FetchedAs? then {fetches[i - 1].handle} else {};
      CreatedUpTo(atts, fetches, i - 1) + entry
  }

  /** Collected entry by entry, the created handles are those of the prefix. */
  lemma {:induction false} CreatedUpToPrefix(atts: seq<Attachment>, fetches: seq<Fetch>, i: nat)
    requires |fetches| == |atts| && i <= |atts|
    ensures CreatedUpTo(atts, fetches, i) == Created(atts[..i], fetches[..i])
  {
    if i > 0 {
      CreatedUpToPrefix(atts, fetches, i - 1);
      CreatedSnoc(atts, fetches, i - 1);
    }
  }

  /**
   * The repair pass of `loadQuickNote`, with one fetch result per entry:
   * the list keeps its length and order; an entry that needs a preview gets
   * the fetched handle, and every other entry, or one whose fetch failed,
   * is returned as it was.
   */
  method RepairPreviews(atts: seq<Attachment>, fetches: seq<Fetch>, live: set<Handle>)
    returns (out: seq<Attachment>, live': set<Handle>)
    requires |fetches| == |atts|
    ensures |out| == |atts|
    ensures forall i :: 0 <= i < |atts| ==> out[i] == RepairEntry(atts[i], fetches[i])
    ensures forall i :: 0 <= i < |atts| ==> out[i].meta == atts[i].meta && out[i].originalUrl == atts[i].originalUrl
    ensures forall i :: 0 <= i < |atts| && !NeedsPreview(atts[i]) ==> out[i] == atts[i]
    ensures forall i :: 0 <= i < |atts| && fetches[i].FetchFailed? ==> out[i] == atts[i]
    ensures forall i :: 0 <= i < |atts| && NeedsPreview(atts[i]) && fetches[i].FetchedAs? ==>
      out[i].localUrl == Some(fetches[i].handle)
    ensures live' == live + Created(atts, fetches)
  {
    out := [];
    live' := live;
    for i := 0 to |atts|
      invariant |out| == i
      invariant forall j :: 0 <= j < i ==> out[j] == RepairEntry(atts[j], fetches[j])
      invariant live' == live + CreatedUpTo(atts, fetches, i)
    {
      out := out + [RepairEntry(atts[i], fetches[i])];
      if NeedsPreview(atts[i]) && fetches[i].FetchedAs? {
        live' := live' + {fetches[i].handle};
      }
    }
    CreatedUpToPrefix(atts, fetches, |atts|);
    assert atts[..|atts|] == atts && fetches[..|fetches|] == fetches;
    RepairedEntries(atts, fetches, out);
  }

  /** What each repaired entry keeps follows from its being `RepairEntry` of the original. */
  lemma RepairedEntries(atts: seq<Attachment>, fetches: seq<Fetch>, out: seq<Attachment>)
    requires |fetches| == |atts| == |out|
    requires forall i :: 0 <= i < |atts| ==> out[i] == RepairEntry(atts[i], fetches[i])
    ensures forall i :: 0 <= i < |atts| ==> out[i].meta == atts[i].meta && out[i].originalUrl == atts[i].originalUrl
    ensures forall i :: 0 <= i < |atts| && !NeedsPreview(atts[i]) ==> out[i] == atts[i]
    ensures forall i :: 0 <= i < |atts| && fetches[i].FetchFailed? ==> out[i] == atts[i]
    ensures forall i :: 0 <= i < |atts| && NeedsPreview(atts[i]) && fetches[i].FetchedAs? ==>
      out[i].localUrl == Some(fetches[i].handle)
  {
  }

  /**
   * `loadQuickNote`: a stored note fills the text box; a non-empty stored
   * list is repaired and written back (handles included).
   */
  method LoadQuickNote(store: Store, screen: Screen, fetches: seq<Fetch>, live: set<Handle>)
    returns (store': Store, screen': Screen, live': set<Handle>)
    requires |fetches| == |StoredAttachments(store)|
    ensures Truthy(store.quickNote) ==> screen' == screen.(input := store.quickNote.value)
    ensures !Truthy(store.quickNote) ==> screen' == screen
    ensures StoredAttachments(store) == [] ==> store' == store && live' == live
    ensures StoredAttachments(store) != [] ==>
      && store'.quickNoteAttachments.Some?
      && |store'.quickNoteAttachments.value| == |StoredAttachments(store)|
      && (forall i :: 0 <= i < |StoredAttachments(store)| ==>
            store'.quickNoteAttachments.value[i] == RepairEntry(StoredAttachments(store)[i], fetches[i]))
      && store' == store.(quickNoteAttachments := store'.quickNoteAttachments)
      && live' == live + Created(StoredAttachments(store), fetches)
  {
    screen' := if Truthy(store.quickNote) then screen.(input := store.quickNote.value) else screen;
    var atts := StoredAttachments(store);
    if atts == [] {
      store', live' := store, live;
    } else {
      var repaired;
      repaired, live' := RepairPreviews(atts, fetches, live);
      store' := store.(quickNoteAttachments := Some(repaired));
    }
  }

  // ---------------------------------------------------------------------------
  // updateAttachmentList: the preview source

  /** `path.startsWith('/') ? path : '/' + path` */
  function RootedPath(path: string): (r: string)
    ensures r != [] && r[0] == '/'
    ensures path != [] && path[0] == '/' ==> r == path
    ensures (path == [] || path[0] != '/') ==> r[1..] == path
  {
    if path != [] && path[0] == '/' then path else "/" + path
  }

  /** The server url the previews hang off: the target minus a final "/v1" and trailing slashes. */
  function PreviewBase(targetUrl: string): (r: string)
    ensures r == [] || r[|r| - 1] != '/'
    ensures r <= targetUrl
    ensures !EndsWith(targetUrl, "/") && StripV1Suffix(targetUrl) == targetUrl ==> r == targetUrl
    ensures !EndsWith(StripSlashes(targetUrl), "/v1") ==> r == StripSlashes(targetUrl)
  {
    var v := StripV1Suffix(targetUrl);
    assert v <= targetUrl by {
      var t := StripSlashes(targetUrl);
      assert t == targetUrl[..|t|];
      if EndsWith(t, "/v1") {
        assert v + "/v1" <= targetUrl;
        assert v == targetUrl[..|v|];
      }
    }
    var r := StripSlashes(v);
    assert r == v[..|r|];
    assert targetUrl != [] && !EndsWith(targetUrl, "/") ==> targetUrl[|targetUrl| - 1..] == [targetUrl[|targetUrl| - 1]];
    r
  }

  /**
   * A server url that ends in "/v1" and any slashes loses both: the base is
   * what precedes the "/v1", without its own trailing slashes.
   */
  lemma PreviewBaseDropsV1(base: string, slashes: string)
    requires forall i :: 0 <= i < |slashes| ==> slashes[i] == '/'
    ensures PreviewBase(base + "/v1" + slashes) == StripSlashes(base)
  {
    var t := base + "/v1";
    DropTrailingExact(t, slashes, IsSlash);
    assert StripSlashes(t + slashes) == t;
    assert EndsWith(t, "/v1");
    assert t[..|t| - 3] == base;
  }

  /**
   * The `src` of an attachment's preview image: nothing is drawn without a
   * stored server url; otherwise the local handle when there is one, else
   * the file's path on the server, else no source.
   */
  function PreviewSrc(settings: Option<Settings>, a: Attachment): (r: Option<string>)
    ensures !(settings.Some? && Truthy(settings.value.targetUrl)) ==> r.None?
    ensures settings.Some? && Truthy(settings.value.targetUrl) && Truthy(a.localUrl) ==> r == a.localUrl
    ensures settings.Some? && Truthy(settings.value.targetUrl) && !Truthy(a.localUrl) && a.meta.path != "" ==>
      r == Some(PreviewBase(settings.value.targetUrl.value) + RootedPath(a.meta.path))
    ensures !Truthy(a.localUrl) && a.meta.path == "" ==> r.None?
  {
    if !(settings.Some? && Truthy(settings.value.targetUrl)) then None
    else if Truthy(a.localUrl) then a.localUrl
    else if a.meta.path != "" then Some(PreviewBase(settings.value.targetUrl.value) + RootedPath(a.meta.path))
    else None
  }

  /** A server-side preview url joins base and path with exactly one slash, and keeps the path whole. */
  lemma PreviewSrcJoin(settings: Settings, a: Attachment)
    requires Truthy(settings.targetUrl) && !Truthy(a.localUrl) && a.meta.path != ""
    ensures var src := PreviewSrc(Some(settings), a).value;
      var base := PreviewBase(settings.targetUrl.value);
      && base <= src
      && src[|base|] == '/'
      && (base == [] || src[|base| - 1] != '/')
      && EndsWith(src, a.meta.path)
  {
    var base := PreviewBase(settings.targetUrl.value);
    JoinRooted(base, a.meta.path);
  }

  /** Joining a base without a trailing slash to a rooted path leaves one slash at the seam. */
  lemma JoinRooted(base: string, path: string)
    requires path != "" && (base == [] || base[|base| - 1] != '/')
    ensures var src := base + RootedPath(path);
      && base <= src
      && src[|base|] == '/'
      && (base == [] || src[|base| - 1] != '/')
      && EndsWith(src, path)
  {
    var p := RootedPath(path);
    var src := base + p;
    assert src[|base|] == p[0];
    if path[0] == '/' {
      assert src[|src| - |path|..] == p;
    } else {
      assert p == "/" + path;
      assert src[|src| - |path|..] == p[1..];
    }
  }

  // ---------------------------------------------------------------------------
  // Releasing handles and removing attachments

  /** `clearImageCache`: every handle the list holds is revoked. */
  function ClearImageCache(atts: seq<Attachment>, live: set<Handle>): (r: set<Handle>)
    ensures r <= live
    ensures forall h :: h in live ==> (h in r <==> h !in HandlesOf(atts))
  {
    live - HandlesOf(atts)
  }

  /** `clearAttachments`: the stored handles are revoked and the list is removed from storage. */
  function ClearAttachments(store: Store, live: set<Handle>): (r: (Store, set<Handle>))
    ensures r.0 == store.(quickNoteAttachments := None)
    ensures r.1 <= live && r.1 !! HandlesOf(StoredAttachments(store))
    ensures live - r.1 <= HandlesOf(StoredAttachments(store))
  {
    (store.(quickNoteAttachments := None), ClearImageCache(StoredAttachments(store), live))
  }

  /**
   * `removeAttachment(index)`: the entry's handle is revoked, and the list is
   * stored without that entry, the others in order. An index past the end
   * removes nothing, but the list is still written.
   */
  function RemoveAttachment(store: Store, live: set<Handle>, index: nat): (r: (Store, set<Handle>))
    ensures var atts := StoredAttachments(store);
      && r.0 == store.(quickNoteAttachments := r.0.quickNoteAttachments)
      && r.0.quickNoteAttachments.Some?
      && (index >= |atts| ==> r.0.quickNoteAttachments.value == atts && r.1 == live)
      && (index < |atts| ==> |r.0.quickNoteAttachments.value| == |atts| - 1)
      && (index < |atts| ==> forall j :: 0 <= j < index ==> r.0.quickNoteAttachments.value[j] == atts[j])
      && (index < |atts| ==> forall j :: index <= j < |atts| - 1 ==> r.0.quickNoteAttachments.value[j] == atts[j + 1])
      && (index < |atts| && Truthy(atts[index].localUrl) ==> r.1 == live - {atts[index].localUrl.value})
      && (index < |atts| && !Truthy(atts[index].localUrl) ==> r.1 == live)
  {
    var atts := StoredAttachments(store);
    if index >= |atts| then (store.(quickNoteAttachments := Some(atts)), live)
    else
      var released := if Truthy(atts[index].localUrl) then live - {atts[index].localUrl.value} else live;
      (store.(quickNoteAttachments := Some(atts[..index] + atts[index + 1..])), released)
  }

  /** Putting the removed entry back at its index restores the list. */
  lemma RemoveAttachmentInverse(store: Store, live: set<Handle>, index: nat)
    requires index < |StoredAttachments(store)|
    ensures var atts := StoredAttachments(store);
      var rest := RemoveAttachment(store, live, index).0.quickNoteAttachments.value;
      rest[..index] + [atts[index]] + rest[index..] == atts
  {
    var atts := StoredAttachments(store);
    var rest := RemoveAttachment(store, live, index).0.quickNoteAttachments.value;
    assert rest[..index] == atts[..index];
    assert rest[index..] == atts[index + 1..];
    assert atts[..index] + [atts[index]] + atts[index + 1..] == atts;
  }

  /** Clearing the attachments a second time stores nothing new and releases no further handle. */
  lemma ClearAttachmentsIdempotent(store: Store, live: set<Handle>)
    ensures var once := ClearAttachments(store, live);
      ClearAttachments(once.0, once.1) == once
  {
    var once := ClearAttachments(store, live);
    assert StoredAttachments(once.0) == [];
    assert HandlesOf([]) == {};
    assert ClearImageCache([], once.1) == once.1;
  }

  /** `clearQuickNote`: the box is emptied, the handles revoked, and both storage keys removed. */
  function ClearQuickNote(store: Store, screen: Screen, live: set<Handle>): (r: (Store, Screen, set<Handle>))
    ensures r.0 == store.(quickNote := None, quickNoteAttachments := None)
    ensures r.1 == screen.(input := "")
    ensures r.2 == live - HandlesOf(StoredAttachments(store))
  {
    (store.(quickNote := None, quickNoteAttachments := None), screen.(input := ""),
     ClearImageCache(StoredAttachments(store), live))
  }

  // ---------------------------------------------------------------------------
  // sendQuickNote

  /** The active tab as `sendQuickNote` reads it. */
  datatype TabInfo = TabInfo(url: Option<string>, title: Option<string>)

  /** `response?.error` */
  function ErrorOf(response: Option<Ack>): Option<string> {
    match response
    case Some(a) => a.error
    case None => None
  }

  /** Everything `sendQuickNote` changes, and the `saveSummary` request it sent, if any. */
  datatype QuickSend = QuickSend(store: Store, screen: Screen, live: set<Handle>, sent: Option<NoteDraft>)

  /**
   * `sendQuickNote`: blank text sends nothing; missing settings fail; else
   * the trimmed text goes out as a quick note with the active tab's url and
   * title ("" without a tab) and the stored attachments. Only a successful
   * answer clears the text, the storage keys and the handles.
   */
  function SendQuickNote(store: Store, screen: Screen, live: set<Handle>, tab: Option<TabInfo>,
                         response: Option<Ack>): (r: QuickSend)
    ensures Blank(screen.input) ==>
      r == QuickSend(store, screen.(status := Some(Status("Please enter note content", Error))), live, None)
    ensures !Blank(screen.input) && store.settings.None? ==>
      r == QuickSend(store, screen.(status := Some(Status("Send failed: Settings not found", Error))), live, None)
    ensures r.sent.Some? <==> !Blank(screen.input) && store.settings.Some?
    ensures r.sent.Some? ==>
      && r.sent.value.content == Trim(screen.input)
      && r.sent.value.kind == QuickNote
      && r.sent.value.attachments == Some(StoredAttachments(store))
      && r.sent.value.url == (if tab.Some? then tab.value.url else Some(""))
      && r.sent.value.title == (if tab.Some? then tab.value.title else Some(""))
    ensures r.sent.Some? && response.Some? && response.value.success ==>
      && r.store == store.(quickNote := None, quickNoteAttachments := None)
      && r.screen == screen.(input := "", status := Some(Status("Sent successfully", Success)))
      && r.live == live - HandlesOf(StoredAttachments(store))
    ensures r.sent.Some? && !(response.Some? && response.value.success) ==>
      && r.store == store && r.live == live && r.screen.input == screen.input
      && r.screen.status == Some(Status("Send failed: " + Or(ErrorOf(response), "Unknown error"), Error))
  {
    TrimEmptyIffBlank(screen.input);
    if Trim(screen.input) == "" then
      QuickSend(store, screen.(status := Some(Status("Please enter note content", Error))), live, None)
    else if store.settings.None? then
      QuickSend(store, screen.(status := Some(Status("Send failed: Settings not found", Error))), live, None)
    else
      var atts := StoredAttachments(store);
      var note := NoteDraft(Trim(screen.input), QuickNote,
        if tab.Some? then tab.value.url else Some(""),
        if tab.Some? then tab.value.title else Some(""), Some(atts));
      if response.Some? && response.value.success then
        QuickSend(store.(quickNote := None, quickNoteAttachments := None),
          screen.(input := "", status := Some(Status("Sent successfully", Success))),
          ClearImageCache(atts, live), Some(note))
      else
        QuickSend(store, screen.(status := Some(Status("Send failed: " + Or(ErrorOf(response), "Unknown error"), Error))),
          live, Some(note))
  }

  /** A failed send loses nothing: the text, the stored note, the list and its previews all stay. */
  lemma FailedSendKeepsNote(store: Store, screen: Screen, live: set<Handle>, tab: Option<TabInfo>, error: Option<string>)
    ensures var r := SendQuickNote(store, screen, live, tab, Some(Ack(false, error)));
      r.store == store && r.live == live && r.screen.input == screen.input
  {
  }

  /** A successful send leaves exactly what clearing the quick note leaves: no text, no keys, no handles of the list. */
  lemma SentNoteIsCleared(store: Store, screen: Screen, live: set<Handle>, tab: Option<TabInfo>, response: Option<Ack>)
    requires !Blank(screen.input) && store.settings.Some? && response.Some? && response.value.success
    ensures var r := SendQuickNote(store, screen, live, tab, response);
      var c := ClearQuickNote(store, screen, live);
      r.store == c.0 && r.screen.input == c.1.input && r.live == c.2
  {
  }
}

=== FILE: settings.dfy ===
/**
 * The extension's settings record (js/settings.js): the defaults, the
 * default-filling merge applied when settings are loaded, the normalisation
 * of the settings form on save, and the request that fetches the AI model
 * configuration from the note server.
 */
module Preferences {
  import opened Js
  import opened Strings
  import opened View

  /**
   * The settings object as it sits in synced storage. Every property may be
   * missing (`None`): storage holds whatever an earlier version wrote.
   */
  datatype Settings = Settings(
    targetUrl: Option<string>,
    authKey: Option<string>,
    modelUrl: Option<string>,
    apiKey: Option<string>,
    modelName: Option<string>,
    temperature: Option<Number>,
    promptTemplate: Option<string>,
    includeSummaryUrl: Option<bool>,
    includeSelectionUrl: Option<bool>,
    includeImageUrl: Option<bool>,
    includeQuickNoteUrl: Option<bool>,
    summaryTag: Option<string>,
    selectionTag: Option<string>,
    imageTag: Option<string>,
    enableFloatingBall: Option<bool>,
    jinaApiKey: Option<string>,
    useJinaApiKey: Option<bool>,
    saveWebImages: Option<bool>,
    extractTag: Option<string>)

  const DefaultModelName := "gpt-4o-mini"
  const DefaultTemperature := Num(0.5)
  const ContentPlaceholder := "{content}"

  const DefaultPrompt := @"Please write a clear and concise summary based on the provided webpage content, highlighting the key points without missing any important details.

Requirements:
1. **Summary Structure:**
    *   The first line should be in the format '# Title', giving a brief main title.
    *   A one-sentence summary: Provide a concise and precise statement summarizing the core content of the entire webpage.
    *   Summarize the key points of each major section in the order they appear in the webpage.

2. **Highlight Key Points:** Please identify and emphasize the critical information, themes, key arguments, and conclusions in the webpage. If the content contains important data or conclusions, make sure to include them in the summary.
3. **Cover All Important Aspects:** Ensure that all significant aspects of the webpage are covered, avoiding omission of any key information.

Please note:
*   The summary should be objective and neutral, avoiding personal opinions or emotional tones.
*   The language of the summary should be simple and clear, avoiding overly technical or obscure terms, and the summary should be in English.
*   The length of the summary should be moderate, covering the important content while avoiding being overly long or verbose.
*   Do not provide a concluding statement at the end of the summary, but instead, include a single sentence summarizing it.
Here is the webpage content: {content}"

  const Defaults := Settings(
    targetUrl := Some(""),
    authKey := Some(""),
    modelUrl := Some(""),
    apiKey := Some(""),
    modelName := Some(DefaultModelName),
    temperature := Some(DefaultTemperature),
    promptTemplate := Some(DefaultPrompt),
    includeSummaryUrl := Some(true),
    includeSelectionUrl := Some(true),
    includeImageUrl := Some(true),
    includeQuickNoteUrl := Some(false),
    summaryTag := Some("#Web/Summary"),
    selectionTag := Some("#Web/Excerpt"),
    imageTag := Some("#Web/Image"),
    enableFloatingBall := Some(true),
    jinaApiKey := Some(""),
    useJinaApiKey := Some(false),
    saveWebImages := Some(false),
    extractTag := Some("#Web/Clip"))

  /** `x || d` on a string property: an empty or missing value is replaced. */
  function KeepTruthy(v: Option<string>, d: string): (r: Option<string>)
    ensures Truthy(v) ==> r == v
    ensures !Truthy(v) ==> r == Some(d)
  {
    if Truthy(v) then v else Some(d)
  }

  /** `x !== undefined ? x : d`: only a missing value is replaced. */
  function KeepDefined<T>(v: Option<T>, d: T): (r: Option<T>)
    ensures v.Some? ==> r == v
    ensures v.None? ==> r == Some(d)
  {
    Some(v.GetOr(d))
  }

  /**
   * `loadSettings`: no stored settings, or any failure while loading, gives
   * the defaults. Otherwise the model name, temperature, prompt template and
   * Jina key are replaced when falsy, the toggles and the clip tag only when
   * missing, and everything else (endpoints, keys, the other three tags) is
   * kept as stored.
   */
  function Load(stored: Option<Settings>, failed: bool): (r: Settings)
    ensures failed || stored.None? ==> r == Defaults
    ensures Truthy(r.modelName) && Truthy(r.promptTemplate) && TruthyNumber(r.temperature)
    ensures r.jinaApiKey.Some?
    ensures && r.includeSummaryUrl.Some? && r.includeSelectionUrl.Some? && r.includeImageUrl.Some?
            && r.includeQuickNoteUrl.Some? && r.enableFloatingBall.Some? && r.useJinaApiKey.Some?
            && r.saveWebImages.Some? && r.extractTag.Some?
    ensures !failed && stored.Some? ==> LoadedFrom(stored.value, r)
  {
    if failed || stored.None? then Defaults
    else
      var s := stored.value;
      s.(
        modelName := KeepTruthy(s.modelName, DefaultModelName),
        temperature := if TruthyNumber(s.temperature) then s.temperature else Some(DefaultTemperature),
        promptTemplate := KeepTruthy(s.promptTemplate, DefaultPrompt),
        includeSummaryUrl := KeepDefined(s.includeSummaryUrl, true),
        includeSelectionUrl := KeepDefined(s.includeSelectionUrl, true),
        includeImageUrl := KeepDefined(s.includeImageUrl, true),
        includeQuickNoteUrl := KeepDefined(s.includeQuickNoteUrl, false),
        enableFloatingBall := KeepDefined(s.enableFloatingBall, true),
        jinaApiKey := KeepTruthy(s.jinaApiKey, ""),
        useJinaApiKey := KeepDefined(s.useJinaApiKey, false),
        saveWebImages := KeepDefined(s.saveWebImages, false),
        extractTag := KeepDefined(s.extractTag, "#Web/Clip"))
  }

  /**
   * `r` is what loading `s` yields: every stored value that counts as set is
   * kept, every other defaulted property holds its default, and the
   * properties load never defaults are exactly as stored.
   */
  ghost predicate LoadedFrom(s: Settings, r: Settings) {
    // replaced when falsy
    && (Truthy(s.modelName) ==> r.modelName == s.modelName)
    && (!Truthy(s.modelName) ==> r.modelName == Defaults.modelName)
    && (TruthyNumber(s.temperature) ==> r.temperature == s.temperature)
    && (!TruthyNumber(s.temperature) ==> r.temperature == Defaults.temperature)
    && (Truthy(s.promptTemplate) ==> r.promptTemplate == s.promptTemplate)
    && (!Truthy(s.promptTemplate) ==> r.promptTemplate == Defaults.promptTemplate)
    && (Truthy(s.jinaApiKey) ==> r.jinaApiKey == s.jinaApiKey)
    && (!Truthy(s.jinaApiKey) ==> r.jinaApiKey == Some(""))
    // replaced only when missing: an explicit false or "" survives
    && (s.includeSummaryUrl.Some? ==> r.includeSummaryUrl == s.includeSummaryUrl)
    && (s.includeSelectionUrl.Some? ==> r.includeSelectionUrl == s.includeSelectionUrl)
    && (s.includeImageUrl.Some? ==> r.includeImageUrl == s.includeImageUrl)
    && (s.includeQuickNoteUrl.Some? ==> r.includeQuickNoteUrl == s.includeQuickNoteUrl)
    && (s.enableFloatingBall.Some? ==> r.enableFloatingBall == s.enableFloatingBall)
    && (s.useJinaApiKey.Some? ==> r.useJinaApiKey == s.useJinaApiKey)
    && (s.saveWebImages.Some? ==> r.saveWebImages == s.saveWebImages)
    && (s.extractTag.Some? ==> r.extractTag == s.extractTag)
    && (s.includeSummaryUrl.None? ==> r.includeSummaryUrl == Defaults.includeSummaryUrl)
    && (s.includeSelectionUrl.None? ==> r.includeSelectionUrl == Defaults.includeSelectionUrl)
    && (s.includeImageUrl.None? ==> r.includeImageUrl == Defaults.includeImageUrl)
    && (s.includeQuickNoteUrl.None? ==> r.includeQuickNoteUrl == Defaults.includeQuickNoteUrl)
    && (s.enableFloatingBall.None? ==> r.enableFloatingBall == Defaults.enableFloatingBall)
    && (s.useJinaApiKey.None? ==> r.useJinaApiKey == Defaults.useJinaApiKey)
    && (s.saveWebImages.None? ==> r.saveWebImages == Defaults.saveWebImages)
    && (s.extractTag.None? ==> r.extractTag == Defaults.extractTag)
    // never defaulted
    && r.targetUrl == s.targetUrl && r.authKey == s.authKey
    && r.modelUrl == s.modelUrl && r.apiKey == s.apiKey
    && r.summaryTag == s.summaryTag && r.selectionTag == s.selectionTag && r.imageTag == s.imageTag
  }

  /** A stored temperature of 0 is falsy and loads as 0.5. */
  lemma ZeroTemperatureLoadsDefault(s: Settings)
    requires s.temperature == Some(Num(0.0))
    ensures Load(Some(s), false).temperature == Some(Num(0.5))
  {
  }

  /** Loading what load produced changes nothing. */
  lemma LoadIdempotent(stored: Option<Settings>, failed: bool)
    ensures Load(Some(Load(stored, failed)), false) == Load(stored, failed)
  {
  }

  /** The values of the settings form, before `saveSettings` normalises them. */
  datatype Form = Form(
    targetUrl: string,
    authKey: string,
    modelUrl: string,
    apiKey: string,
    modelName: string,
    temperature: Number,  // what `parseFloat` made of the field
    promptTemplate: string,
    includeSummaryUrl: bool,
    includeSelectionUrl: bool,
    includeImageUrl: bool,
    includeQuickNoteUrl: bool,
    summaryTag: string,
    selectionTag: string,
    imageTag: string,
    enableFloatingBall: bool,
    jinaApiKey: string,
    useJinaApiKey: bool,
    saveWebImages: bool,
    extractTag: string)

  /** The `updateFloatingBallState` push `saveSettings` sends each open tab. */
  datatype FloatingBallPush = FloatingBallPush(tabId: int, enabled: bool)

  /** `saveSettings`: the record written to storage, and the pushes to the open tabs. */
  datatype Saved = Saved(settings: Settings, pushes: seq<FloatingBallPush>)

  /**
   * `saveSettings`: endpoints and keys are trimmed, tags are stored exactly as
   * typed, a blank model name, empty prompt or falsy temperature falls back to
   * the default, and every open tab is told whether the floating ball is on.
   */
  function Save(f: Form, tabs: seq<int>): (r: Saved)
    ensures r.settings.targetUrl == Some(Trim(f.targetUrl)) && r.settings.authKey == Some(Trim(f.authKey))
    ensures r.settings.modelUrl == Some(Trim(f.modelUrl)) && r.settings.apiKey == Some(Trim(f.apiKey))
    ensures r.settings.jinaApiKey == Some(Trim(f.jinaApiKey))
    ensures r.settings.summaryTag == Some(f.summaryTag) && r.settings.selectionTag == Some(f.selectionTag)
    ensures r.settings.imageTag == Some(f.imageTag) && r.settings.extractTag == Some(f.extractTag)
    ensures !Blank(f.modelName) ==> r.settings.modelName == Some(Trim(f.modelName))
    ensures Blank(f.modelName) ==> r.settings.modelName == Some(DefaultModelName)
    ensures f.promptTemplate != "" ==> r.settings.promptTemplate == Some(f.promptTemplate)
    ensures f.promptTemplate == "" ==> r.settings.promptTemplate == Some(DefaultPrompt)
    ensures TruthyNumber(Some(f.temperature)) ==> r.settings.temperature == Some(f.temperature)
    ensures !TruthyNumber(Some(f.temperature)) ==> r.settings.temperature == Some(DefaultTemperature)
    ensures r.settings.includeSummaryUrl == Some(f.includeSummaryUrl)
    ensures r.settings.includeSelectionUrl == Some(f.includeSelectionUrl)
    ensures r.settings.includeImageUrl == Some(f.includeImageUrl)
    ensures r.settings.includeQuickNoteUrl == Some(f.includeQuickNoteUrl)
    ensures r.settings.enableFloatingBall == Some(f.enableFloatingBall)
    ensures r.settings.useJinaApiKey == Some(f.useJinaApiKey)
    ensures r.settings.saveWebImages == Some(f.saveWebImages)
    ensures r.pushes == Pushes(tabs, f.enableFloatingBall)
  {
    TrimEmptyIffBlank(f.modelName);
    var s := Settings(
      targetUrl := Some(Trim(f.targetUrl)),
      authKey := Some(Trim(f.authKey)),
      modelUrl := Some(Trim(f.modelUrl)),
      apiKey := Some(Trim(f.apiKey)),
      modelName := KeepTruthy(Some(Trim(f.modelName)), DefaultModelName),
      temperature := if TruthyNumber(Some(f.temperature)) then Some(f.temperature) else Some(DefaultTemperature),
      promptTemplate := KeepTruthy(Some(f.promptTemplate), DefaultPrompt),
      includeSummaryUrl := Some(f.includeSummaryUrl),
      includeSelectionUrl := Some(f.includeSelectionUrl),
      includeImageUrl := Some(f.includeImageUrl),
      includeQuickNoteUrl := Some(f.includeQuickNoteUrl),
      summaryTag := Some(f.summaryTag),
      selectionTag := Some(f.selectionTag),
      imageTag := Some(f.imageTag),
      enableFloatingBall := Some(f.enableFloatingBall),
      jinaApiKey := Some(Trim(f.jinaApiKey)),
      useJinaApiKey := Some(f.useJinaApiKey),
      saveWebImages := Some(f.saveWebImages),
      extractTag := Some(f.extractTag));
    Saved(s, Pushes(tabs, f.enableFloatingBall))
  }

  /** One push per open tab, in tab order, each carrying the same flag. */
  function Pushes(tabs: seq<int>, enabled: bool): (r: seq<FloatingBallPush>)
    ensures |r| == |tabs|
    ensures forall i :: 0 <= i < |tabs| ==> r[i] == FloatingBallPush(tabs[i], enabled)
  {
    seq(|tabs|, i requires 0 <= i < |tabs| => FloatingBallPush(tabs[i], enabled))
  }

  /** What `saveSettings` wrote is loaded back unchanged: load has nothing left to default. */
  lemma LoadAfterSave(f: Form, tabs: seq<int>)
    ensures Load(Some(Save(f, tabs).settings), false) == Save(f, tabs).settings
  {
  }

  /** The request `fetchAiConfig` sends: its url and its Authorization header. */
  datatype ConfigRequest = ConfigRequest(url: string, authorization: string)

  /** The parts of the server's `/config/list` answer the extension reads. */
  datatype AiConfig = AiConfig(
    provider: Option<string>, endpoint: Option<string>, apiKey: Option<string>, model: Option<string>)

  /** The outcome of the config request: it threw, or the server answered. */
  datatype ConfigReply = ConfigThrew(message: string) | ConfigAnswered(ok: bool, status: nat, config: AiConfig)

  /** The three model fields of the settings form `fetchAiConfig` may fill. */
  datatype ModelFields = ModelFields(modelUrl: string, apiKey: string, modelName: string)

  datatype ConfigOutcome = ConfigOutcome(request: Option<ConfigRequest>, fields: ModelFields, status: Status)

  const ConfigPrefix := "Failed to fetch AI configuration: "

  /**
   * `fetchAiConfig`: with the url or key field blank nothing is requested.
   * Otherwise `/config/list` under the url (trailing slashes removed) is
   * fetched; only an "OpenAI" provider fills the three model fields, and any
   * failure leaves them as they were.
   */
  function FetchAiConfig(targetInput: string, authInput: string, fields: ModelFields, reply: ConfigReply): (r: ConfigOutcome)
    ensures r.request.None? <==> Blank(targetInput) || Blank(authInput)
    ensures r.request.Some? ==> r.request.value == ConfigRequest(StripSlashes(Trim(targetInput)) + "/config/list", Trim(authInput))
    ensures r.fields != fields ==> r.request.Some? && reply.ConfigAnswered? && reply.ok && reply.config.provider == Some("OpenAI")
    ensures r.request.Some? && reply.ConfigAnswered? && reply.ok && reply.config.provider == Some("OpenAI") ==>
      r.fields == ModelFields(Or(reply.config.endpoint, ""), Or(reply.config.apiKey, ""), Or(reply.config.model, ""))
      && r.status == Status("AI configuration successfully fetched", Success)
    ensures r.request.Some? && reply.ConfigAnswered? && reply.ok && reply.config.provider != Some("OpenAI") ==>
      r.status == Status("Currently unsupported AI provider: " + Show(reply.config.provider), Error)
    ensures r.request.None? ==> r.status == Status("Please fill in the Blinko API URL and authentication key first", Error)
    ensures r.request.Some? && reply.ConfigThrew? ==> r.status == Status(ConfigPrefix + reply.message, Error)
    ensures r.request.Some? && reply.ConfigAnswered? && !reply.ok ==>
      r.status == Status(ConfigPrefix + "Failed to fetch configuration: " + Decimal(reply.status), Error)
  {
    TrimEmptyIffBlank(targetInput);
    TrimEmptyIffBlank(authInput);
    var target := Trim(targetInput);
    var auth := Trim(authInput);
    if target == "" || auth == "" then
      ConfigOutcome(None, fields, Status("Please fill in the Blinko API URL and authentication key first", Error))
    else
      var request := Some(ConfigRequest(StripSlashes(target) + "/config/list", auth));
      match reply
      case ConfigThrew(m) =>
        ConfigOutcome(request, fields, Status(ConfigPrefix + m, Error))
      case ConfigAnswered(ok, status, config) =>
        if !ok then
          ConfigOutcome(request, fields, Status(ConfigPrefix + "Failed to fetch configuration: " + Decimal(status), Error))
        else if config.provider == Some("OpenAI") then
          ConfigOutcome(request, ModelFields(Or(config.endpoint, ""), Or(config.apiKey, ""), Or(config.model, "")),
            Status("AI configuration successfully fetched", Success))
        else
          ConfigOutcome(request, fields, Status("Currently unsupported AI provider: " + Show(config.provider), Error))
  }

  /**
   * Fetching the same configuration again changes nothing: a fetched
   * configuration is a fixed point, and a failed fetch kept the fields anyway.
   */
  lemma FetchAiConfigStable(targetInput: string, authInput: string, fields: ModelFields, reply: ConfigReply)
    ensures var once := FetchAiConfig(targetInput, authInput, fields, reply);
      FetchAiConfig(targetInput, authInput, once.fields, reply) == once
  {
  }
}

=== FILE: storage.dfy ===
/**
 * The persisted key/value store the three extension contexts share, as one
 * record: synced `settings`, and the local keys `quickNote`,
 * `quickNoteAttachments`, `currentSummary`, `notificationClicked` and
 * `notificationTabId`. A missing key is `None`.
 */
module Storage {
  import opened Js
  import opened Preferences

  /** An object URL made by `URL.createObjectURL`; it holds memory until revoked. */
  type Handle = string

  /** The metadata the file-upload endpoint returns for an uploaded image. */
  datatype FileMeta = FileMeta(name: string, path: string, size: int, mimeType: string)

  /**
   * An attachment entry: upload metadata, the url the image was taken from,
   * and the local preview handle made from that url, if any.
   */
  datatype Attachment = Attachment(meta: FileMeta, originalUrl: Option<string>, localUrl: Option<Handle>)

  /** The `currentSummary` draft awaiting review. */
  datatype Draft = Draft(summary: string, url: string, title: string, timestamp: int, isExtractOnly: Option<bool>)

  datatype Store = Store(
    settings: Option<Settings>,
    quickNote: Option<string>,
    quickNoteAttachments: Option<seq<Attachment>>,
    currentSummary: Option<Draft>,
    notificationClicked: Option<bool>,
    notificationTabId: Option<int>)

  /** `result.quickNoteAttachments || []` */
  function StoredAttachments(s: Store): seq<Attachment> {
    s.quickNoteAttachments.GetOr([])
  }

  /** The preview handles held by a list of attachments. */
  function HandlesOf(atts: seq<Attachment>): (r: set<Handle>)
    ensures forall h :: h in r <==> exists i :: 0 <= i < |atts| && atts[i].localUrl == Some(h)
  {
    set i | 0 <= i < |atts| && atts[i].localUrl.Some? :: atts[i].localUrl.value
  }
}

=== FILE: strings.dfy ===
/**
 * The string operations the extension applies: `trim`, `includes`,
 * `indexOf`, the first-occurrence `replace` with a string pattern, and
 * removal of a trailing run of one character class (the `/\/+$/` and
 * `/\s+$/` patterns). Characters are Unicode scalar values.
 */
module Strings {
  import opened Js

  /** The line terminators that `.` in a regular expression does not match. */
  predicate IsLineBreak(c: char) {
    c == '\n' || c == '\r' || c == '\U{2028}' || c == '\U{2029}'
  }

  /** JavaScript's WhiteSpace and LineTerminator code points: what `\s` and `trim` recognise. */
  predicate IsSpace(c: char) {
    || IsLineBreak(c)
    || c == ' ' || c == '\t' || c == '\U{000B}' || c == '\U{000C}'
    || c == '\U{00A0}' || c == '\U{1680}' || ('\U{2000}' <= c <= '\U{200A}')
    || c == '\U{202F}' || c == '\U{205F}' || c == '\U{3000}' || c == '\U{FEFF}'
  }

  predicate IsSlash(c: char) {
    c == '/'
  }

  /** Every character of `s` is whitespace (`!s.trim()` holds). */
  predicate Blank(s: string) {
    forall i :: 0 <= i < |s| ==> IsSpace(s[i])
  }

  /** `s` without its longest prefix of characters satisfying `p`. */
  function DropLeading(s: string, p: char -> bool): (r: string)
    ensures |r| <= |s| && r == s[|s| - |r|..]
    ensures forall i :: 0 <= i < |s| - |r| ==> p(s[i])
    ensures r == [] || !p(r[0])
    decreases |s|
  {
    if s != [] && p(s[0]) then DropLeading(s[1..], p) else s
  }

  /** `s` without its longest suffix of characters satisfying `p`. */
  function DropTrailing(s: string, p: char -> bool): (r: string)
    ensures |r| <= |s| && r == s[..|r|]
    ensures forall i :: |r| <= i < |s| ==> p(s[i])
    ensures r == [] || !p(r[|r| - 1])
    decreases |s|
  {
    if s != [] && p(s[|s| - 1]) then DropTrailing(s[..|s| - 1], p) else s
  }

  /** Splitting `s` as a head that does not end in `p` plus a tail made of `p` characters is unique. */
  lemma {:induction false} DropTrailingExact(a: string, b: string, p: char -> bool)
    requires forall i :: 0 <= i < |b| ==> p(b[i])
    requires a == [] || !p(a[|a| - 1])
    ensures DropTrailing(a + b, p) == a
    decreases |b|
  {
    if b == [] {
      assert a + b == a;
    } else {
      var b' := b[..|b| - 1];
      assert (a + b)[..|a + b| - 1] == a + b';
      DropTrailingExact(a, b', p);
    }
  }

  /** Removing a trailing run twice removes nothing more. */
  lemma DropTrailingIdempotent(s: string, p: char -> bool)
    ensures DropTrailing(DropTrailing(s, p), p) == DropTrailing(s, p)
  {
    var r := DropTrailing(s, p);
    assert r + [] == r;
    DropTrailingExact(r, [], p);
  }

  /** `s.replace(/\/+$/, '')` */
  function StripSlashes(s: string): (r: string) {
    DropTrailing(s, IsSlash)
  }

  /** `s.trim()` */
  function Trim(s: string): (r: string)
    ensures |r| <= |s|
    ensures r == [] || (!IsSpace(r[0]) && !IsSpace(r[|r| - 1]))
  {
    DropTrailing(DropLeading(s, IsSpace), IsSpace)
  }

  /** The whitespace `trimStart` removes is blank. */
  lemma LeadingBlank(s: string)
    ensures Blank(s[..|s| - |DropLeading(s, IsSpace)|])
  {
    var k := |s| - |DropLeading(s, IsSpace)|;
    forall i | 0 <= i < k
      ensures IsSpace(s[..k][i])
    {
      assert s[..k][i] == s[i];
    }
  }

  /** The whitespace `trimEnd` removes is blank. */
  lemma TrailingBlank(t: string)
    ensures Blank(t[|DropTrailing(t, IsSpace)|..])
  {
    var n := |DropTrailing(t, IsSpace)|;
    forall i | 0 <= i < |t| - n
      ensures IsSpace(t[n..][i])
    {
      assert t[n..][i] == t[n + i];
    }
  }

  /** `s.trim()` is `s` with a whitespace prefix and a whitespace suffix cut off. */
  lemma TrimShape(s: string) returns (k: nat)
    ensures k + |Trim(s)| <= |s| && Trim(s) == s[k..k + |Trim(s)|]
    ensures Blank(s[..k]) && Blank(s[k + |Trim(s)|..])
  {
    var t := DropLeading(s, IsSpace);
    k := |s| - |t|;
    assert Trim(s) == DropTrailing(t, IsSpace);
    assert Blank(s[..k]) by {
      LeadingBlank(s);
    }
    TrimTail(s, k, t);
  }

  /** Cutting the trailing whitespace off a suffix of `s`. */
  lemma TrimTail(s: string, k: nat, t: string)
    requires k <= |s| && t == s[k..]
    ensures var r := DropTrailing(t, IsSpace);
      k + |r| <= |s| && r == s[k..k + |r|] && Blank(s[k + |r|..])
  {
    var r := DropTrailing(t, IsSpace);
    TrailingBlank(t);
    assert s[k..][..|r|] == s[k..k + |r|];
    assert s[k + |r|..] == t[|r|..];
  }

  /** A string trims to nothing exactly when it is all whitespace. */
  lemma TrimEmptyIffBlank(s: string)
    ensures Trim(s) == [] <==> Blank(s)
  {
    var t := DropLeading(s, IsSpace);
    assert t != [] ==> t[0] == s[|s| - |t|];
    assert Trim(s) == [] ==> s == s[..|s| - |t|] + s[|s| - |t|..];
  }

  /** Trimming leaves no whitespace to remove. */
  lemma {:induction false} TrimIdempotent(s: string)
    ensures Trim(Trim(s)) == Trim(s)
  {
    var r := Trim(s);
    if r != [] {
      assert DropLeading(r, IsSpace) == r;
      assert r + [] == r;
      DropTrailingExact(r, [], IsSpace);
    }
  }

  /** `s.endsWith(suffix)` */
  predicate EndsWith(s: string, suffix: string) {
    |suffix| <= |s| && s[|s| - |suffix|..] == suffix
  }

  /** `t` occurs in `s` at position `i`. */
  predicate HasAt(s: string, t: string, i: nat) {
    i + |t| <= |s| && s[i..i + |t|] == t
  }

  /** The first position at or after `from` where `t` occurs in `s`. */
  function IndexFrom(s: string, t: string, from: nat): (r: Option<nat>)
    requires from <= |s|
    ensures r.Some? ==> from <= r.value && HasAt(s, t, r.value)
    ensures r.Some? ==> forall j :: from <= j < r.value ==> !HasAt(s, t, j)
    ensures r.None? ==> forall j :: from <= j <= |s| ==> !HasAt(s, t, j)
    decreases |s| - from
  {
    if HasAt(s, t, from) then Some(from)
    else if from == |s| then None
    else IndexFrom(s, t, from + 1)
  }

  /** `s.indexOf(t)`, with -1 as None. */
  function IndexOf(s: string, t: string): (r: Option<nat>)
    ensures r.Some? <==> exists j :: 0 <= j <= |s| && HasAt(s, t, j)
  {
    IndexFrom(s, t, 0)
  }

  /** `t` occurs in `s` at position `i` and nowhere before it. */
  predicate FirstAt(s: string, t: string, i: nat) {
    HasAt(s, t, i) && forall j :: 0 <= j < i ==> !HasAt(s, t, j)
  }

  /** `indexOf` finds exactly the first occurrence. */
  lemma IndexOfFirst(s: string, t: string, i: nat)
    ensures IndexOf(s, t) == Some(i) <==> FirstAt(s, t, i)
  {
    if FirstAt(s, t, i) {
      var r := IndexOf(s, t);
      assert r.Some?;
      assert !(r.value < i) && !(i < r.value);
    }
  }

  /** `s.includes(t)` */
  predicate Contains(s: string, t: string) {
    IndexOf(s, t).Some?
  }

  /** Where `t + u` occurs, `t` occurs. */
  lemma ContainsPrefix(s: string, t: string, u: string)
    requires Contains(s, t + u)
    ensures Contains(s, t)
  {
    var i := IndexOf(s, t + u).value;
    assert s[i..i + |t|] == (t + u)[..|t|] == t;
    assert HasAt(s, t, i);
  }

  /** `t` occurs in any string built as `a + t + b`. */
  lemma ContainsInfix(a: string, t: string, b: string)
    ensures Contains(a + t + b, t)
  {
    var s := a + t + b;
    assert s[|a|..|a| + |t|] == t;
    assert HasAt(s, t, |a|);
  }

  /** An occurrence of `t` in `a` is still one in `a + b`. */
  lemma ContainsExtend(a: string, t: string, b: string)
    requires Contains(a, t)
    ensures Contains(a + b, t)
  {
    var i := IndexOf(a, t).value;
    assert (a + b)[i..i + |t|] == a[i..i + |t|];
    assert HasAt(a + b, t, i);
  }

  /**
   * The replacement text JavaScript substitutes for a match of a string
   * pattern (which has no capture groups): `$$` is a dollar sign, `$&` the
   * match, `` $` `` the text before it, `$'` the text after it, and any other
   * `$` stands for itself.
   */
  function Substitution(rep: string, matched: string, before: string, after: string): (r: string)
    ensures rep == "$&" ==> r == matched
    ensures rep == "$$" ==> r == "$"
    ensures rep == "$`" ==> r == before
    ensures rep == "$'" ==> r == after
    decreases |rep|
  {
    if rep == [] then []
    else if rep[0] == '$' && |rep| >= 2 && rep[1] == '$' then "$" + Substitution(rep[2..], matched, before, after)
    else if rep[0] == '$' && |rep| >= 2 && rep[1] == '&' then matched + Substitution(rep[2..], matched, before, after)
    else if rep[0] == '$' && |rep| >= 2 && rep[1] == '`' then before + Substitution(rep[2..], matched, before, after)
    else if rep[0] == '$' && |rep| >= 2 && rep[1] == '\'' then after + Substitution(rep[2..], matched, before, after)
    else [rep[0]] + Substitution(rep[1..], matched, before, after)
  }

  /** A replacement without `$` is inserted literally. */
  lemma {:induction false} SubstitutionLiteral(rep: string, matched: string, before: string, after: string)
    requires '$' !in rep
    ensures Substitution(rep, matched, before, after) == rep
    decreases |rep|
  {
    if rep != [] {
      assert rep[0] != '$';
      assert '$' !in rep[1..];
      SubstitutionLiteral(rep[1..], matched, before, after);
      assert [rep[0]] + rep[1..] == rep;
    }
  }

  /** `s.replace(pat, rep)` for a string `pat`: only the first occurrence is replaced. */
  function ReplaceFirst(s: string, pat: string, rep: string): (r: string)
    ensures IndexOf(s, pat).None? ==> r == s
    ensures forall i: nat :: FirstAt(s, pat, i) ==>
      r == s[..i] + Substitution(rep, pat, s[..i], s[i + |pat|..]) + s[i + |pat|..]
  {
    assert forall i: nat :: FirstAt(s, pat, i) ==> IndexOf(s, pat) == Some(i) by {
      forall i: nat | FirstAt(s, pat, i)
        ensures IndexOf(s, pat) == Some(i)
      {
        IndexOfFirst(s, pat, i);
      }
    }
    match IndexOf(s, pat)
    case None => s
    case Some(i) =>
      var after := s[i + |pat|..];
      s[..i] + Substitution(rep, pat, s[..i], after) + after
  }
}

=== FILE: summary.dfy ===
/**
 * The popup's review flow for a generated summary or an extraction
 * (js/summary.js): restoring a stored draft into the preview, showing a
 * finished result, saving the edited text, cancelling, and starting a
 * summary.
 */
module Review {
  import opened Js
  import opened Strings
  import opened Storage
  import opened View
  import opened Api
  import opened Messages
  import opened SummaryState
  import opened Background

  /** `checkSummaryState`: a stored draft is put into the preview. */
  function CheckSummaryState(store: Store, screen: Screen): (r: Screen)
    ensures store.currentSummary.None? ==> r == screen
    ensures store.currentSummary.Some? ==>
      r == screen.(preview := ShowPreview(screen.preview, store.currentSummary.value.summary,
                                          store.currentSummary.value.title, store.currentSummary.value.url))
  {
    match store.currentSummary
    case None => screen
    case Some(d) => screen.(preview := ShowPreview(screen.preview, d.summary, d.title, d.url))
  }

  /** On a fresh popup, the preview opens exactly when a draft with a non-empty summary is stored. */
  lemma PreviewOnOpen(store: Store, screen: Screen)
    requires screen.preview == Closed
    ensures CheckSummaryState(store, screen).preview.visible <==>
      store.currentSummary.Some? && store.currentSummary.value.summary != ""
    ensures CheckSummaryState(store, screen).preview.visible ==>
      CheckSummaryState(store, screen).preview.text == store.currentSummary.value.summary
  {
  }

  /** "Extraction" or "Summary", by `isExtractOnly`'s truthiness. */
  function Subject(isExtractOnly: Option<bool>): string {
    if Flag(isExtractOnly) then "Extraction" else "Summary"
  }

  /**
   * `handleSummaryResponse`: a success reports itself and opens the preview
   * with the result; a failure reports its error and leaves the preview.
   */
  function ShowSummaryResult(screen: Screen, report: SummaryReport): (r: Screen)
    ensures report.success ==>
      && r.status == Some(Status(if Flag(report.isExtractOnly) then "Extraction Successful" else "Summary Generated Successfully", Success))
      && r.preview == ShowPreview(screen.preview, Or(report.summary, ""), Or(report.title, ""), Or(report.url, ""))
    ensures !report.success ==>
      r == screen.(status := Some(Status(Subject(report.isExtractOnly) + " Failed: " + Show(report.error), Error)))
    ensures r.input == screen.input
  {
    if report.success then
      var text := if Flag(report.isExtractOnly) then "Extraction Successful" else "Summary Generated Successfully";
      Screen(Some(Status(text, Success)),
        ShowPreview(screen.preview, Or(report.summary, ""), Or(report.title, ""), Or(report.url, "")), screen.input)
    else
      screen.(status := Some(Status(Subject(report.isExtractOnly) + " Failed: " + Show(report.error), Error)))
  }

  /** A successful report with a summary always leaves the preview open on that summary. */
  lemma SuccessShowsPreview(screen: Screen, report: SummaryReport)
    requires report.success && Truthy(report.summary)
    ensures ShowSummaryResult(screen, report).preview.visible
    ensures ShowSummaryResult(screen, report).preview.text == report.summary.value
  {
  }

  // ---------------------------------------------------------------------------
  // Saving the reviewed text

  /** The `saveSummary` request for the edited text: typed after the stored draft's `isExtractOnly`. */
  function SaveRequest(text: string, draft: Option<Draft>): (n: NoteDraft)
    ensures n.content == text && n.attachments.None?
    ensures n.kind == (if draft.Some? && Flag(draft.value.isExtractOnly) then Extract else Summary)
    ensures draft.Some? ==> n.url == Some(draft.value.url) && n.title == Some(draft.value.title)
    ensures draft.None? ==> n.url.None? && n.title.None?
  {
    match draft
    case None => NoteDraft(text, Summary, None, None, None)
    case Some(d) => NoteDraft(text, if Flag(d.isExtractOnly) then Extract else Summary, Some(d.url), Some(d.title), None)
  }

  /** The outcome of the save button: what the screen shows, and the request sent, if any. */
  datatype SaveClick = SaveClick(screen: Screen, sent: Option<NoteDraft>)

  /** `.error` of the background's reply: none of the replies carries one. */
  function ReplyError(reply: Delivery<Reply>): string {
    match reply
    case Undelivered(m) => m
    case Delivered(None) => UndefinedErrorRead
    case Delivered(Some(_)) => "Save failed"
  }

  /**
   * The save button: blank text is refused before anything is sent;
   * otherwise the text goes out untrimmed, and the preview is cleared only
   * when the reply says success.
   */
  function SaveEdited(store: Store, screen: Screen, reply: Delivery<Reply>): (r: SaveClick)
    ensures Blank(screen.preview.text) ==>
      r == SaveClick(screen.(status := Some(Status("Save failed: Content cannot be empty", Error))), None)
    ensures !Blank(screen.preview.text) ==> r.sent == Some(SaveRequest(screen.preview.text, store.currentSummary))
    ensures !Blank(screen.preview.text) && reply.Delivered? && reply.reply.Some? && ReplySuccess(reply.reply.value) ==>
      r.screen == Screen(Some(Status("Saved successfully", Success)), Closed, screen.input)
    ensures !(reply.Delivered? && reply.reply.Some? && ReplySuccess(reply.reply.value)) ==>
      r.screen.preview == screen.preview
    ensures !Blank(screen.preview.text) && !(reply.Delivered? && reply.reply.Some? && ReplySuccess(reply.reply.value)) ==>
      r.screen.status == Some(Status("Save failed: " + ReplyError(reply), Error))
    ensures r.screen.input == screen.input
  {
    TrimEmptyIffBlank(screen.preview.text);
    if Trim(screen.preview.text) == "" then
      SaveClick(screen.(status := Some(Status("Save failed: Content cannot be empty", Error))), None)
    else
      var sent := Some(SaveRequest(screen.preview.text, store.currentSummary));
      if reply.Delivered? && reply.reply.Some? && ReplySuccess(reply.reply.value) then
        SaveClick(Screen(Some(Status("Saved successfully", Success)), Closed, screen.input), sent)
      else
        SaveClick(screen.(status := Some(Status("Save failed: " + ReplyError(reply), Error))), sent)
  }

  /**
   * Because the background acknowledges `saveSummary` before saving, a
   * non-blank review is always cleared from the screen, whatever the save
   * itself will report later.
   */
  lemma SaveAlwaysClearsPreview(store: Store, screen: Screen, sender: Option<int>, state: State)
    requires !Blank(screen.preview.text)
    ensures var note := SaveEdited(store, screen, Delivered(None)).sent;
      note.Some? &&
      SaveEdited(store, screen, Delivered(Dispatch(SaveSummary(note.value), sender, state).reply)).screen.preview == Closed
  {
    var note := SaveEdited(store, screen, Delivered(None)).sent;
    assert note == Some(SaveRequest(screen.preview.text, store.currentSummary));
    var reply := Dispatch(SaveSummary(note.value), sender, state).reply;
    assert reply == Some(Acknowledged(true));
    assert ReplySuccess(reply.value);
  }

  /**
   * The cancel button: once the temporary data is cleared, the stored draft
   * is removed and the preview closed; if that clearing throws, nothing changes
   * but the status.
   */
  function Cancel(store: Store, screen: Screen, tempClear: Outcome): (r: (Store, Screen))
    ensures tempClear.Pass? ==>
      r == (store.(currentSummary := None), Screen(Some(Status("Cancelled", Success)), Closed, screen.input))
    ensures tempClear.Fail? ==>
      r == (store, screen.(status := Some(Status("Cancel failed: " + tempClear.error, Error))))
  {
    match tempClear
    case Pass => (store.(currentSummary := None), Screen(Some(Status("Cancelled", Success)), Closed, screen.input))
    case Fail(e) => (store, screen.(status := Some(Status("Cancel failed: " + e, Error))))
  }

  /** After a cancel, reopening the popup shows no preview. */
  lemma CancelDropsDraft(store: Store, screen: Screen, reopened: Screen)
    requires reopened.preview == Closed
    ensures CheckSummaryState(Cancel(store, screen, Pass).0, reopened).preview == Closed
  {
  }

  /**
   * The summarize button: without a tab, or when the page does not answer
   * with content, the failure is shown; otherwise the content goes to the
   * background as a summary request.
   */
  function SummarizeClick(screen: Screen, hasTab: bool, page: Delivery<PageReply>): (r: (Screen, Option<Message>))
    ensures !hasTab ==> r == (screen.(status := Some(Status("Summary failed: Unable to get current tab", Error))), None)
    ensures hasTab && RequestCapture(page, false).Ok? ==>
      r == (screen.(status := Some(Status("Generating summary...", Loading))), Some(GetContent(RequestCapture(page, false).value)))
    ensures hasTab && RequestCapture(page, false).Err? ==>
      r == (screen.(status := Some(Status("Summary failed: " + RequestCapture(page, false).error, Error))), None)
    ensures r.1.Some? ==> !r.1.value.capture.isExtractOnly
  {
    if !hasTab then (screen.(status := Some(Status("Summary failed: Unable to get current tab", Error))), None)
    else
      match RequestCapture(page, false)
      case Err(e) => (screen.(status := Some(Status("Summary failed: " + e, Error))), None)
      case Ok(c) => (screen.(status := Some(Status("Generating summary...", Loading))), Some(GetContent(c)))
  }
}

=== FILE: summarystate.dfy ===
/**
 * The background page's in-memory summary state (js/summaryState.js): a
 * plain object whose keys the handlers overwrite by spreading a partial
 * object over it, reset to a fixed initial value, and the `currentSummary`
 * draft it writes to and reads from storage.
 */
module SummaryState {
  import opened Js
  import opened Storage

  /** The values the state object holds: `null`, strings and flags. */
  datatype Value = Null | Str(text: string) | Bool(flag: bool)

  /** The state object, as a map from property name to value. */
  type State = map<string, Value>

  /** The four keys the initial state defines. */
  const Keys: set<string> := {"status", "summary", "url", "title"}

  /** status 'none', and summary, url and title null. */
  const Initial: State := map["status" := Str("none"), "summary" := Null, "url" := Null, "title" := Null]

  /** The value the initial state gives a key, when it defines one. */
  function InitialValue(k: string): (r: Option<Value>)
    ensures r.Some? <==> k in Keys
    ensures k == "status" ==> r == Some(Str("none"))
    ensures k in Keys && k != "status" ==> r == Some(Null)
  {
    if k == "status" then Some(Str("none"))
    else if k in Keys then Some(Null)
    else None
  }

  /** `{ ...summaryState, ...newState }`: the keys of the patch win, every other key is kept. */
  function Update(s: State, patch: State): (r: State)
    ensures r.Keys == s.Keys + patch.Keys
    ensures forall k :: k in patch ==> r[k] == patch[k]
    ensures forall k :: k in s && k !in patch ==> r[k] == s[k]
  {
    s + patch
  }

  /** Updating with an empty object changes nothing. */
  lemma UpdateEmpty(s: State)
    ensures Update(s, map[]) == s
  {
  }

  /** Two updates in a row are one update with the second patch spread over the first. */
  lemma UpdateTwice(s: State, p: State, q: State)
    ensures Update(Update(s, p), q) == Update(s, Update(p, q))
  {
  }

  /**
   * `clearSummaryState`: whatever the state was, it becomes the initial
   * state, and the stored `currentSummary` draft is removed.
   */
  function Clear(store: Store): (r: (State, Store))
    ensures r.0.Keys == Keys
    ensures forall k :: k in r.0 ==> Some(r.0[k]) == InitialValue(k)
    ensures r.1 == store.(currentSummary := None)
  {
    (Initial, store.(currentSummary := None))
  }

  /** Clearing twice leaves what clearing once leaves. */
  lemma ClearIdempotent(store: Store)
    ensures Clear(Clear(store).1) == Clear(store)
  {
  }

  /**
   * `saveSummaryToStorage`: the draft holds the summary, url and title with
   * the clock's time; it carries no `isExtractOnly` flag.
   */
  function SaveToStorage(store: Store, summary: string, url: string, title: string, now: int): (r: Store)
    ensures r.currentSummary.Some?
    ensures r.currentSummary.value.summary == summary && r.currentSummary.value.url == url
    ensures r.currentSummary.value.title == title && r.currentSummary.value.timestamp == now
    ensures r.currentSummary.value.isExtractOnly.None?
    ensures r.(currentSummary := store.currentSummary) == store
  {
    store.(currentSummary := Some(Draft(summary, url, title, now, None)))
  }

  /** `loadSummaryFromStorage`: the stored draft, or `undefined`. */
  function LoadFromStorage(store: Store): (r: Option<Draft>)
    ensures r.Some? <==> store.currentSummary.Some?
    ensures r.Some? ==> r.value == store.currentSummary.value
  {
    store.currentSummary
  }

  /** Loading after saving gives back the summary, url and title that were saved. */
  lemma SaveThenLoad(store: Store, summary: string, url: string, title: string, now: int)
    ensures var d := LoadFromStorage(SaveToStorage(store, summary, url, title, now));
      d.Some? && d.value.summary == summary && d.value.url == url && d.value.title == title
      && d.value.timestamp == now
  {
  }

  /** Loading after clearing finds no draft. */
  lemma ClearThenLoad(store: Store)
    ensures LoadFromStorage(Clear(store).1).None?
  {
  }

  /** One of the two ways the background changes the state. */
  datatype Op = UpdateOp(patch: State) | ClearOp

  function Apply(s: State, op: Op): State {
    match op
    case UpdateOp(p) => Update(s, p)
    case ClearOp => Initial
  }

  /** The state after the operations, applied first to last. */
  function Run(s: State, ops: seq<Op>): State
    decreases |ops|
  {
    if ops == [] then s else Run(Apply(s, ops[0]), ops[1..])
  }

  /**
   * What `getSummaryState` should report for key `k` after `ops`, read
   * backwards: the value the last operation touching `k` wrote (a clear
   * writes the initial value, or removes a key the initial state lacks),
   * or the starting value if none did.
   */
  function LastValue(s: State, ops: seq<Op>, k: string): Option<Value>
    decreases |ops|
  {
    if ops == [] then (if k in s then Some(s[k]) else None)
    else
      match ops[|ops| - 1]
      case ClearOp => InitialValue(k)
      case UpdateOp(p) => if k in p then Some(p[k]) else LastValue(s, ops[..|ops| - 1], k)
  }

  /** Running `ops + [op]` is running `ops`, then `op`. */
  lemma {:induction false} RunSnoc(s: State, ops: seq<Op>, op: Op)
    ensures Run(s, ops + [op]) == Apply(Run(s, ops), op)
    decreases |ops|
  {
    if ops == [] {
      assert ops + [op] == [op];
      assert Run(s, [op]) == Run(Apply(s, op), []);
    } else {
      assert (ops + [op])[1..] == ops[1..] + [op];
      RunSnoc(Apply(s, ops[0]), ops[1..], op);
    }
  }

  /** `getSummaryState` returns what the last update or clear wrote to each key. */
  lemma {:induction false} GetReturnsLastWrite(s: State, ops: seq<Op>, k: string)
    ensures k in Run(s, ops) <==> LastValue(s, ops, k).Some?
    ensures k in Run(s, ops) ==> LastValue(s, ops, k) == Some(Run(s, ops)[k])
    decreases |ops|
  {
    if ops != [] {
      var init := ops[..|ops| - 1];
      var op := ops[|ops| - 1];
      assert init + [op] == ops;
      RunSnoc(s, init, op);
      GetReturnsLastWrite(s, init, k);
    }
  }
}

=== FILE: view.dfy ===
/**
 * What the popup and the browser show the user, reduced to values: the
 * status line (`showStatus`), system notifications, and the summary preview
 * panel with its text area, title and url fields (`showSummaryPreview`,
 * `clearSummaryPreview`).
 */
module View {
  import opened Js

  /** The CSS class `showStatus` gives the status line. */
  datatype StatusKind = Loading | Success | Error

  datatype Status = Status(text: string, kind: StatusKind)

  /** A basic system notification. */
  datatype Notification = Notification(title: string, message: string)

  /** The preview panel: whether it is displayed, and what its three fields hold. */
  datatype Preview = Preview(visible: bool, text: string, title: string, url: string)

  /** The panel as a freshly opened popup has it, and as `clearSummaryPreview` leaves it. */
  const Closed := Preview(false, "", "", "")

  /**
   * `showSummaryPreview`: nothing happens without a summary; otherwise the
   * panel opens with it, and the title and url fields are overwritten only by
   * non-empty values, so an empty one leaves the previous text in place.
   */
  function ShowPreview(p: Preview, summary: string, title: string, url: string): (r: Preview)
    ensures summary == "" ==> r == p
    ensures summary != "" ==> r.visible && r.text == summary
    ensures summary != "" && title != "" ==> r.title == title
    ensures summary != "" && url != "" ==> r.url == url
    ensures title == "" ==> r.title == p.title
    ensures url == "" ==> r.url == p.url
  {
    if summary == "" then p
    else Preview(true, summary, if title != "" then title else p.title, if url != "" then url else p.url)
  }

  /** The popup's two tabs: general actions, and the quick-note editor. */
  datatype Tab = CommonTab | QuickNoteTab

  /**
   * What the popup's handlers change on screen: the status line (None while
   * it has never been shown), the preview panel and the quick-note text box.
   */
  datatype Screen = Screen(status: Option<Status>, preview: Preview, input: string)
}
